=== FILE: README.md ===
# The DevCook judging pipeline, in Dafny

DevCook is a coding-practice server. A user submits code for a problem. The
submission is queued, and a worker evaluates it:

- C++, Java, Python and JavaScript go to a Judge0 server;
- SQL runs against a fresh SQLite database loaded with the problem's dataset;
- pandas runs as a Python script generated around the user's code.

Each testcase's output is compared with the expected output in one of three
modes: exact, token or table. The overall verdict is resolved from the
testcase statuses, and the submission and the problem's acceptance counters
are stored.

This project models that pipeline:

- the output comparator;
- the verdict resolver;
- the three runners;
- the orchestrator that drives a submission through its statuses;
- the worker's per-user job counter;
- the decisions made by the problem and submission routes: validation,
  visibility of testcases, access control and pagination.

Everything is pure functions over immutable datatypes, except four methods:
Judge0 polling and the Judge0 testcase loop, which have loops, and the
orchestrator's entry point together with its Judge0 branch, which call the
testcase loop. What the code cannot see
is passed in as a parameter, and each of these is an oracle function indexed
by the run's position:

- the database;
- the Judge0 server;
- the SQLite engine;
- the Python process;
- `JSON.stringify`.

The clock is an elapsed-time value inside each oracle's answer.

Modules, one per source file or concern:

| file | module | models |
|---|---|---|
| `wrappers.dfy` | `Wrappers` | `Option` |
| `text.dfy` | `Text` | `split`, `join`, `trim`, `trimStart`, `trimEnd`, `toLowerCase`, `replace` and `/\s+/` tokenising, over ASCII |
| `numbers.dfy` | `Numbers` | `parseInt(s, 10)` |
| `models.dfy` | `Models` | the Problem, Submission and Dataset schemas |
| `comparators.dfy`, `comparator_laws.dfy` | `Comparators`, `ComparatorLaws` | the output comparator and its laws |
| `verdict_logic.dfy` | `VerdictLogic` | verdict resolution and the first failing testcase |
| `judge0_runner.dfy`, `sql_runner.dfy`, `pandas_runner.dfy` | `Judge0Runner`, `SqlRunner`, `PandasRunner` | the runners |
| `evaluator.dfy` | `Evaluator` | the orchestrator |
| `evaluation_worker.dfy` | `EvaluationWorker` | the worker's job counter and the queue's constants |
| `pagination.dfy`, `problem_routes.dfy`, `submission_routes.dfy` | `Pagination`, `ProblemRoutes`, `SubmissionRoutes` | the route logic |

JavaScript semantics are written out explicitly:

- `x || d` on strings is `OrElse`.
- `NaN` from `parseInt`, and the non-finite `Math.ceil(total / 0)`, are `None`.
- A comparison with `NaN` is false. So an unparsable per-user cap never
  delays a job.
- A missing object key reads as `undefined`, which `Array.join` prints as
  nothing.

## Behaviour of the code worth knowing

The model follows the code in each of these.

- An empty testcase list resolves to ACCEPTED, because `every` over nothing
  holds.
- A Judge0 compilation error on testcase `k` leaves `k` earlier results plus
  one runtime-error result for every testcase: `k + n` results in all. They
  are never stored, because a compilation error skips the results.
- A compilation error is stored with status COMPLETED and does not move the
  problem's counters.
- A pandas run killed by the time limit is reported as RE carrying the time
  limit message, never as TLE. No runner ever reports MLE.
- The crash handler stores FAILED / INTERNAL_ERROR, but broadcasts COMPLETED.
- Every error inside an evaluation's main path is caught by the
  orchestrator's own handler. The handler's own re-fetch and save can throw
  as well (server/src/services/evaluator/index.ts:110-112). Such an error
  leaves the evaluation and reaches the worker's rethrow, which makes the
  queue retry the job (server/src/workers/evaluationWorker.ts:34-37).
- A missing dataset is handled like any other crash: FAILED /
  INTERNAL_ERROR, with a COMPLETED broadcast.
- Only SQL and pandas submissions pass through RUNNING. A Judge0 submission
  goes from COMPILING straight to its final status.
- A problem missing from the database stores FAILED / INTERNAL_ERROR without
  any broadcast.
- The per-user cap never rejects a job. A job of a user at the cap waits
  5 seconds once, then runs anyway.

## Model

| member | source | states |
|---|---|---|
| Comparators.Compare | server/src/services/evaluator/comparators/index.ts:10-25 | the result passes exactly when the two outputs are equivalent under the configured mode; a diff is reported exactly on failure; an unrecognised mode behaves as exact |
| Comparators.ExactCompare | server/src/services/evaluator/comparators/index.ts:27-51 | passes iff the normalised (when `trimWhitespace`) and case-folded (when `ignoreCase`) texts are equal; on failure the diff is the line diff of those processed texts |
| Comparators.DiffOf | server/src/services/evaluator/comparators/index.ts:183-206 | the diff lists, in increasing order, exactly the differing lines among the first `min(max, 10)` lines, with a missing line read as empty, and reports `max - 10` more lines exactly when either side has more than 10 lines |
| Comparators.TokenCompare | server/src/services/evaluator/comparators/index.ts:53-94 | token mode compares the whitespace-separated tokens of both outputs; normalising whitespace first never changes the tokens, so `trimWhitespace` has no effect |
| Comparators.NormalizeWhitespaceKeepsTokens | server/src/services/evaluator/comparators/index.ts:157-166 | normalising line endings and trimming lines and the whole text leaves the token sequence unchanged |
| Comparators.CompareTokens | server/src/services/evaluator/comparators/index.ts:66-93 | passes iff the token lists have equal length and agree position by position (case-folded when asked); a count mismatch is reported first, otherwise the first differing position and its two tokens |
| Comparators.FirstTokenMismatch | server/src/services/evaluator/comparators/index.ts:76-91 | the first position at or after `i` whose tokens differ, or none when all agree from there |
| Comparators.NonBlank | server/src/services/evaluator/comparators/index.ts:102-103 | every line kept is non-blank after trimming, and a line is kept exactly when it is an input line that is not blank |
| Comparators.NonBlankAppend | server/src/services/evaluator/comparators/index.ts:102-103 | the filter distributes over concatenation, so with `Comparators.NonBlankSingle` it keeps the non-blank lines in their order |
| Comparators.NonBlankSingle | server/src/services/evaluator/comparators/index.ts:102-103 | a single line is kept exactly when it is not blank after trimming |
| Comparators.NonBlankOfBlank | server/src/services/evaluator/comparators/index.ts:102-103 | lines that are all whitespace are all dropped |
| Comparators.CompareRowSeqs | server/src/services/evaluator/comparators/index.ts:105-124 | order-sensitive table mode passes iff the row counts agree and every row matches its partner after normalisation; a count mismatch is reported first, otherwise the first mismatching row (1-based) |
| Comparators.FirstRowMismatch | server/src/services/evaluator/comparators/index.ts:114-123 | the first position at or after `i` where the two normalised row lists differ, preceded only by agreeing positions, or none exactly when all agree from there |
| Comparators.CompareRowSets | server/src/services/evaluator/comparators/index.ts:125-145 | order-insensitive table mode passes iff the two sets of normalised rows are equal; a unique-count mismatch is reported first, otherwise a missing expected row |
| Comparators.FirstMissing | server/src/services/evaluator/comparators/index.ts:137-144 | the first expected row absent from the actual set, or none exactly when every expected row is present |
| Comparators.TableCompare | server/src/services/evaluator/comparators/index.ts:96-155 | ordered mode passes iff the non-blank rows match pairwise; unordered mode passes iff the sets of normalised rows are equal; a diff exactly on failure |
| Comparators.NormalizeRows | server/src/services/evaluator/comparators/index.ts:168-181 | every row normalised, in order |
| ComparatorLaws.CompareReflexive | server/src/services/evaluator/comparators/index.ts:10-25 | every output passes against itself in every mode, without a diff |
| ComparatorLaws.CompareSymmetric | server/src/services/evaluator/comparators/index.ts:10-25 | swapping actual and expected never changes whether the comparison passes |
| ComparatorLaws.EquivalentSymmetric | server/src/services/evaluator/comparators/index.ts:10-25 | equivalence is symmetric in every mode |
| ComparatorLaws.CompareTransitive | server/src/services/evaluator/comparators/index.ts:10-25 | passing is transitive in every mode |
| ComparatorLaws.EquivalentTransitive | server/src/services/evaluator/comparators/index.ts:10-25 | equivalence is transitive in every mode |
| ComparatorLaws.TokensMatchSymmetric | server/src/services/evaluator/comparators/index.ts:76-91 | token agreement is symmetric |
| ComparatorLaws.TokensMatchTransitive | server/src/services/evaluator/comparators/index.ts:76-91 | token agreement is transitive |
| ComparatorLaws.RowsMatchSymmetric | server/src/services/evaluator/comparators/index.ts:114-123 | pairwise row agreement is symmetric |
| ComparatorLaws.RowsMatchTransitive | server/src/services/evaluator/comparators/index.ts:114-123 | pairwise row agreement is transitive |
| ComparatorLaws.LineEndingsToLfOfJoins | server/src/services/evaluator/comparators/index.ts:159-161 | lines joined by CRLF or by lone CR read as the same lines joined by LF |
| ComparatorLaws.ReplaceCrLfOfCrLfJoin | server/src/services/evaluator/comparators/index.ts:160 | replacing CRLF turns a CRLF-joined text into the LF-joined one |
| ComparatorLaws.ReplaceCrLfOfCrJoin | server/src/services/evaluator/comparators/index.ts:160 | replacing CRLF leaves a CR-joined text unchanged |
| ComparatorLaws.ReplaceCrOfCrJoin | server/src/services/evaluator/comparators/index.ts:161 | replacing lone CR turns a CR-joined text into the LF-joined one |
| ComparatorLaws.LfJoinIsLf | server/src/services/evaluator/comparators/index.ts:159-161 | an LF-joined text is unchanged by line-ending normalisation |
| ComparatorLaws.ExactIgnoresLineEndings | server/src/services/evaluator/comparators/index.ts:35-38 | exact mode with `trimWhitespace` passes CRLF- and CR-joined output against the LF-joined expected output |
| ComparatorLaws.SameLfSamePass | server/src/services/evaluator/comparators/index.ts:35-38 | exact mode with `trimWhitespace` passes any two texts that agree once line endings are unified |
| ComparatorLaws.ExactIgnoresTrailingSpace | server/src/services/evaluator/comparators/index.ts:157-166 | exact mode with `trimWhitespace` passes texts whose lines differ only in trailing whitespace |
| ComparatorLaws.ExactIgnoresSurroundingSpace | server/src/services/evaluator/comparators/index.ts:157-166 | exact mode with `trimWhitespace` passes output with any whitespace, blank lines and line breaks added before and after the whole expected text |
| ComparatorLaws.NormalizeIgnoresSurroundingSpace | server/src/services/evaluator/comparators/index.ts:157-166 | whitespace before and after the whole text, line breaks of any kind included, disappears in normalisation |
| ComparatorLaws.NormalizeIgnoresLeadingSpace | server/src/services/evaluator/comparators/index.ts:157-166 | one leading whitespace character (CR and LF included) disappears in normalisation |
| ComparatorLaws.NormalizeIgnoresTrailingSpace | server/src/services/evaluator/comparators/index.ts:157-166 | one trailing whitespace character (CR and LF included) disappears in normalisation |
| ComparatorLaws.LineEndingsToLfCons | server/src/services/evaluator/comparators/index.ts:159-161 | a character in front either completes a CRLF, which reads as the LF alone, or stays in front, with a CR read as LF |
| ComparatorLaws.LineEndingsToLfSnoc | server/src/services/evaluator/comparators/index.ts:159-161 | a character at the end either completes a CRLF, which reads as the CR alone, or stays at the end, with a CR read as LF |
| ComparatorLaws.LineEndingsToLfConcat | server/src/services/evaluator/comparators/index.ts:159-161 | unifying line endings distributes over concatenation unless the cut splits a CRLF |
| ComparatorLaws.TidyLinesCons | server/src/services/evaluator/comparators/index.ts:162-165 | once line endings are LF, a leading whitespace character does not change the line-trimmed, text-trimmed result |
| ComparatorLaws.TidyLinesSnoc | server/src/services/evaluator/comparators/index.ts:162-165 | once line endings are LF, a trailing whitespace character does not change the line-trimmed, text-trimmed result |
| ComparatorLaws.ExactUntrimmedIsRaw | server/src/services/evaluator/comparators/index.ts:32-45 | exact mode without trimming or case folding is plain string equality |
| ComparatorLaws.TokensOfJoinedWords | server/src/services/evaluator/comparators/index.ts:66-67 | words joined by any whitespace character tokenise back to those words |
| ComparatorLaws.TokensOfAllWords | server/src/services/evaluator/comparators/index.ts:66-67 | tokenising a list of words one by one yields the list itself |
| ComparatorLaws.TokenIgnoresLayout | server/src/services/evaluator/comparators/index.ts:53-94 | token mode passes the same words regardless of the whitespace laid between them |
| ComparatorLaws.TokenSeesWords | server/src/services/evaluator/comparators/index.ts:53-94 | case-sensitive token mode passes two word lists, joined alike, exactly when the lists are equal |
| ComparatorLaws.NormalizeRowIsWords | server/src/services/evaluator/comparators/index.ts:168-181 | with `trimWhitespace` a normalised row is its tokens joined by single spaces, case-folded when asked |
| ComparatorLaws.UnorderedIgnoresOrderAndRepeats | server/src/services/evaluator/comparators/index.ts:125-145 | unordered table mode passes outputs having the same rows in any order and multiplicity |
| ComparatorLaws.SameRowsSameSet | server/src/services/evaluator/comparators/index.ts:127-128 | row lists with the same members normalise to the same set |
| ComparatorLaws.RowsIncluded | server/src/services/evaluator/comparators/index.ts:127-128 | row inclusion survives normalisation |
| ComparatorLaws.MatchingRowsSameNormal | server/src/services/evaluator/comparators/index.ts:114-123 | rows matching pairwise normalise to the same sequence |
| ComparatorLaws.RowsIgnoreBlankLines | server/src/services/evaluator/comparators/index.ts:102-103 | putting blank lines (any whitespace-only text between two line breaks) anywhere into an output leaves its table rows unchanged |
| ComparatorLaws.TableIgnoresBlankLines | server/src/services/evaluator/comparators/index.ts:96-155 | putting blank lines into either the actual or the expected output never changes the table comparison's result, diff included |
| ComparatorLaws.OrderedImpliesUnordered | server/src/services/evaluator/comparators/index.ts:105-145 | output that passes ordered table mode also passes unordered table mode |
| VerdictLogic.Resolve | server/src/services/evaluator/verdictLogic.ts:4-41 | a compilation error wins; otherwise RE, then TLE, then MLE, then FAILED decide in that order whenever present; ACCEPTED exactly when there is no compilation error and every testcase passed |
| VerdictLogic.ResolveIsWorst | server/src/services/evaluator/verdictLogic.ts:14-37 | without a compilation error the verdict is the verdict of the most severe testcase status, checked against an independent severity ranking |
| VerdictLogic.WorstIsMostSevere | server/src/services/evaluator/verdictLogic.ts:14-37 | the reference worst status is at least as severe as every status, and occurs in the list |
| VerdictLogic.ResolveNeverInternal | server/src/services/evaluator/verdictLogic.ts:39-40 | the fallback INTERNAL_ERROR is never returned |
| VerdictLogic.ResolveDependsOnlyOnSet | server/src/services/evaluator/verdictLogic.ts:15-37 | the verdict depends only on which statuses occur, not on their order or count |
| VerdictLogic.ResolveMonotone | server/src/services/evaluator/verdictLogic.ts:15-37 | one more testcase never makes the worst status less severe |
| VerdictLogic.FirstFailingFrom | server/src/services/evaluator/verdictLogic.ts:46 | the first position at or after `i` that did not pass, or none when all passed from there |
| VerdictLogic.FirstFailing | server/src/services/evaluator/verdictLogic.ts:43-47 | the first testcase that did not pass, preceded only by passing ones, or none exactly when all passed |
| VerdictLogic.FirstFailingIffNotAccepted | server/src/services/evaluator/verdictLogic.ts:35-47 | there is a first failing testcase exactly when the verdict resolved from the same testcases' statuses is not ACCEPTED |
| Judge0Runner.LanguageId | server/src/services/evaluator/runners/judge0Runner.ts:198-207 | `cpp` is 54, `java` 62, `javascript` 63, and everything else falls back to Python's 71 |
| Judge0Runner.RequestFor | server/src/services/evaluator/runners/judge0Runner.ts:103-110 | the request carries the code, the testcase's input and expected output, the time limit in seconds and the memory limit in kilobytes |
| Judge0Runner.RunTestcase | server/src/services/evaluator/runners/judge0Runner.ts:95-145 | a failed POST throws its message; a returned result is settled and is the first non-pending poll among at most ten; ten pending polls throw the timeout |
| Judge0Runner.PollFromReturnsSettled | server/src/services/evaluator/runners/judge0Runner.ts:116-144 | the polling loop returns only a settled reply preceded by pending ones, and times out when all remaining polls are pending |
| Judge0Runner.ProcessExecutionResult | server/src/services/evaluator/runners/judge0Runner.ts:147-196 | status 5 is TLE; statuses 3 and 4 are decided by this system's comparator (PASSED iff it passes, with its diff); every other status, or none, is RE; MLE is never reported |
| Judge0Runner.CompileMessage | server/src/services/evaluator/runners/judge0Runner.ts:58 | the compiler output, else stderr, else "Compilation failed", never empty |
| Judge0Runner.CompileErrorResults | server/src/services/evaluator/runners/judge0Runner.ts:60-70 | one RE result per testcase carrying the compiler's message |
| Judge0Runner.CompileAndRun | server/src/services/evaluator/runners/judge0Runner.ts:32-93 | without a compilation error there is one recorded result per testcase, a throwing run giving an internal-error RE; at the first compilation error at `k` the `k` results are followed by one RE per testcase and the non-empty compiler message is returned |
| Judge0Runner.RecordStop | server/src/services/evaluator/runners/judge0Runner.ts:57-73 | stopping at a compilation error yields the results described by `StoppedAt` |
| Judge0Runner.Outcomes | server/src/services/evaluator/runners/judge0Runner.ts:46-54 | run `j` exchanges the request built for testcase `j` with the server |
| SqlRunner.Run | server/src/services/evaluator/runners/sqlRunner.ts:11-73 | the runner throws exactly when the dataset is missing; otherwise one result per testcase, in order, each from a fresh session running the dataset's setup script and the query, and no compile output |
| SqlRunner.RunNeverMemoryLimit | server/src/services/evaluator/runners/sqlRunner.ts:27-66 | the SQL runner never reports MLE, and result `i` belongs to testcase `i` |
| SqlRunner.RunSingleTestcase | server/src/services/evaluator/runners/sqlRunner.ts:75-180 | TLE exactly when the time limit fired first; PASSED or FAILED exactly when the query returned rows, judged by the comparator on the formatted rows; setup and query failures are RE with their messages |
| SqlRunner.TestcaseResult | server/src/services/evaluator/runners/sqlRunner.ts:28-64 | a session's result with the measured time, or an RE when preparing the database threw |
| SqlRunner.SetupScriptLoadsEverything | server/src/services/evaluator/runners/sqlRunner.ts:102-123 | the setup script creates every table in the dataset's order and inserts every row of every table |
| SqlRunner.PlaceholderCount | server/src/services/evaluator/runners/sqlRunner.ts:114-115 | an INSERT statement has exactly one placeholder per column |
| SqlRunner.BindRow | server/src/services/evaluator/runners/sqlRunner.ts:118-120 | one bound value per column, and the value at a column's position is the row's value under that column's name, null when the row lacks it |
| SqlRunner.InsertLinesUp | server/src/services/evaluator/runners/sqlRunner.ts:111-122 | a table with rows gets one prepared INSERT with one placeholder per named column, run for every row with the row's value for each column in the column's position |
| SqlRunner.FormatSQLResultReadsBack | server/src/services/evaluator/runners/sqlRunner.ts:182-193 | formatted rows split back on newlines and `|` into the printed values, when no value contains those separators |
| PandasRunner.Run | server/src/services/evaluator/runners/pandasRunner.ts:12-62 | the runner throws exactly when the dataset is missing; otherwise one result per testcase, in order, from a process running the script built from the code and the dataset |
| PandasRunner.TestcaseResult | server/src/services/evaluator/runners/pandasRunner.ts:28-54 | preparation and spawn failures are RE with their message; a finished process is judged by the comparator on its trimmed stdout; never TLE or MLE |
| PandasRunner.TimeoutIsRuntimeError | server/src/services/evaluator/runners/pandasRunner.ts:176-182 | a process killed by the time limit gives RE with the time limit message and empty stdout |
| PandasRunner.ScriptStatus | server/src/services/evaluator/runners/pandasRunner.ts:96-97 | RE exactly when stderr is non-empty and the exit code is non-zero; otherwise PASSED exactly when the comparator passes, else FAILED, so a non-zero exit code alone is not an error |
| PandasRunner.ExecutePythonScript | server/src/services/evaluator/runners/pandasRunner.ts:147-198 | a failed spawn rejects; a timeout yields empty stdout, the time-limit message, exit code -1 and the limit as runtime; otherwise each stream is the process's stream with a whitespace run cut off each end and no whitespace left at its ends, the exit code (0 when absent) and the measured elapsed time |
| Text.StripsSpaceIsTrim | server/src/services/evaluator/runners/pandasRunner.ts:185-186 | only one text is the stream with whitespace cut off both ends and none left at them, the one `trim` gives, so the stripped streams above are the trimmed ones |
| Text.TrimStripsSpace | server/src/services/evaluator/runners/pandasRunner.ts:185-186 | `trim` cuts a whitespace run off each end and leaves no whitespace at either end |
| PandasRunner.BuildPythonScript | server/src/services/evaluator/runners/pandasRunner.ts:112-145 | the script is the header, the DataFrame lines, the marker, the user's code verbatim and the trailer, each found at its place |
| PandasRunner.DataFrameLinesCount | server/src/services/evaluator/runners/pandasRunner.ts:116-133 | one DataFrame line per table |
| PandasRunner.DataDictOfDistinctColumns | server/src/services/evaluator/runners/pandasRunner.ts:117-129 | with distinct column names, the dictionary has one key per column, in order, holding that column's value in every row |
| PandasRunner.DataDict | server/src/services/evaluator/runners/pandasRunner.ts:117-129 | the keys are column names, at most one per column |
| PandasRunner.Distinct | server/src/services/evaluator/runners/pandasRunner.ts:120-122 | the same names as the input, each once, no more of them than the input has, and any two in the order of their first appearance in the input |
| PandasRunner.DistinctOrderSnoc | server/src/services/evaluator/runners/pandasRunner.ts:120-122 | adding a name at the end keeps first-appearance order: a name already seen stays where it was, a new one goes last |
| PandasRunner.DistinctOfDistinct | server/src/services/evaluator/runners/pandasRunner.ts:120-122 | names without duplicates are kept as they are |
| PandasRunner.ColumnValuesOfUnique | server/src/services/evaluator/runners/pandasRunner.ts:125-129 | a column named once collects exactly its value from each row |
| Evaluator.EvaluateSubmission | server/src/services/evaluator/index.ts:21-121 | a missing submission writes nothing; a missing problem writes one FAILED / INTERNAL_ERROR; otherwise the evaluation starts with the COMPILING write and broadcast, is sound (see `Evaluator.RunOnDatasetSound`), counters move exactly for a judged submission, a Judge0 submission ends as `Evaluator.Judge0Concluded` says and a SQL or pandas one as `Evaluator.DatasetJudged` says |
| Evaluator.EvaluateOnJudge0 | server/src/services/evaluator/index.ts:89-107 | after COMPILING, a Judge0 submission is never handled as a crash and gets exactly one more write, COMPLETED: COMPILATION_ERROR exactly when some run reported a compilation error, and otherwise the verdict of one recorded result per testcase, in order |
| Evaluator.EvaluateOnDataset | server/src/services/evaluator/index.ts:49-107 | a SQL or pandas submission without a dataset id is handled as a crash; with one it is marked RUNNING, crashes exactly when the dataset is missing, and otherwise completes with the verdict of the runner's results |
| Evaluator.RunOnDataset | server/src/services/evaluator/index.ts:49-107 | a problem without a dataset goes to the error handler before anything else; otherwise the submission is first marked RUNNING with progress 10 and the runner's message, the handler runs exactly when the dataset is missing, and otherwise two writes end with the processed runner results and counters updated by their verdict |
| Evaluator.DatasetOutcome | server/src/services/evaluator/index.ts:65-87 | the runner throws exactly when the dataset is missing, and otherwise reports one result per testcase and no compile output |
| Evaluator.RunOnDatasetSound | server/src/services/evaluator/index.ts:49-120 | every write is the same submission; no write shows a verdict before a terminal status; the last status is terminal unless the crashed submission cannot be fetched again; counters move exactly for a judged submission and count its final verdict; a handled crash ends FAILED / INTERNAL_ERROR with a COMPLETED broadcast |
| Evaluator.Conclude | server/src/services/evaluator/index.ts:100-107 | a non-empty compile output is stored as COMPILATION_ERROR without results or counters; otherwise the results are processed and the counters updated by the resolved verdict |
| Evaluator.ConcludeSound | server/src/services/evaluator/index.ts:100-107 | concluding keeps the evaluation sound |
| Evaluator.Recover | server/src/services/evaluator/index.ts:109-120 | the handler re-fetches the submission; when found it stores FAILED / INTERNAL_ERROR and broadcasts COMPLETED; otherwise it writes nothing |
| Evaluator.RecoverSound | server/src/services/evaluator/index.ts:109-120 | the error handler keeps the evaluation sound |
| Evaluator.ProcessTestcaseResults | server/src/services/evaluator/index.ts:141-175 | the submission is COMPLETED with the results, their count, the number of PASSED statuses among them, their runtime total, and the verdict resolved from their statuses, ACCEPTED exactly when all passed; its identity is kept |
| Evaluator.CountPassedIsMultiplicity | server/src/services/evaluator/index.ts:148 | the passed count is the number of times PASSED occurs among the statuses |
| Evaluator.CountPassedAll | server/src/services/evaluator/index.ts:148 | the passed count equals the test count exactly when every result passed |
| Evaluator.SumRuntimeNonNegative | server/src/services/evaluator/index.ts:149 | the total runtime is non-negative when every runtime is |
| Evaluator.SumRuntimeAppend | server/src/services/evaluator/index.ts:149 | the runtime total of two runs of results is the sum of their totals |
| Evaluator.SumRuntimeSingle | server/src/services/evaluator/index.ts:149 | one result's total is its own runtime |
| Evaluator.UpdateProblemStats | server/src/services/evaluator/index.ts:189-201 | one more submission, one more acceptance exactly for ACCEPTED, the rate is acceptances per hundred submissions, and the schema's bounds are kept |
| Evaluator.ReplayCounts | server/src/services/evaluator/index.ts:189-201 | after a run of verdicts the counters count the submissions and the accepted ones, and stay within bounds |
| Evaluator.Dispatch | server/src/services/evaluator/index.ts:49-98 | `sql` goes to the SQL runner, `pandas` to the pandas runner, and every other language to Judge0 |
| EvaluationWorker.ConcurrentJobsPerUser | server/src/workers/evaluationWorker.ts:10 | an unset or empty setting means 3; otherwise the setting is parsed as a decimal integer |
| EvaluationWorker.Start | server/src/workers/evaluationWorker.ts:22-30 | the job waits 5000 ms exactly when the user is at the cap; the user's count goes up by one and no other user's changes |
| EvaluationWorker.Finish | server/src/workers/evaluationWorker.ts:38-46 | the user's count goes down by one, and the entry is removed when the count reaches zero; no other user's changes |
| EvaluationWorker.HandleJob | server/src/workers/evaluationWorker.ts:17-47 | the job waits 5000 ms exactly when its user is at the cap, the failure is passed on for a retry, and, failed or not, the job leaves its user's entry as it found it when that entry was positive and removes it otherwise (absent, zero or negative), so a counter of positive counts comes back unchanged |
| EvaluationWorker.HandleJobRestores | server/src/workers/evaluationWorker.ts:22-46 | a start followed by a finish leaves a counter of positive counts as it found it |
| EvaluationWorker.OverlappingJobsRestore | server/src/workers/evaluationWorker.ts:22-46 | any number of one user's jobs that all start before any finishes leave the counter as it was |
| EvaluationWorker.StartManyCounts | server/src/workers/evaluationWorker.ts:23-30 | `k` starts raise the user's count by `k` |
| EvaluationWorker.FinishManyCounts | server/src/workers/evaluationWorker.ts:40-45 | `k` finishes bring the count back down, deleting it at zero |
| SubmissionRoutes.SubmissionJob | server/src/queues/submissionQueue.ts:10-48 | the job id is the submission id and carries the user and problem; a given non-zero priority is kept, a missing or zero one means 10, so the priority is never zero; 3 attempts, exponential backoff from 2000 ms |
| SubmissionRoutes.Submit | server/src/routes/submissions.ts:14-50 | missing fields are a 400 before any lookup; an unknown problem is a 404; a disallowed language is a 400; otherwise a pending submission with one expected test per testcase is created (201) and queued under its own id |
| SubmissionRoutes.NewSubmission | server/src/routes/submissions.ts:32-38 | a new submission is pending, without verdict or results, and expects one result per testcase |
| SubmissionRoutes.ReadSubmission | server/src/routes/submissions.ts:68-80 | 404 when missing; 403 unless the requester owns it or is an admin; otherwise the submission |
| SubmissionRoutes.MayListSubmissionsOf | server/src/routes/submissions.ts:94-96 | listing is allowed to the owner and to admins |
| SubmissionRoutes.ListingImpliesReading | server/src/routes/submissions.ts:68-96 | whoever may list a user's submissions may read each of them |
| SubmissionRoutes.NonAdminReadsOwnOnly | server/src/routes/submissions.ts:73-78 | a non-admin reads exactly their own submissions |
| SubmissionRoutes.ListSubmissions | server/src/routes/submissions.ts:88-126 | 403 unless allowed; otherwise the page window and the page count of the user's submissions |
| Pagination.WindowOf | server/src/routes/problems.ts:11-25 | absent page and limit mean 1 and 20; both are parsed as decimal integers; documents skipped are `(page - 1) * limit` when both parse |
| Pagination.TotalPages | server/src/routes/problems.ts:76 | for a positive limit the least page count covering all documents; non-finite for a zero limit or an unparsable one |
| Pagination.EveryDocumentOnOnePage | server/src/routes/problems.ts:23-25 | with a positive limit every document is on exactly one page, and that page is among those reported |
| Numbers.ParseInt | server/src/routes/problems.ts:23-24 | all-digit text parses to its value; blank text is NaN |
| Numbers.ParseIntOfParts | server/src/routes/problems.ts:23-24 | leading whitespace, an optional sign, a run of digits and any text not starting with a digit parse to the run's value, negated after `-` |
| Numbers.ParseIntWithoutDigits | server/src/routes/problems.ts:23-24 | leading whitespace and an optional sign not followed by a digit give NaN |
| Numbers.ParseIntOfIntToString | server/src/routes/problems.ts:23-24 | parsing the decimal rendering of any integer gives it back |
| ProblemRoutes.VisibleTestcases | server/src/routes/problems.ts:96-105 | an admin sees every testcase as stored; anyone else sees the public ones only, in order, without expected output |
| ProblemRoutes.NothingLeaks | server/src/routes/problems.ts:96-105 | a non-admin is sent no hidden testcase and no expected output, and every public testcase is sent |
| ProblemRoutes.PublicOnly | server/src/routes/problems.ts:98 | only public testcases, every public one kept |
| ProblemRoutes.PublicOnlyAppend | server/src/routes/problems.ts:98 | the filter distributes over concatenation, so with `PublicOnlySingle` it is the order-keeping filter |
| ProblemRoutes.Detail | server/src/routes/problems.ts:86-107 | 404 when the slug matches nothing; otherwise the problem's other fields unchanged, with its stored testcases replaced by the visible ones |
| ProblemRoutes.DetailHidesFromNonAdmin | server/src/routes/problems.ts:96-107 | a response to anyone but an admin holds no hidden testcase and no expected output anywhere, and lists every public testcase |
| ProblemRoutes.PublicTestcases | server/src/routes/problems.ts:125-131 | the public testcases in order, each reduced to its id and input |
| ProblemRoutes.PublicEndpointAgreesWithView | server/src/routes/problems.ts:96-131 | the public-testcase endpoint and a non-admin's detail view list the same ids and inputs |
| ProblemRoutes.SortDirection | server/src/routes/problems.ts:56 | ascending exactly when `asc` is asked for; descending otherwise |
| ProblemRoutes.TagFilter | server/src/routes/problems.ts:38-41 | no filter for an absent or empty parameter; otherwise comma-separated tags that join back to the parameter |
| ProblemRoutes.TagFilterOfJoin | server/src/routes/problems.ts:38-41 | comma-free tags written comma-separated are read back one by one |
| Models.Statuses | server/src/services/evaluator/index.ts:152 | the status of every result, in order |
| Text.JoinSplit | server/src/services/evaluator/comparators/index.ts:162-164 | splitting and joining on the same separator gives back the text |
| Text.SplitJoin | server/src/routes/problems.ts:39 | separator-free parts joined and split again give back the parts |
| Text.TokensTrim | server/src/services/evaluator/runners/pandasRunner.ts:185-186 | trimming does not change the tokens |

## Left out

- Network, file system, databases, sockets and the clock are not modelled
  directly: each is an oracle parameter, and elapsed times are values inside
  the oracles' answers.
- Base64 encoding of Judge0 requests and replies is not modelled: replies
  arrive already decoded.
- Text is ASCII. `toLowerCase` folds A-Z only, `\s` is space, tab, LF, CR,
  vertical tab and form feed, and there is no Unicode.
- Floating point is not modelled. Runtimes, memory, the acceptance rate and
  fractional table cells are exact reals.
- `JSON.stringify` is a parameter of the pandas script builder. Its output is
  not modelled, only where it is placed.
- Socket.IO payload texts beyond status, progress and message are not
  modelled. Timestamps (`completedAt`) are not modelled either.
- A failed database read or save is not modelled. In the code, a failed save
  inside the evaluation reaches the crash handler. A failure in the
  handler's own re-fetch or save reaches the worker's rethrow and retry.
  Here every read and save succeeds, so neither path is modelled.
- Concurrency is not modelled. The worker's start and finish are atomic
  steps, so the stale count read across the 5-second wait is not modelled.
  Overlapping jobs are covered only in the form "all start, then all finish".
- The queue library's behaviour (retries, backoff, concurrency and rate
  limiting) is not modelled. Only its constants are recorded.
- The table comparator's `catch` branch is not modelled, because the model of
  the table comparison cannot throw.
- The SQL runner's race between its timer and the query is not modelled: which
  one finishes first is part of the oracle's answer.
- The problem listing's search, domain, difficulty and language filters, and
  its sort field, are not modelled: they are handed to MongoDB unchanged.
  Only the tag split and the sort direction are modelled.
- MongoDB's treatment of a NaN skip or limit is not modelled.
- The language map's inherited object keys (such as `constructor`) are not
  modelled: only the four named languages have ids, and everything else falls
  back to Python.
- The unused `compileOutput` parameter of `resolve` is not modelled.
- Authentication, registration, rate limiting, the seed script and the
  client are not modelled.
- The routes' `catch` paths are not modelled. In the code any thrown error is
  a 500; a malformed problem or submission id makes `findById` throw a cast
  error, so it gives 500 rather than 404 (server/src/routes/submissions.ts:21,
  53-56). Here every id is well formed.
- A failure to enqueue after the submission was saved is not modelled. In the
  code the PENDING submission stays stored and is never queued, and the
  client gets a 500 (server/src/routes/submissions.ts:40-47,
  server/src/queues/submissionQueue.ts:53-56). Here queuing always succeeds.
- Evaluator.ReplayCounts: holds only for evaluations that run one after
  another. `updateProblemStats` reads the counters, then writes them back, and
  the worker runs 5 jobs at once, so two overlapping evaluations of one
  problem can lose an update (server/src/services/evaluator/index.ts:189-200,
  server/src/workers/evaluationWorker.ts:50).
- Numbers.ParseInt: its own contract covers all-digit and blank text;
  signs, leading whitespace and trailing text are stated by
  `Numbers.ParseIntOfParts` and `Numbers.ParseIntWithoutDigits`.
- Models.CellText: a number with a fractional part carries the text
  JavaScript's `String` gives it; the shortest round-trip decimal rendering
  (2.5, 500) is not computed. A boolean bound into SQLite comes back from
  the engine oracle as the integer 0 or 1, as SQLite stores it.
- Comparators.Compare: JavaScript `toLowerCase` and `\s` are modelled for ASCII
  only, so non-ASCII case folding and whitespace are weaker than the source's.
- Judge0Runner.ProcessExecutionResult: the runtime is Judge0's time times 1000
  as an exact real, without float rounding or string parsing of `time`.
- Evaluator.UpdateProblemStats: the acceptance rate is an exact rational, not
  a double.
- PandasRunner.BuildPythonScript: the DataFrame lines are stated through the
  JSON encoder parameter, not through JSON's own format.

=== FILE: comparator_laws.dfy ===
/** What the comparator promises a problem author: which differences between
    the program's output and the expected output each mode forgives. */
module ComparatorLaws {
  import opened Text
  import opened Models
  import opened Comparators

  predicate LineFree(lines: seq<string>) {
    forall k :: 0 <= k < |lines| ==> '\r' !in lines[k] && '\n' !in lines[k]
  }

  predicate Words(ts: seq<string>) {
    forall k :: 0 <= k < |ts| ==> |ts[k]| > 0 && NoSpace(ts[k])
  }

  // ---------------------------------------------------------------------------
  // every mode

  lemma CompareReflexive(s: string, cfg: ComparatorConfig)
    ensures Compare(s, s, cfg).passed
    ensures Compare(s, s, cfg).diff.None?
  {
    assert Equivalent(s, s, cfg);
  }

  lemma TokensMatchSymmetric(ta: seq<string>, tb: seq<string>, ignoreCase: bool)
    ensures TokensMatch(ta, tb, ignoreCase) <==> TokensMatch(tb, ta, ignoreCase)
  {
  }

  lemma TokensMatchTransitive(ta: seq<string>, tb: seq<string>, tc: seq<string>, ignoreCase: bool)
    requires TokensMatch(ta, tb, ignoreCase) && TokensMatch(tb, tc, ignoreCase)
    ensures TokensMatch(ta, tc, ignoreCase)
  {
  }

  lemma RowsMatchSymmetric(ra: seq<string>, rb: seq<string>, cfg: ComparatorConfig)
    ensures RowsMatch(ra, rb, cfg) <==> RowsMatch(rb, ra, cfg)
  {
  }

  lemma RowsMatchTransitive(ra: seq<string>, rb: seq<string>, rc: seq<string>, cfg: ComparatorConfig)
    requires RowsMatch(ra, rb, cfg) && RowsMatch(rb, rc, cfg)
    ensures RowsMatch(ra, rc, cfg)
  {
  }

  lemma EquivalentSymmetric(a: string, e: string, cfg: ComparatorConfig)
    ensures Equivalent(a, e, cfg) <==> Equivalent(e, a, cfg)
  {
    match cfg.kind
    case Token => TokensMatchSymmetric(Tokens(a), Tokens(e), cfg.ignoreCase);
    case Table => RowsMatchSymmetric(Rows(a), Rows(e), cfg);
    case _ =>
  }

  lemma CompareSymmetric(a: string, e: string, cfg: ComparatorConfig)
    ensures Compare(a, e, cfg).passed <==> Compare(e, a, cfg).passed
  {
    assert Compare(a, e, cfg).passed == Equivalent(a, e, cfg);
    assert Compare(e, a, cfg).passed == Equivalent(e, a, cfg);
    EquivalentSymmetric(a, e, cfg);
  }

  lemma EquivalentTransitive(a: string, b: string, c: string, cfg: ComparatorConfig)
    requires Equivalent(a, b, cfg) && Equivalent(b, c, cfg)
    ensures Equivalent(a, c, cfg)
  {
    match cfg.kind
    case Token => TokensMatchTransitive(Tokens(a), Tokens(b), Tokens(c), cfg.ignoreCase);
    case Table =>
      if cfg.orderSensitive {
        RowsMatchTransitive(Rows(a), Rows(b), Rows(c), cfg);
      }
    case _ =>
  }

  lemma CompareTransitive(a: string, b: string, c: string, cfg: ComparatorConfig)
    requires Compare(a, b, cfg).passed && Compare(b, c, cfg).passed
    ensures Compare(a, c, cfg).passed
  {
    assert Compare(a, b, cfg).passed == Equivalent(a, b, cfg);
    assert Compare(b, c, cfg).passed == Equivalent(b, c, cfg);
    EquivalentTransitive(a, b, c, cfg);
    assert Compare(a, c, cfg).passed == Equivalent(a, c, cfg);
  }

  // ---------------------------------------------------------------------------
  // line endings

  lemma JoinAvoids(lines: seq<string>, sep: string, c: char)
    requires c !in sep
    requires forall k :: 0 <= k < |lines| ==> c !in lines[k]
    ensures c !in Join(lines, sep)
    decreases |lines|
  {
    if |lines| > 1 {
      JoinAvoids(lines[1..], sep, c);
    }
  }

  lemma {:induction false} ReplaceCrLfOfCrLfJoin(lines: seq<string>)
    requires LineFree(lines)
    ensures ReplaceCrLf(Join(lines, "\r\n")) == Join(lines, "\n")
    decreases |lines|
  {
    if |lines| == 0 {
    } else if |lines| == 1 {
      ReplaceCrLfWithoutCr(lines[0]);
    } else {
      var rest := Join(lines[1..], "\r\n");
      ReplaceCrLfOfCrLfJoin(lines[1..]);
      assert lines[0] + "\r\n" + rest == lines[0] + ("\r\n" + rest);
      ReplaceCrLfAppend(lines[0], "\r\n" + rest);
      assert ("\r\n" + rest)[2..] == rest;
    }
  }

  lemma {:induction false} ReplaceCrLfOfCrJoin(lines: seq<string>)
    requires LineFree(lines)
    ensures ReplaceCrLf(Join(lines, "\r")) == Join(lines, "\r")
    decreases |lines|
  {
    if |lines| == 0 {
    } else if |lines| == 1 {
      ReplaceCrLfWithoutCr(lines[0]);
    } else {
      var rest := Join(lines[1..], "\r");
      ReplaceCrLfOfCrJoin(lines[1..]);
      assert lines[0] + "\r" + rest == lines[0] + ("\r" + rest);
      ReplaceCrLfAppend(lines[0], "\r" + rest);
      JoinAvoids(lines[1..], "\r", '\n');
      if |rest| > 0 {
        assert rest[0] in rest;
      }
      assert ("\r" + rest)[1..] == rest;
    }
  }

  lemma {:induction false} ReplaceCrOfCrJoin(lines: seq<string>)
    requires LineFree(lines)
    ensures ReplaceChar(Join(lines, "\r"), '\r', '\n') == Join(lines, "\n")
    decreases |lines|
  {
    if |lines| == 0 {
    } else if |lines| == 1 {
      ReplaceCharAbsent(lines[0], '\r', '\n');
    } else {
      var rest := Join(lines[1..], "\r");
      ReplaceCrOfCrJoin(lines[1..]);
      ReplaceCharAppend(lines[0] + "\r", rest, '\r', '\n');
      ReplaceCharAppend(lines[0], "\r", '\r', '\n');
      ReplaceCharAbsent(lines[0], '\r', '\n');
    }
  }

  lemma LfJoinIsLf(lines: seq<string>)
    requires LineFree(lines)
    ensures LineEndingsToLf(Join(lines, "\n")) == Join(lines, "\n")
  {
    JoinAvoids(lines, "\n", '\r');
    ReplaceCrLfWithoutCr(Join(lines, "\n"));
    ReplaceCharAbsent(Join(lines, "\n"), '\r', '\n');
  }

  /** Windows (CRLF) and old Mac (CR) line endings read as LF. */
  lemma LineEndingsToLfOfJoins(lines: seq<string>)
    requires LineFree(lines)
    ensures LineEndingsToLf(Join(lines, "\r\n")) == Join(lines, "\n")
    ensures LineEndingsToLf(Join(lines, "\r")) == Join(lines, "\n")
  {
    ReplaceCrLfOfCrLfJoin(lines);
    JoinAvoids(lines, "\n", '\r');
    ReplaceCharAbsent(Join(lines, "\n"), '\r', '\n');
    ReplaceCrLfOfCrJoin(lines);
    ReplaceCrOfCrJoin(lines);
  }

  /** With whitespace trimming on, exact mode does not see which line ending
      the program wrote. */
  lemma ExactIgnoresLineEndings(lines: seq<string>, cfg: ComparatorConfig)
    requires cfg.kind.Exact? && cfg.trimWhitespace
    requires LineFree(lines)
    ensures Compare(Join(lines, "\r\n"), Join(lines, "\n"), cfg).passed
    ensures Compare(Join(lines, "\r"), Join(lines, "\n"), cfg).passed
  {
    var lf := Join(lines, "\n");
    var crlf := Join(lines, "\r\n");
    var cr := Join(lines, "\r");
    LineEndingsToLfOfJoins(lines);
    LfJoinIsLf(lines);
    SameLfSamePass(crlf, lf, cfg);
    SameLfSamePass(cr, lf, cfg);
  }

  lemma SameLfSamePass(a: string, e: string, cfg: ComparatorConfig)
    requires cfg.kind.Exact? && cfg.trimWhitespace
    requires LineEndingsToLf(a) == LineEndingsToLf(e)
    ensures Compare(a, e, cfg).passed
  {
    assert ExactKey(a, cfg) == ExactKey(e, cfg);
    assert NormalizeWhitespace(a) == NormalizeWhitespace(e);
  }

  /** With whitespace trimming on, exact mode forgives trailing whitespace on
      every line. */
  lemma ExactIgnoresTrailingSpace(a: seq<string>, e: seq<string>, cfg: ComparatorConfig)
    requires cfg.kind.Exact? && cfg.trimWhitespace
    requires |a| == |e| >= 1 && LineFree(a) && LineFree(e)
    requires forall k :: 0 <= k < |a| ==> TrimEnd(a[k]) == TrimEnd(e[k])
    ensures Compare(Join(a, "\n"), Join(e, "\n"), cfg).passed
  {
    LfJoinIsLf(a);
    LfJoinIsLf(e);
    SplitJoin(a, '\n');
    SplitJoin(e, '\n');
    assert TrimLineEnds(a) == TrimLineEnds(e);
  }

  /** Without whitespace trimming, exact mode compares the raw text. */
  lemma ExactUntrimmedIsRaw(a: string, e: string, cfg: ComparatorConfig)
    requires cfg.kind.Exact? && !cfg.trimWhitespace && !cfg.ignoreCase
    ensures Compare(a, e, cfg).passed <==> a == e
  {
  }

  /** The normalisation once line endings are unified: trailing whitespace off
      every line, then off the whole text. */
  function TidyLines(l: string): string {
    Trim(Join(TrimLineEnds(Split(l, '\n')), "\n"))
  }

  /** A CR reads as an LF; every other character stays. */
  function LfChar(c: char): char {
    if c == '\r' then '\n' else c
  }

  lemma LineEndingsToLfOfChar(c: char)
    ensures LineEndingsToLf([c]) == [LfChar(c)]
  {
    assert [c][1..] == [];
    assert ReplaceCrLf([c]) == [c] + ReplaceCrLf([]);
    assert ReplaceChar([c], '\r', '\n') == [LfChar(c)] + ReplaceChar([], '\r', '\n');
  }

  lemma LineEndingsToLfConcat(a: string, b: string)
    requires !(|a| > 0 && a[|a| - 1] == '\r' && |b| > 0 && b[0] == '\n')
    ensures LineEndingsToLf(a + b) == LineEndingsToLf(a) + LineEndingsToLf(b)
  {
    ReplaceCrLfConcat(a, b);
    ReplaceCharAppend(ReplaceCrLf(a), ReplaceCrLf(b), '\r', '\n');
  }

  lemma LineEndingsToLfOfBreaks()
    ensures LineEndingsToLf("\r\n") == "\n" && LineEndingsToLf("\n") == "\n" && LineEndingsToLf("\r") == "\n"
  {
    assert "\r\n"[2..] == [];
    assert "\n"[1..] == [];
    assert "\r"[1..] == [];
  }

  /** A character in front either completes a CRLF, which reads as the LF
      alone, or stays in front. */
  lemma LineEndingsToLfCons(c: char, s: string)
    ensures LineEndingsToLf([c] + s) == LineEndingsToLf(s)
            || LineEndingsToLf([c] + s) == [LfChar(c)] + LineEndingsToLf(s)
  {
    if c == '\r' && |s| > 0 && s[0] == '\n' {
      var t := s[1..];
      assert [c] + s == "\r\n" + t;
      assert s == "\n" + t;
      LineEndingsToLfConcat("\r\n", t);
      LineEndingsToLfConcat("\n", t);
      LineEndingsToLfOfBreaks();
    } else {
      LineEndingsToLfConcat([c], s);
      LineEndingsToLfOfChar(c);
    }
  }

  /** A character at the end either completes a CRLF, which reads as the CR
      alone, or stays at the end. */
  lemma LineEndingsToLfSnoc(s: string, c: char)
    ensures LineEndingsToLf(s + [c]) == LineEndingsToLf(s)
            || LineEndingsToLf(s + [c]) == LineEndingsToLf(s) + [LfChar(c)]
  {
    if c == '\n' && |s| > 0 && s[|s| - 1] == '\r' {
      var t := s[..|s| - 1];
      assert s == t + "\r";
      assert s + [c] == t + "\r\n";
      LineEndingsToLfConcat(t, "\r");
      LineEndingsToLfConcat(t, "\r\n");
      LineEndingsToLfOfBreaks();
    } else {
      LineEndingsToLfConcat(s, [c]);
      LineEndingsToLfOfChar(c);
    }
  }

  lemma TrimLineEndsCons(x: string, p: seq<string>)
    ensures TrimLineEnds([x] + p) == [TrimEnd(x)] + TrimLineEnds(p)
  {
    var l, r := TrimLineEnds([x] + p), [TrimEnd(x)] + TrimLineEnds(p);
    forall i | 0 <= i < |l| ensures l[i] == r[i] {
      if i > 0 { assert ([x] + p)[i] == p[i - 1]; }
    }
  }

  lemma TrimLineEndsSnoc(p: seq<string>, x: string)
    ensures TrimLineEnds(p + [x]) == TrimLineEnds(p) + [TrimEnd(x)]
  {
  }

  /** A leading LF only adds an empty first line. */
  lemma TidyLinesLf(l: string)
    ensures TidyLines("\n" + l) == TidyLines(l)
  {
    var t := TrimLineEnds(Split(l, '\n'));
    assert "\n" + l == "" + ['\n'] + l;
    SplitAfterPrefix("", '\n', l);
    TrimLineEndsCons("", Split(l, '\n'));
    assert TrimEnd("") == "";
    JoinCons("", t, "\n");
    assert "" + "\n" + Join(t, "\n") == ['\n'] + Join(t, "\n");
    TrimOfSpaceCons('\n', Join(t, "\n"));
  }

  /** Any other leading whitespace joins the first line. */
  lemma TidyLinesInline(c: char, l: string)
    requires IsSpace(c) && c != '\n'
    ensures TidyLines([c] + l) == TidyLines(l)
  {
    var p := Split(l, '\n');
    SplitCons(c, l, '\n');
    TrimLineEndsCons([c] + p[0], p[1..]);
    TrimLineEndsCons(p[0], p[1..]);
    assert p == [p[0]] + p[1..];
    TrimEndCons(c, p[0]);
    if AllSpace(p[0]) {
      TrimEndOfSpaces(p[0]);
    } else {
      var t := TrimLineEnds(p);
      assert t == [TrimEnd(p[0])] + TrimLineEnds(p[1..]);
      JoinHeadCons(c, t, "\n");
      assert [[c] + t[0]] + t[1..] == [[c] + TrimEnd(p[0])] + TrimLineEnds(p[1..]);
      TrimOfSpaceCons(c, Join(t, "\n"));
    }
  }

  lemma TidyLinesCons(c: char, l: string)
    requires IsSpace(c)
    ensures TidyLines([c] + l) == TidyLines(l)
  {
    if c == '\n' {
      TidyLinesLf(l);
    } else {
      TidyLinesInline(c, l);
    }
  }

  /** A trailing LF only adds an empty last line. */
  lemma TidyLinesSnocLf(l: string)
    ensures TidyLines(l + "\n") == TidyLines(l)
  {
    var p := Split(l, '\n');
    var t := TrimLineEnds(p);
    SplitSnocSep(l, '\n');
    TrimLineEndsSnoc(p, "");
    assert TrimEnd("") == "";
    JoinSnoc(t, "", "\n");
    AppendEmpty(Join(t, "\n") + "\n");
    TrimOfSpaceSnoc(Join(t, "\n"), '\n');
  }

  /** Any other trailing whitespace joins the last line and is trimmed off it. */
  lemma TidyLinesSnocInline(l: string, c: char)
    requires IsSpace(c) && c != '\n'
    ensures TidyLines(l + [c]) == TidyLines(l)
  {
    var p := Split(l, '\n');
    var n := |p|;
    SplitSnoc(l, c, '\n');
    TrimEndAppendSpace(p[n - 1], [c]);
    TrimLineEndsSnoc(p[..n - 1], p[n - 1] + [c]);
    TrimLineEndsSnoc(p[..n - 1], p[n - 1]);
    assert p == p[..n - 1] + [p[n - 1]];
  }

  lemma TidyLinesSnoc(l: string, c: char)
    requires IsSpace(c)
    ensures TidyLines(l + [c]) == TidyLines(l)
  {
    if c == '\n' {
      TidyLinesSnocLf(l);
    } else {
      TidyLinesSnocInline(l, c);
    }
  }

  lemma NormalizeIgnoresLeadingSpace(c: char, s: string)
    requires IsSpace(c)
    ensures NormalizeWhitespace([c] + s) == NormalizeWhitespace(s)
  {
    LineEndingsToLfCons(c, s);
    if LineEndingsToLf([c] + s) != LineEndingsToLf(s) {
      TidyLinesCons(LfChar(c), LineEndingsToLf(s));
    }
  }

  lemma NormalizeIgnoresTrailingSpace(s: string, c: char)
    requires IsSpace(c)
    ensures NormalizeWhitespace(s + [c]) == NormalizeWhitespace(s)
  {
    LineEndingsToLfSnoc(s, c);
    if LineEndingsToLf(s + [c]) != LineEndingsToLf(s) {
      TidyLinesSnoc(LineEndingsToLf(s), LfChar(c));
    }
  }

  /** Normalising forgets any whitespace around the whole text, line breaks
      included. */
  lemma {:induction false} NormalizeIgnoresSurroundingSpace(w: string, s: string, v: string)
    requires AllSpace(w) && AllSpace(v)
    ensures NormalizeWhitespace(w + s + v) == NormalizeWhitespace(s)
    decreases |w| + |v|
  {
    if |w| > 0 {
      var w' := w[1..];
      assert w + s + v == [w[0]] + (w' + s + v);
      assert AllSpace(w') by {
        forall i | 0 <= i < |w'| ensures IsSpace(w'[i]) {
          assert w'[i] == w[i + 1];
        }
      }
      NormalizeIgnoresLeadingSpace(w[0], w' + s + v);
      NormalizeIgnoresSurroundingSpace(w', s, v);
    } else if |v| > 0 {
      var v' := v[..|v| - 1];
      assert w + s + v == (w + s + v') + [v[|v| - 1]];
      assert AllSpace(v') by {
        forall i | 0 <= i < |v'| ensures IsSpace(v'[i]) {
          assert v'[i] == v[i];
        }
      }
      NormalizeIgnoresTrailingSpace(w + s + v', v[|v| - 1]);
      NormalizeIgnoresSurroundingSpace(w, s, v');
    } else {
      assert w + s + v == s;
    }
  }

  /** With whitespace trimming on, exact mode forgives whitespace and blank
      lines before and after the whole output. */
  lemma ExactIgnoresSurroundingSpace(w: string, s: string, v: string, cfg: ComparatorConfig)
    requires cfg.kind.Exact? && cfg.trimWhitespace
    requires AllSpace(w) && AllSpace(v)
    ensures Compare(w + s + v, s, cfg).passed
  {
    NormalizeIgnoresSurroundingSpace(w, s, v);
    assert ExactKey(w + s + v, cfg) == ExactKey(s, cfg);
  }

  // ---------------------------------------------------------------------------
  // token mode

  lemma {:induction false} TokensOfAllWords(ts: seq<string>)
    requires Words(ts)
    ensures TokensOfAll(ts) == ts
    decreases |ts|
  {
    if |ts| > 0 {
      TokensOfAllWords(ts[1..]);
      NoSpaceTokens(ts[0]);
      assert [ts[0]] + ts[1..] == ts;
    }
  }

  /** Words joined by any whitespace character split back into those words. */
  lemma TokensOfJoinedWords(ts: seq<string>, c: char)
    requires Words(ts) && IsSpace(c)
    ensures Tokens(Join(ts, [c])) == ts
  {
    TokensOfJoin(ts, c);
    TokensOfAllWords(ts);
  }

  /** Token mode forgives how the words are laid out: spaces against
      newlines against tabs. */
  lemma TokenIgnoresLayout(ts: seq<string>, c: char, d: char, cfg: ComparatorConfig)
    requires cfg.kind.Token?
    requires Words(ts) && IsSpace(c) && IsSpace(d)
    ensures Compare(Join(ts, [c]), Join(ts, [d]), cfg).passed
  {
    TokensOfJoinedWords(ts, c);
    TokensOfJoinedWords(ts, d);
  }

  /** Token mode tells apart outputs with different words. */
  lemma TokenSeesWords(ts: seq<string>, us: seq<string>, c: char, cfg: ComparatorConfig)
    requires cfg.kind.Token? && !cfg.ignoreCase
    requires Words(ts) && Words(us) && IsSpace(c)
    ensures Compare(Join(ts, [c]), Join(us, [c]), cfg).passed <==> ts == us
  {
    TokensOfJoinedWords(ts, c);
    TokensOfJoinedWords(us, c);
  }

  // ---------------------------------------------------------------------------
  // table mode

  /** With whitespace trimming on, a normalised row is its words joined by
      single spaces. */
  lemma NormalizeRowIsWords(row: string, cfg: ComparatorConfig)
    requires cfg.trimWhitespace
    ensures NormalizeRow(row, cfg) == Fold(Join(Tokens(row), " "), cfg.ignoreCase)
  {
    var t := Trim(row);
    if |t| > 0 {
      TrimStartKeepsLast(TrimEnd(row));
    }
    CollapseSpacesJoinsTokens(t);
    TokensTrim(row);
  }

  /** The unordered table mode depends only on which rows occur: order and
      repetition are forgiven. */
  lemma UnorderedIgnoresOrderAndRepeats(a: string, e: string, cfg: ComparatorConfig)
    requires cfg.kind.Table? && !cfg.orderSensitive
    requires forall x :: x in Rows(a) <==> x in Rows(e)
    ensures Compare(a, e, cfg).passed
  {
    SameRowSet(a, e, cfg);
    assert Equivalent(a, e, cfg);
  }

  lemma SameRowSet(a: string, e: string, cfg: ComparatorConfig)
    requires forall x :: x in Rows(a) <==> x in Rows(e)
    ensures RowSet(a, cfg) == RowSet(e, cfg)
  {
    SameRowsSameSet(Rows(a), Rows(e), cfg);
  }

  lemma SameRowsSameSet(ra: seq<string>, re: seq<string>, cfg: ComparatorConfig)
    requires forall x :: x in ra <==> x in re
    ensures (set x | x in NormalizeRows(ra, cfg)) == (set x | x in NormalizeRows(re, cfg))
  {
    RowsIncluded(ra, re, cfg);
    RowsIncluded(re, ra, cfg);
  }

  /** Rows that all occur on the other side normalise into the other side's
      set. */
  lemma RowsIncluded(ra: seq<string>, re: seq<string>, cfg: ComparatorConfig)
    requires forall x :: x in ra ==> x in re
    ensures (set x | x in NormalizeRows(ra, cfg)) <= (set x | x in NormalizeRows(re, cfg))
  {
    var na, ne := NormalizeRows(ra, cfg), NormalizeRows(re, cfg);
    forall x | x in na
      ensures x in ne
    {
      var k :| 0 <= k < |ra| && na[k] == x;
      assert ra[k] in re;
      var m :| 0 <= m < |re| && re[m] == ra[k];
      assert ne[m] == x;
    }
  }

  /** Rows matching in order normalise to the same sequence whatever the row
      order flag says. */
  lemma MatchingRowsSameNormal(ra: seq<string>, re: seq<string>, cfg: ComparatorConfig)
    requires RowsMatch(ra, re, cfg)
    ensures NormalizeRows(ra, cfg.(orderSensitive := false)) == NormalizeRows(re, cfg.(orderSensitive := false))
  {
    var u := cfg.(orderSensitive := false);
    var na, ne := NormalizeRows(ra, u), NormalizeRows(re, u);
    forall i | 0 <= i < |na|
      ensures na[i] == ne[i]
    {
      assert NormalizeRow(ra[i], u) == NormalizeRow(ra[i], cfg);
      assert NormalizeRow(re[i], u) == NormalizeRow(re[i], cfg);
    }
  }

  /** The ordered table mode implies the unordered one. */
  lemma OrderedImpliesUnordered(a: string, e: string, cfg: ComparatorConfig)
    requires cfg.kind.Table? && cfg.orderSensitive
    requires Compare(a, e, cfg).passed
    ensures Compare(a, e, cfg.(orderSensitive := false)).passed
  {
    var u := cfg.(orderSensitive := false);
    assert RowsMatch(Rows(a), Rows(e), cfg);
    MatchingRowSets(a, e, cfg);
    assert Equivalent(a, e, u);
  }

  lemma MatchingRowSets(a: string, e: string, cfg: ComparatorConfig)
    requires RowsMatch(Rows(a), Rows(e), cfg)
    ensures RowSet(a, cfg.(orderSensitive := false)) == RowSet(e, cfg.(orderSensitive := false))
  {
    MatchingRowsSameNormal(Rows(a), Rows(e), cfg);
  }

  /** Blank lines between two parts of a table never matter: the rows are
      those of the text without them. */
  lemma RowsIgnoreBlankLines(x: string, w: string, y: string)
    requires AllSpace(w)
    ensures Rows(x + "\n" + w + "\n" + y) == Rows(x + "\n" + y)
  {
    var gap := "\n" + w + "\n";
    assert AllSpace(gap) by {
      forall i | 0 <= i < |gap| ensures IsSpace(gap[i]) {
        if 0 < i < |gap| - 1 { assert gap[i] == w[i - 1]; }
      }
    }
    Regroup(x, w, y);
    AppendAssoc(x, "\n", y);
    if AllSpace(x) {
      SpacesJoined(x, gap);
      SpacesJoined(x, "\n");
      TrimPrependSpace(x + gap, y);
      TrimPrependSpace(x + "\n", y);
    } else if AllSpace(y) {
      SpacesJoined(gap, y);
      SpacesJoined("\n", y);
      AppendAssoc(x, gap, y);
      TrimAppendSpace(x, gap + y);
      TrimAppendSpace(x, "\n" + y);
    } else {
      var tx, ty := TrimStart(x), TrimEnd(y);
      TrimAroundGap(x, gap, y);
      TrimAroundGap(x, "\n", y);
      Regroup(tx, w, ty);
      RowsAroundBlank(tx, w, ty);
    }
  }

  lemma Regroup(a: string, w: string, b: string)
    ensures a + "\n" + w + "\n" + b == a + ("\n" + w + "\n") + b
  {
    AppendAssoc(a, "\n", w);
    AppendAssoc(a, "\n" + w, "\n");
  }

  lemma SpacesJoined(a: string, b: string)
    requires AllSpace(a) && AllSpace(b)
    ensures AllSpace(a + b)
  {
    forall i | 0 <= i < |a + b| ensures IsSpace((a + b)[i]) {
      if i >= |a| { assert (a + b)[i] == b[i - |a|]; }
    }
  }

  /** With text on both sides, trimming only touches the outer ends. */
  lemma TrimAroundGap(x: string, gap: string, y: string)
    requires !AllSpace(x) && !AllSpace(y)
    ensures Trim(x + gap + y) == TrimStart(x) + gap + TrimEnd(y)
  {
    TrimEndKeepsHead(x + gap, y);
    AppendAssoc(x, gap, TrimEnd(y));
    TrimStartKeepsTail(x, gap + TrimEnd(y));
    AppendAssoc(TrimStart(x), gap, TrimEnd(y));
  }

  lemma RowsAroundBlank(a: string, w: string, b: string)
    requires AllSpace(w)
    ensures NonBlank(Split(a + "\n" + w + "\n" + b, '\n'))
         == NonBlank(Split(a + "\n" + b, '\n'))
  {
    var pa, pw, pb := Split(a, '\n'), Split(w, '\n'), Split(b, '\n');
    SplitAround(a, '\n', w);
    SplitAround(a + "\n" + w, '\n', b);
    SplitAround(a, '\n', b);
    SplitOfSpace(w, '\n');
    NonBlankOfBlank(pw);
    NonBlankAppend(pa + pw, pb);
    NonBlankAppend(pa, pw);
    NonBlankAppend(pa, pb);
    AppendEmpty(NonBlank(pa));
  }

  /** Adding blank lines to either output never changes the table verdict. */
  lemma TableIgnoresBlankLines(x: string, w: string, y: string, other: string, cfg: ComparatorConfig)
    requires AllSpace(w)
    ensures TableCompare(x + "\n" + w + "\n" + y, other, cfg) == TableCompare(x + "\n" + y, other, cfg)
    ensures TableCompare(other, x + "\n" + w + "\n" + y, cfg) == TableCompare(other, x + "\n" + y, cfg)
  {
    RowsIgnoreBlankLines(x, w, y);
  }
}

=== FILE: comparators.dfy ===
/** The output comparator: three comparison modes over the program's output and
    the testcase's expected output, each returning pass/fail and, on failure,
    a human-readable diff.  Every function here is total. */
module Comparators {
  import opened Wrappers
  import opened Text
  import opened Models

  datatype ComparisonResult = ComparisonResult(passed: bool, diff: Option<string>)

  const Pass := ComparisonResult(true, None)

  function Fail(diff: string): ComparisonResult {
    ComparisonResult(false, Some(diff))
  }

  // ---------------------------------------------------------------------------
  // normalisation

  /** CRLF and lone CR both become LF. */
  function LineEndingsToLf(s: string): string {
    ReplaceChar(ReplaceCrLf(s), '\r', '\n')
  }

  function TrimLineEnds(lines: seq<string>): (r: seq<string>)
    ensures |r| == |lines|
    ensures forall i :: 0 <= i < |lines| ==> r[i] == TrimEnd(lines[i])
  {
    seq(|lines|, i requires 0 <= i < |lines| => TrimEnd(lines[i]))
  }

  /** Line endings to LF, trailing whitespace off every line, then the whole
      text trimmed. */
  function NormalizeWhitespace(s: string): string {
    Trim(Join(TrimLineEnds(Split(LineEndingsToLf(s), '\n')), "\n"))
  }

  /** A table row trimmed; with `trimWhitespace` its inner whitespace runs
      become one space; with `ignoreCase` it is lower-cased. */
  function NormalizeRow(row: string, cfg: ComparatorConfig): string {
    var t := Trim(row);
    var c := if cfg.trimWhitespace then CollapseSpaces(t) else t;
    Fold(c, cfg.ignoreCase)
  }

  // ---------------------------------------------------------------------------
  // exact mode and its diff

  /** The text exact mode compares. */
  function ExactKey(s: string, cfg: ComparatorConfig): string {
    Fold(if cfg.trimWhitespace then NormalizeWhitespace(s) else s, cfg.ignoreCase)
  }

  const MaxDiffLines: nat := 10

  datatype DiffLine = DiffLine(lineNo: nat, expected: string, actual: string)

  /** Both sides' line count is padded with empty lines. */
  function LineAt(lines: seq<string>, i: nat): string {
    if i < |lines| then lines[i] else ""
  }

  function Max(a: nat, b: nat): nat { if a < b then b else a }

  function Min(a: nat, b: nat): nat { if a < b then a else b }

  predicate ListsLine(d: seq<DiffLine>, i: nat) {
    exists k :: 0 <= k < |d| && d[k].lineNo == i + 1
  }

  /** An entry reports line `lineNo` (1-based) of both sides, which differ. */
  predicate ReportsDifference(a: seq<string>, e: seq<string>, x: DiffLine) {
    1 <= x.lineNo
    && x.expected == LineAt(e, x.lineNo - 1)
    && x.actual == LineAt(a, x.lineNo - 1)
    && x.expected != x.actual
  }

  predicate Increasing(d: seq<DiffLine>) {
    forall k, m :: 0 <= k < m < |d| ==> d[k].lineNo < d[m].lineNo
  }

  /** `d` lists, in increasing order, exactly the differing lines among
      lines `i .. bound - 1`, numbered from 1. */
  predicate DiffsBetween(a: seq<string>, e: seq<string>, i: nat, bound: nat, d: seq<DiffLine>) {
    && |d| <= bound - i
    && (forall k :: 0 <= k < |d| ==> i < d[k].lineNo <= bound && ReportsDifference(a, e, d[k]))
    && Increasing(d)
    && (forall j :: i <= j < bound && LineAt(a, j) != LineAt(e, j) ==> ListsLine(d, j))
  }

  lemma DiffsBetweenSkip(a: seq<string>, e: seq<string>, i: nat, bound: nat, d: seq<DiffLine>)
    requires i < bound && LineAt(a, i) == LineAt(e, i)
    requires DiffsBetween(a, e, i + 1, bound, d)
    ensures DiffsBetween(a, e, i, bound, d)
  {
  }

  lemma DiffsBetweenCons(a: seq<string>, e: seq<string>, i: nat, bound: nat, rest: seq<DiffLine>)
    requires i < bound && LineAt(a, i) != LineAt(e, i)
    requires DiffsBetween(a, e, i + 1, bound, rest)
    ensures DiffsBetween(a, e, i, bound, [DiffLine(i + 1, LineAt(e, i), LineAt(a, i))] + rest)
  {
    var x := DiffLine(i + 1, LineAt(e, i), LineAt(a, i));
    ConsReports(a, e, i, bound, rest);
    ConsIncreasing(i, bound, x, rest);
    ConsListsLines(a, e, i, bound, x, rest);
  }

  lemma ConsReports(a: seq<string>, e: seq<string>, i: nat, bound: nat, rest: seq<DiffLine>)
    requires i < bound && LineAt(a, i) != LineAt(e, i)
    requires forall k :: 0 <= k < |rest| ==> i + 1 < rest[k].lineNo <= bound && ReportsDifference(a, e, rest[k])
    ensures var d := [DiffLine(i + 1, LineAt(e, i), LineAt(a, i))] + rest;
            forall k :: 0 <= k < |d| ==> i < d[k].lineNo <= bound && ReportsDifference(a, e, d[k])
  {
  }

  lemma ConsIncreasing(i: nat, bound: nat, x: DiffLine, rest: seq<DiffLine>)
    requires x.lineNo == i + 1
    requires forall k :: 0 <= k < |rest| ==> i + 1 < rest[k].lineNo <= bound
    requires Increasing(rest)
    ensures Increasing([x] + rest)
  {
  }

  lemma ConsListsLines(a: seq<string>, e: seq<string>, i: nat, bound: nat, x: DiffLine, rest: seq<DiffLine>)
    requires x.lineNo == i + 1
    requires forall j :: i < j < bound && LineAt(a, j) != LineAt(e, j) ==> ListsLine(rest, j)
    ensures forall j :: i <= j < bound && LineAt(a, j) != LineAt(e, j) ==> ListsLine([x] + rest, j)
  {
    var d := [x] + rest;
    assert ListsLine(d, i) by { assert d[0].lineNo == i + 1; }
    forall j | i < j < bound && LineAt(a, j) != LineAt(e, j)
      ensures ListsLine(d, j)
    {
      var k :| 0 <= k < |rest| && rest[k].lineNo == j + 1;
      assert d[k + 1] == rest[k];
    }
  }

  function DiffLinesFrom(a: seq<string>, e: seq<string>, i: nat, bound: nat): (d: seq<DiffLine>)
    requires i <= bound
    ensures DiffsBetween(a, e, i, bound, d)
    decreases bound - i
  {
    if i == bound then []
    else
      var rest := DiffLinesFrom(a, e, i + 1, bound);
      if LineAt(a, i) != LineAt(e, i) then
        DiffsBetweenCons(a, e, i, bound, rest);
        [DiffLine(i + 1, LineAt(e, i), LineAt(a, i))] + rest
      else
        DiffsBetweenSkip(a, e, i, bound, rest);
        rest
  }

  /** The structured content of a diff: the differing lines among the first
      ten, and how many lines lie beyond the tenth on the longer side. */
  datatype DiffReport = DiffReport(lines: seq<DiffLine>, moreLines: nat)

  /** The report lists at most ten entries, in order, exactly the differing
      lines among the first ten of the longer side, and counts the lines
      beyond the tenth. */
  predicate DescribesDiff(a: seq<string>, e: seq<string>, r: DiffReport) {
    var maxLines := Max(|a|, |e|);
    && |r.lines| <= MaxDiffLines
    && (forall k :: 0 <= k < |r.lines| ==>
          r.lines[k].lineNo <= Min(maxLines, MaxDiffLines) && ReportsDifference(a, e, r.lines[k]))
    && Increasing(r.lines)
    && (forall j :: 0 <= j < Min(maxLines, MaxDiffLines) ==>
          (LineAt(a, j) != LineAt(e, j) <==> ListsLine(r.lines, j)))
    && (r.moreLines > 0 <==> maxLines > MaxDiffLines)
    && (maxLines > MaxDiffLines ==> r.moreLines == maxLines - MaxDiffLines)
  }

  lemma ListedLinesDiffer(a: seq<string>, e: seq<string>, bound: nat, d: seq<DiffLine>)
    requires DiffsBetween(a, e, 0, bound, d)
    ensures forall j :: 0 <= j < bound && ListsLine(d, j) ==> LineAt(a, j) != LineAt(e, j)
  {
    forall j | 0 <= j < bound && ListsLine(d, j)
      ensures LineAt(a, j) != LineAt(e, j)
    {
      var k :| 0 <= k < |d| && d[k].lineNo == j + 1;
      assert ReportsDifference(a, e, d[k]);
    }
  }

  lemma DiffReportDescribes(a: seq<string>, e: seq<string>, d: seq<DiffLine>)
    requires DiffsBetween(a, e, 0, Min(Max(|a|, |e|), MaxDiffLines), d)
    ensures var maxLines := Max(|a|, |e|);
      DescribesDiff(a, e, DiffReport(d, if maxLines > MaxDiffLines then maxLines - MaxDiffLines else 0))
  {
    ListedLinesDiffer(a, e, Min(Max(|a|, |e|), MaxDiffLines), d);
  }

  function DiffOf(actual: string, expected: string): (r: DiffReport)
    ensures DescribesDiff(Split(actual, '\n'), Split(expected, '\n'), r)
  {
    var a := Split(actual, '\n');
    var e := Split(expected, '\n');
    var maxLines := Max(|a|, |e|);
    var d := DiffLinesFrom(a, e, 0, Min(maxLines, MaxDiffLines));
    DiffReportDescribes(a, e, d);
    DiffReport(d, if maxLines > MaxDiffLines then maxLines - MaxDiffLines else 0)
  }

  function RenderDiffLines(d: seq<DiffLine>): string
    decreases |d|
  {
    if |d| == 0 then ""
    else
      "Line " + NatToString(d[0].lineNo) + ":\n"
      + "  Expected: " + d[0].expected + "\n"
      + "  Actual:   " + d[0].actual + "\n"
      + RenderDiffLines(d[1..])
  }

  function RenderDiff(r: DiffReport): string {
    "Diff:\n" + RenderDiffLines(r.lines)
    + (if r.moreLines > 0 then "... (" + NatToString(r.moreLines) + " more lines)\n" else "")
  }

  function GenerateDiff(actual: string, expected: string): string {
    RenderDiff(DiffOf(actual, expected))
  }

  function ExactCompare(actual: string, expected: string, cfg: ComparatorConfig): (r: ComparisonResult)
    ensures r.passed <==> ExactKey(actual, cfg) == ExactKey(expected, cfg)
    ensures r.diff.None? <==> r.passed
    ensures !r.passed ==> r.diff == Some(GenerateDiff(ExactKey(actual, cfg), ExactKey(expected, cfg)))
  {
    var a := ExactKey(actual, cfg);
    var e := ExactKey(expected, cfg);
    if a == e then Pass else Fail(GenerateDiff(a, e))
  }

  // ---------------------------------------------------------------------------
  // token mode

  predicate TokensMatch(a: seq<string>, e: seq<string>, ignoreCase: bool) {
    |a| == |e| && forall i :: 0 <= i < |a| ==> Fold(a[i], ignoreCase) == Fold(e[i], ignoreCase)
  }

  /** The first position at or after `i` whose tokens differ. */
  function FirstTokenMismatch(a: seq<string>, e: seq<string>, ignoreCase: bool, i: nat): (r: Option<nat>)
    requires |a| == |e| && i <= |a|
    ensures r.None? <==> forall j :: i <= j < |a| ==> Fold(a[j], ignoreCase) == Fold(e[j], ignoreCase)
    ensures r.Some? ==> i <= r.value < |a| && Fold(a[r.value], ignoreCase) != Fold(e[r.value], ignoreCase)
    ensures r.Some? ==> forall j :: i <= j < r.value ==> Fold(a[j], ignoreCase) == Fold(e[j], ignoreCase)
    decreases |a| - i
  {
    if i == |a| then None
    else if Fold(a[i], ignoreCase) != Fold(e[i], ignoreCase) then Some(i)
    else FirstTokenMismatch(a, e, ignoreCase, i + 1)
  }

  function TokenCountMessage(expectedCount: nat, actualCount: nat): string {
    "Token count mismatch: expected " + NatToString(expectedCount) + ", got " + NatToString(actualCount)
  }

  function TokenMismatchMessage(i: nat, expectedToken: string, actualToken: string): string {
    "Token mismatch at position " + NatToString(i) + ": expected \"" + expectedToken
    + "\", got \"" + actualToken + "\""
  }

  /** Normalising whitespace never changes the token sequence. */
  lemma {:induction false} NormalizeWhitespaceKeepsTokens(s: string)
    ensures Tokens(NormalizeWhitespace(s)) == Tokens(s)
  {
    var crlf := ReplaceCrLf(s);
    var lf := LineEndingsToLf(s);
    var parts := Split(lf, '\n');
    var joined := Join(TrimLineEnds(parts), "\n");
    TokensTrim(joined);
    TokensOfJoin(TrimLineEnds(parts), '\n');
    TokensOfAllTrimLineEnds(parts);
    TokensOfJoin(parts, '\n');
    JoinSplit(lf, '\n');
    TokensReplaceSpace([], crlf, '\r', '\n');
    assert [] + ReplaceChar(crlf, '\r', '\n') == lf;
    assert [] + crlf == crlf;
    TokensReplaceCrLf([], s);
    assert [] + ReplaceCrLf(s) == crlf;
    assert [] + s == s;
  }

  lemma {:induction false} TokensOfAllTrimLineEnds(lines: seq<string>)
    ensures TokensOfAll(TrimLineEnds(lines)) == TokensOfAll(lines)
    decreases |lines|
  {
    if |lines| > 0 {
      TokensOfAllTrimLineEnds(lines[1..]);
      assert TrimLineEnds(lines)[1..] == TrimLineEnds(lines[1..]);
      TokensTrimEnd(lines[0]);
    }
  }

  /** Token sequences compared: counts first, then position by position. */
  function CompareTokens(at: seq<string>, et: seq<string>, ignoreCase: bool): (r: ComparisonResult)
    ensures r.passed <==> TokensMatch(at, et, ignoreCase)
    ensures r.diff.None? <==> r.passed
    ensures |at| != |et| ==> r.diff == Some(TokenCountMessage(|et|, |at|))
    ensures |at| == |et| && !r.passed ==>
      exists i :: 0 <= i < |at|
        && Fold(at[i], ignoreCase) != Fold(et[i], ignoreCase)
        && (forall j :: 0 <= j < i ==> Fold(at[j], ignoreCase) == Fold(et[j], ignoreCase))
        && r.diff == Some(TokenMismatchMessage(i, Fold(et[i], ignoreCase), Fold(at[i], ignoreCase)))
  {
    if |at| != |et| then
      Fail(TokenCountMessage(|et|, |at|))
    else
      match FirstTokenMismatch(at, et, ignoreCase, 0)
      case None => Pass
      case Some(i) => Fail(TokenMismatchMessage(i, Fold(et[i], ignoreCase), Fold(at[i], ignoreCase)))
  }

  /** Token mode: both sides split into whitespace-separated tokens.  Whether
      or not `trimWhitespace` first normalises the text, the tokens are the
      raw text's tokens, so the flag cannot change the outcome. */
  function TokenCompare(actual: string, expected: string, cfg: ComparatorConfig): (r: ComparisonResult)
    ensures r == CompareTokens(Tokens(actual), Tokens(expected), cfg.ignoreCase)
  {
    var a := if cfg.trimWhitespace then NormalizeWhitespace(actual) else actual;
    var e := if cfg.trimWhitespace then NormalizeWhitespace(expected) else expected;
    NormalizeWhitespaceKeepsTokens(actual);
    NormalizeWhitespaceKeepsTokens(expected);
    CompareTokens(Tokens(a), Tokens(e), cfg.ignoreCase)
  }

  // ---------------------------------------------------------------------------
  // table mode

  /** A line with something left after trimming. */
  predicate NotBlank(line: string) {
    |Trim(line)| > 0
  }

  /** The lines that are not blank once trimmed; `NonBlankAppend` and
      `NonBlankSingle` say that they keep their order. */
  function NonBlank(lines: seq<string>): (r: seq<string>)
    ensures forall k :: 0 <= k < |r| ==> NotBlank(r[k])
    ensures forall x :: x in r <==> x in lines && NotBlank(x)
    decreases |lines|
  {
    if |lines| == 0 then []
    else
      var rest := NonBlank(lines[1..]);
      var r := if NotBlank(lines[0]) then [lines[0]] + rest else rest;
      FilterStep(lines, rest, r, NotBlank);
      r
  }

  /** One step of an order-keeping filter: what the tail keeps, with the head
      in front when it is kept. */
  lemma FilterStep<T>(xs: seq<T>, rest: seq<T>, r: seq<T>, keep: T -> bool)
    requires |xs| > 0
    requires forall k :: 0 <= k < |rest| ==> keep(rest[k])
    requires forall x :: x in rest <==> x in xs[1..] && keep(x)
    requires r == if keep(xs[0]) then [xs[0]] + rest else rest
    ensures forall k :: 0 <= k < |r| ==> keep(r[k])
    ensures forall x :: x in r <==> x in xs && keep(x)
  {
    assert xs == [xs[0]] + xs[1..];
    forall k | 0 <= k < |r| ensures keep(r[k]) {
      if keep(xs[0]) && k > 0 { assert r[k] == rest[k - 1]; }
    }
  }

  lemma NonBlankSingle(line: string)
    ensures NonBlank([line]) == if NotBlank(line) then [line] else []
  {
    assert [line][1..] == [];
  }

  lemma {:induction false} NonBlankAppend(a: seq<string>, b: seq<string>)
    ensures NonBlank(a + b) == NonBlank(a) + NonBlank(b)
    decreases |a|
  {
    if |a| == 0 {
      AppendEmpty(b);
      AppendEmpty(NonBlank(b));
    } else {
      assert (a + b)[1..] == a[1..] + b;
      assert (a + b)[0] == a[0];
      NonBlankAppend(a[1..], b);
      if NotBlank(a[0]) {
        AppendAssoc([a[0]], NonBlank(a[1..]), NonBlank(b));
      }
    }
  }

  lemma {:induction false} NonBlankOfBlank(lines: seq<string>)
    requires forall k :: 0 <= k < |lines| ==> AllSpace(lines[k])
    ensures NonBlank(lines) == []
    decreases |lines|
  {
    if |lines| > 0 {
      TrimEndOfSpaces(lines[0]);
      NonBlankOfBlank(lines[1..]);
    }
  }

  /** The non-blank lines of the trimmed text. */
  function Rows(s: string): seq<string> {
    NonBlank(Split(Trim(s), '\n'))
  }

  function NormalizeRows(rows: seq<string>, cfg: ComparatorConfig): (r: seq<string>)
    ensures |r| == |rows|
    ensures forall i :: 0 <= i < |rows| ==> r[i] == NormalizeRow(rows[i], cfg)
  {
    seq(|rows|, i requires 0 <= i < |rows| => NormalizeRow(rows[i], cfg))
  }

  function RowSet(s: string, cfg: ComparatorConfig): set<string> {
    set r | r in NormalizeRows(Rows(s), cfg)
  }

  predicate RowsMatch(a: seq<string>, e: seq<string>, cfg: ComparatorConfig) {
    |a| == |e| && forall i :: 0 <= i < |a| ==> NormalizeRow(a[i], cfg) == NormalizeRow(e[i], cfg)
  }

  /** The first position at or after `i` where two equally long sequences of
      normalised rows differ. */
  function FirstRowMismatch(na: seq<string>, ne: seq<string>, i: nat): (r: Option<nat>)
    requires |na| == |ne| && i <= |na|
    ensures r.None? <==> forall j :: i <= j < |na| ==> na[j] == ne[j]
    ensures r.Some? ==> i <= r.value < |na| && na[r.value] != ne[r.value]
    ensures r.Some? ==> forall j :: i <= j < r.value ==> na[j] == ne[j]
    decreases |na| - i
  {
    if i == |na| then None
    else if na[i] != ne[i] then Some(i)
    else FirstRowMismatch(na, ne, i + 1)
  }

  /** The first row of `rows`, in order, that is not in `present`. */
  function FirstMissing(rows: seq<string>, present: set<string>): (r: Option<string>)
    ensures r.None? <==> forall k :: 0 <= k < |rows| ==> rows[k] in present
    ensures r.Some? ==> r.value in rows && r.value !in present
    ensures r.Some? ==> exists k :: 0 <= k < |rows| && rows[k] == r.value
                                    && (forall j :: 0 <= j < k ==> rows[j] in present)
    decreases |rows|
  {
    if |rows| == 0 then None
    else if rows[0] !in present then Some(rows[0])
    else
      var r := FirstMissing(rows[1..], present);
      if r.Some? then
        var k :| 0 <= k < |rows[1..]| && rows[1..][k] == r.value
                 && (forall j :: 0 <= j < k ==> rows[1..][j] in present);
        assert rows[k + 1] == r.value;
        r
      else r
  }

  function RowCountMessage(expectedCount: nat, actualCount: nat): string {
    "Row count mismatch: expected " + NatToString(expectedCount) + " rows, got "
    + NatToString(actualCount) + " rows"
  }

  function RowMismatchMessage(i: nat, expectedRow: string, actualRow: string): string {
    "Row " + NatToString(i + 1) + " mismatch:\nExpected: " + expectedRow + "\nActual:   " + actualRow
  }

  function UniqueRowCountMessage(expectedCount: nat, actualCount: nat): string {
    "Row count mismatch: expected " + NatToString(expectedCount) + " unique rows, got "
    + NatToString(actualCount) + " unique rows"
  }

  function MissingRowMessage(row: string): string {
    "Missing expected row: " + row
  }

  lemma SubsetOfSameSize<T>(small: set<T>, big: set<T>)
    requires small <= big && |small| == |big|
    ensures small == big
  {
    var extra := big - small;
    assert big == small + extra;
    assert |extra| == 0;
  }

  /** Order-insensitive table mode over the two sets of normalised rows:
      distinct-row counts first, then the first expected row (in the expected
      text's order) the actual output lacks. */
  function CompareRowSets(actualSet: set<string>, expectedRows: seq<string>): (r: ComparisonResult)
    ensures var expectedSet := set x | x in expectedRows;
      && (r.passed <==> actualSet == expectedSet)
      && (r.diff.None? <==> r.passed)
      && (|actualSet| != |expectedSet| ==> r.diff == Some(UniqueRowCountMessage(|expectedSet|, |actualSet|)))
      && (|actualSet| == |expectedSet| && !r.passed ==>
            exists k :: 0 <= k < |expectedRows| && expectedRows[k] !in actualSet
              && (forall j :: 0 <= j < k ==> expectedRows[j] in actualSet)
              && r.diff == Some(MissingRowMessage(expectedRows[k])))
  {
    var expectedSet := set x | x in expectedRows;
    if |actualSet| != |expectedSet| then
      Fail(UniqueRowCountMessage(|expectedSet|, |actualSet|))
    else
      match FirstMissing(expectedRows, actualSet)
      case Some(row) => Fail(MissingRowMessage(row))
      case None =>
        SubsetOfSameSize(expectedSet, actualSet);
        Pass
  }

  /** Order-sensitive table mode over row sequences: equal row counts, then
      rows position by position; the first bad row is reported 1-based. */
  function CompareRowSeqs(a: seq<string>, e: seq<string>, cfg: ComparatorConfig): (r: ComparisonResult)
    ensures r.passed <==> RowsMatch(a, e, cfg)
    ensures r.diff.None? <==> r.passed
    ensures |a| != |e| ==> r.diff == Some(RowCountMessage(|e|, |a|))
    ensures |a| == |e| && !r.passed ==>
      exists i :: 0 <= i < |a|
        && NormalizeRow(a[i], cfg) != NormalizeRow(e[i], cfg)
        && (forall j :: 0 <= j < i ==> NormalizeRow(a[j], cfg) == NormalizeRow(e[j], cfg))
        && r.diff == Some(RowMismatchMessage(i, NormalizeRow(e[i], cfg), NormalizeRow(a[i], cfg)))
  {
    if |a| != |e| then
      Fail(RowCountMessage(|e|, |a|))
    else
      match FirstRowMismatch(NormalizeRows(a, cfg), NormalizeRows(e, cfg), 0)
      case None => Pass
      case Some(i) => Fail(RowMismatchMessage(i, NormalizeRow(e[i], cfg), NormalizeRow(a[i], cfg)))
  }

  function TableCompare(actual: string, expected: string, cfg: ComparatorConfig): (r: ComparisonResult)
    ensures r.diff.None? <==> r.passed
    ensures cfg.orderSensitive ==> (r.passed <==> RowsMatch(Rows(actual), Rows(expected), cfg))
    ensures !cfg.orderSensitive ==> (r.passed <==> RowSet(actual, cfg) == RowSet(expected, cfg))
  {
    if cfg.orderSensitive then CompareRowSeqs(Rows(actual), Rows(expected), cfg)
    else CompareRowSets(RowSet(actual, cfg), NormalizeRows(Rows(expected), cfg))
  }

  // ---------------------------------------------------------------------------
  // dispatch

  /** When two outputs are judged the same, mode by mode. */
  predicate Equivalent(actual: string, expected: string, cfg: ComparatorConfig) {
    match cfg.kind
    case Token => TokensMatch(Tokens(actual), Tokens(expected), cfg.ignoreCase)
    case Table =>
      if cfg.orderSensitive then RowsMatch(Rows(actual), Rows(expected), cfg)
      else RowSet(actual, cfg) == RowSet(expected, cfg)
    case _ => ExactKey(actual, cfg) == ExactKey(expected, cfg)
  }

  /** The comparator entry point; an unrecognised type compares exactly.  It
      is total: no input makes it fail to produce a result. */
  function Compare(actual: string, expected: string, cfg: ComparatorConfig): (r: ComparisonResult)
    ensures r.passed <==> Equivalent(actual, expected, cfg)
    ensures r.diff.None? <==> r.passed
    ensures cfg.kind.Exact? || cfg.kind.Unrecognized? ==> r == ExactCompare(actual, expected, cfg)
  {
    match cfg.kind
    case Exact => ExactCompare(actual, expected, cfg)
    case Token => TokenCompare(actual, expected, cfg)
    case Table => TableCompare(actual, expected, cfg)
    case Unrecognized(_) => ExactCompare(actual, expected, cfg)
  }
}

=== FILE: evaluation_worker.dfy ===
/** The queue worker's per-user job counter.  Each job reads the user's count,
    waits once when the user is at the cap, writes the count read plus one,
    evaluates, and in every case decrements the count again, deleting the
    entry when it drops to zero.  Start and finish are atomic steps here. */
module EvaluationWorker {
  import opened Wrappers
  import opened Numbers
  import opened Text

  /** The cap when the environment does not set one. */
  const DefaultCapSetting := "3"

  /** How long a job of a user at the cap waits before it runs. */
  const DelayMs := 5000

  /** Jobs the worker runs at once, and at most `LimiterMax` jobs started per
      `LimiterDurationMs`; the queue library enforces both. */
  const WorkerConcurrency := 5

  const LimiterMax := 10

  const LimiterDurationMs := 1000

  /** The cap read from the environment: an unset or empty setting means
      3; `None` stands for a setting that does not parse (NaN), against
      which no count is ever at the cap. */
  function ConcurrentJobsPerUser(setting: Option<string>): (cap: Option<int>)
    ensures setting.None? || setting == Some("") ==> cap == Some(3)
    ensures setting.Some? && setting.value != "" ==> cap == ParseInt(setting.value)
  {
    DefaultCapIsThree();
    var text := if setting.Some? && setting.value != "" then setting.value else DefaultCapSetting;
    ParseInt(text)
  }

  lemma DefaultCapIsThree()
    ensures ParseInt(DefaultCapSetting) == Some(3)
  {
    ParseIntOfNatToString(3);
    assert NatToString(3) == DefaultCapSetting;
  }

  type Counts = map<string, int>

  /** The counter keeps only positive counts. */
  predicate Positive(m: Counts) {
    forall u :: u in m ==> m[u] >= 1
  }

  /** The count read for a user; absent means none running. */
  function Current(m: Counts, user: string): int {
    if user in m then m[user] else 0
  }

  /** Comparison with NaN is false, so an unparsable cap never delays. */
  predicate AtCap(count: int, cap: Option<int>) {
    cap.Some? && count >= cap.value
  }

  datatype Started = Started(delayMs: nat, counts: Counts)

  /** The start of a job: never rejected, only delayed. */
  function Start(m: Counts, user: string, cap: Option<int>): (r: Started)
    ensures r.delayMs > 0 <==> AtCap(Current(m, user), cap)
    ensures r.delayMs > 0 ==> r.delayMs == DelayMs
    ensures user in r.counts && r.counts[user] == Current(m, user) + 1
    ensures forall v :: v != user ==> (v in r.counts <==> v in m)
    ensures forall v :: v != user && v in m ==> r.counts[v] == m[v]
    ensures Positive(m) ==> Positive(r.counts)
  {
    var count := Current(m, user);
    Started(if AtCap(count, cap) then DelayMs else 0, m[user := count + 1])
  }

  /** The end of a job, on success and on failure alike: an absent user
      reads as one, and a count that reaches zero or less is deleted. */
  function Finish(m: Counts, user: string): (r: Counts)
    ensures user !in r <==> user !in m || m[user] <= 1
    ensures user in r ==> r[user] == m[user] - 1 && r[user] >= 1
    ensures forall v :: v != user ==> (v in r <==> v in m)
    ensures forall v :: v != user && v in m ==> r[v] == m[v]
    ensures Positive(m) ==> Positive(r)
  {
    var count := (if user in m && m[user] != 0 then m[user] else 1) - 1;
    if count <= 0 then m - {user} else m[user := count]
  }

  /** One job handled from start to end: how long it waited, the counter
      afterwards, and whether the failure is passed on for a retry. */
  datatype Handled = Handled(delayMs: nat, counts: Counts, rethrown: bool)

  function HandleJob(m: Counts, user: string, cap: Option<int>, evaluationFailed: bool): (h: Handled)
    ensures h.rethrown == evaluationFailed
    ensures h.delayMs > 0 <==> AtCap(Current(m, user), cap)
    ensures h.delayMs > 0 ==> h.delayMs == DelayMs
    ensures Current(m, user) >= 1 ==> h.counts == m
    ensures Current(m, user) <= 0 ==> h.counts == m - {user}
    ensures Positive(m) ==> h.counts == m
  {
    HandleJobRestores(m, user, cap);
    var s := Start(m, user, cap);
    Handled(s.delayMs, Finish(s.counts, user), evaluationFailed)
  }

  /** A job run on its own leaves the counter exactly as it found it, whether
      or not the evaluation failed. */
  lemma HandleJobRestores(m: Counts, user: string, cap: Option<int>)
    ensures Positive(m) ==> Finish(Start(m, user, cap).counts, user) == m
  {
    if Positive(m) {
      var r := Finish(Start(m, user, cap).counts, user);
      assert forall v :: v in r <==> v in m;
    }
  }

  // ---------------------------------------------------------------------------
  // overlapping jobs of one user

  function StartMany(m: Counts, user: string, cap: Option<int>, k: nat): Counts
    decreases k
  {
    if k == 0 then m else StartMany(Start(m, user, cap).counts, user, cap, k - 1)
  }

  function FinishMany(m: Counts, user: string, k: nat): Counts
    decreases k
  {
    if k == 0 then m else FinishMany(Finish(m, user), user, k - 1)
  }

  /** `k` starts raise the user's count by `k` and touch no one else. */
  lemma {:induction false} StartManyCounts(m: Counts, user: string, cap: Option<int>, k: nat)
    ensures k > 0 ==> StartMany(m, user, cap, k) == m[user := Current(m, user) + k]
    decreases k
  {
    if k > 0 {
      var m' := Start(m, user, cap).counts;
      assert m' == m[user := Current(m, user) + 1];
      StartManyCounts(m', user, cap, k - 1);
      if k - 1 > 0 {
        assert Current(m', user) == Current(m, user) + 1;
        UpdateTwice(m, user, Current(m, user) + 1, Current(m, user) + k);
      }
    }
  }

  lemma UpdateTwice(m: Counts, user: string, a: int, b: int)
    ensures m[user := a][user := b] == m[user := b]
  {
  }

  /** `k` finishes from `c + k` bring the count back to `c`, or delete it
      when `c` is zero. */
  lemma {:induction false} FinishManyCounts(m: Counts, user: string, c: nat, k: nat)
    ensures c > 0 ==> FinishMany(m[user := c + k], user, k) == m[user := c]
    ensures c == 0 && k > 0 ==> FinishMany(m[user := c + k], user, k) == m - {user}
    decreases k
  {
    if k > 0 {
      var m' := Finish(m[user := c + k], user);
      if c + k - 1 > 0 {
        assert m' == m[user := c + k][user := c + (k - 1)];
        UpdateTwice(m, user, c + k, c + (k - 1));
        FinishManyCounts(m, user, c, k - 1);
      } else {
        assert m' == m[user := c + k] - {user};
        assert m[user := c + k] - {user} == m - {user};
      }
    }
  }

  /** Any number of jobs of one user that all start before any finishes
      leave the counter as it was. */
  lemma OverlappingJobsRestore(m: Counts, user: string, cap: Option<int>, k: nat)
    requires Positive(m)
    ensures FinishMany(StartMany(m, user, cap, k), user, k) == m
  {
    if k > 0 {
      StartManyCounts(m, user, cap, k);
      var c: nat := Current(m, user);
      FinishManyCounts(m, user, c, k);
      if c > 0 {
        UpdateSame(m, user);
      } else {
        RemoveAbsent(m, user);
      }
    }
  }

  lemma UpdateSame(m: Counts, user: string)
    requires user in m
    ensures m[user := m[user]] == m
  {
  }

  lemma RemoveAbsent(m: Counts, user: string)
    requires user !in m
    ensures m - {user} == m
  {
  }
}

=== FILE: evaluator.dfy ===
/** The orchestrator that judges one submission: it loads the submission and
    its problem, moves the submission through its statuses, picks a runner by
    language, and stores the verdict, the per-testcase results and the
    problem's acceptance counters, broadcasting progress as it goes.  The
    database reads, the runners' back ends and the broadcast channel are
    parameters; every database write is recorded, in order, in the result. */
module Evaluator {
  import opened Wrappers
  import opened Models
  import opened VerdictLogic
  import Judge0Runner
  import SqlRunner
  import PandasRunner

  // ---------------------------------------------------------------------------
  // aggregates

  function CountPassed(results: seq<ExecutionResult>): (n: nat)
    ensures n <= |results|
    decreases |results|
  {
    if |results| == 0 then 0
    else (if results[0].status == PASSED then 1 else 0) + CountPassed(results[1..])
  }

  function SumRuntime(results: seq<ExecutionResult>): real
    decreases |results|
  {
    if |results| == 0 then 0.0 else results[0].runtimeMs + SumRuntime(results[1..])
  }

  /** Every testcase passed exactly when the pass count is the test count. */
  lemma {:induction false} CountPassedAll(results: seq<ExecutionResult>)
    ensures CountPassed(results) == |results| <==> forall i :: 0 <= i < |results| ==> results[i].status == PASSED
    decreases |results|
  {
    if |results| > 0 {
      CountPassedAll(results[1..]);
      assert forall i :: 1 <= i < |results| ==> results[i] == results[1..][i - 1];
    }
  }

  /** The pass count is how often PASSED occurs among the statuses. */
  lemma {:induction false} CountPassedIsMultiplicity(results: seq<ExecutionResult>)
    ensures CountPassed(results) == multiset(Statuses(results))[PASSED]
    decreases |results|
  {
    if |results| > 0 {
      CountPassedIsMultiplicity(results[1..]);
      assert Statuses(results) == [results[0].status] + Statuses(results[1..]);
    }
  }

  /** The runtime total adds up over a split of the results, which with the
      one-result case pins it down as the sum of the runtimes. */
  lemma {:induction false} SumRuntimeAppend(a: seq<ExecutionResult>, b: seq<ExecutionResult>)
    ensures SumRuntime(a + b) == SumRuntime(a) + SumRuntime(b)
    decreases |a|
  {
    if |a| > 0 {
      assert (a + b)[1..] == a[1..] + b;
      SumRuntimeAppend(a[1..], b);
    } else {
      assert a + b == b;
    }
  }

  lemma SumRuntimeSingle(x: ExecutionResult)
    ensures SumRuntime([x]) == x.runtimeMs
  {
  }

  lemma {:induction false} SumRuntimeNonNegative(results: seq<ExecutionResult>)
    requires forall i :: 0 <= i < |results| ==> results[i].runtimeMs >= 0.0
    ensures SumRuntime(results) >= 0.0
    decreases |results|
  {
    if |results| > 0 {
      SumRuntimeNonNegative(results[1..]);
    }
  }

  /** The submission as `processTestcaseResults` leaves it: completed, with the
      results, their aggregates and the resolved verdict. */
  function ProcessTestcaseResults(s: Submission, results: seq<ExecutionResult>): (r: Submission)
    ensures r.status == Completed
    ensures r.results == results && r.totalTests == |results|
    ensures r.totalPassed <= r.totalTests
    ensures r.totalPassed == multiset(Statuses(results))[PASSED]
    ensures r.totalRuntimeMs == SumRuntime(results)
    ensures r.verdict.Some? && r.verdict.value != InternalError && r.verdict.value != CompilationError
    ensures r.verdict == Some(Accepted) <==> r.totalPassed == r.totalTests
    ensures r.verdict == Some(Resolve(Statuses(results), false))
    ensures r.id == s.id && r.userId == s.userId && r.problemId == s.problemId
    ensures r.code == s.code && r.language == s.language && r.compileOutput == s.compileOutput
  {
    CountPassedAll(results);
    CountPassedIsMultiplicity(results);
    ResolveNeverInternal(Statuses(results), false);
    s.(results := results,
       totalTests := |results|,
       totalPassed := CountPassed(results),
       totalRuntimeMs := SumRuntime(results),
       verdict := Some(Resolve(Statuses(results), false)),
       status := Completed)
  }

  // ---------------------------------------------------------------------------
  // problem statistics

  /** Counters as the schema constrains them: no more acceptances than
      submissions, and a rate between 0 and 100. */
  predicate ValidStats(p: ProblemStats) {
    p.totalAccepted <= p.totalSubmissions && 0.0 <= p.acceptanceRate <= 100.0
  }

  /** One more submission, one more acceptance when accepted, and the rate
      recomputed as a percentage. */
  function UpdateProblemStats(p: ProblemStats, verdict: Verdict): (q: ProblemStats)
    ensures q.totalSubmissions == p.totalSubmissions + 1
    ensures q.totalAccepted == p.totalAccepted + (if verdict == Accepted then 1 else 0)
    ensures q.acceptanceRate * (q.totalSubmissions as real) == (q.totalAccepted as real) * 100.0
    ensures ValidStats(p) ==> ValidStats(q)
  {
    var submissions := p.totalSubmissions + 1;
    var accepted := p.totalAccepted + (if verdict == Accepted then 1 else 0);
    var rate := if submissions > 0 then (accepted as real) / (submissions as real) * 100.0 else p.acceptanceRate;
    ProblemStats(submissions, accepted, rate)
  }

  /** Starting from zero, the counters after a run of verdicts count the
      submissions and the accepted ones among them. */
  function Replay(p: ProblemStats, verdicts: seq<Verdict>): ProblemStats
    decreases |verdicts|
  {
    if |verdicts| == 0 then p else Replay(UpdateProblemStats(p, verdicts[0]), verdicts[1..])
  }

  function CountAccepted(verdicts: seq<Verdict>): (n: nat)
    ensures n <= |verdicts|
    decreases |verdicts|
  {
    if |verdicts| == 0 then 0 else (if verdicts[0] == Accepted then 1 else 0) + CountAccepted(verdicts[1..])
  }

  lemma {:induction false} ReplayCounts(p: ProblemStats, verdicts: seq<Verdict>)
    requires ValidStats(p)
    ensures var q := Replay(p, verdicts);
      && ValidStats(q)
      && q.totalSubmissions == p.totalSubmissions + |verdicts|
      && q.totalAccepted == p.totalAccepted + CountAccepted(verdicts)
    decreases |verdicts|
  {
    if |verdicts| > 0 {
      ReplayCounts(UpdateProblemStats(p, verdicts[0]), verdicts[1..]);
    }
  }

  // ---------------------------------------------------------------------------
  // broadcasts

  /** The messages pushed to the submission's subscribers. */
  datatype Update =
    | Progress(status: SubmissionStatus, progress: nat, message: string)
    | CompilationFailed(compileOutput: string)
    | Evaluated(verdict: Verdict, totalTests: nat, totalPassed: nat, totalRuntimeMs: real,
                results: seq<ExecutionResult>)
    | Crashed

  /** The status each message announces. */
  function Announced(u: Update): SubmissionStatus {
    match u
    case Progress(s, _, _) => s
    case _ => Completed
  }

  // ---------------------------------------------------------------------------
  // dispatch

  datatype RunnerKind = Judge0 | Sql | Pandas

  function Dispatch(language: string): (k: RunnerKind)
    ensures k == Sql <==> language == "sql"
    ensures k == Pandas <==> language == "pandas"
  {
    if language == "sql" then Sql else if language == "pandas" then Pandas else Judge0
  }

  const CompilingMessage := "Compiling your code..."

  const SqlRunningMessage := "Running SQL queries..."

  const PandasRunningMessage := "Running Pandas code..."

  /** What the database and the runners' back ends answer. */
  datatype Env = Env(
    submission: Option<Submission>,
    problem: Option<Problem>,
    datasets: string -> Option<Dataset>,
    judge0: (nat, Judge0Runner.Judge0Request) -> Judge0Runner.Exchange,
    sqlEngine: (nat, SqlRunner.SqlJob) -> SqlRunner.SqlAttempt,
    python: (nat, string) -> PandasRunner.PandasAttempt,
    toJson: PandasRunner.JsonEncoder,
    refetchFinds: bool
  )

  /** Every write and broadcast of one evaluation, in order, and the problem
      counters saved, if any.  `crashed` records that the evaluation threw
      and the error handler ran. */
  datatype Evaluation = Evaluation(
    saves: seq<Submission>,
    updates: seq<Update>,
    stats: Option<ProblemStats>,
    crashed: bool
  )

  predicate SameSubmission(w: Submission, s: Submission) {
    w.id == s.id && w.userId == s.userId && w.problemId == s.problemId
    && w.language == s.language && w.code == s.code
  }

  function Last(saves: seq<Submission>): Submission
    requires |saves| > 0
  {
    saves[|saves| - 1]
  }

  // ---------------------------------------------------------------------------
  // what every evaluation guarantees

  /** Every write is the same submission: only its judging fields change. */
  predicate AllSame(saves: seq<Submission>, s: Submission) {
    forall i :: 0 <= i < |saves| ==> SameSubmission(saves[i], s)
  }

  /** No write shows a verdict on a submission still waiting, compiling or
      running. */
  predicate VerdictOnlyWhenTerminal(saves: seq<Submission>) {
    forall i :: 0 <= i < |saves| ==> saves[i].verdict.Some? ==> IsTerminal(saves[i].status)
  }

  /** The submission's last status is terminal, unless the error handler ran
      and could not find the submission again. */
  predicate EndsTerminal(e: Evaluation, refetchFinds: bool) {
    |e.saves| > 0 && ((!e.crashed || refetchFinds) ==> IsTerminal(Last(e.saves).status))
  }

  /** The problem's counters move only for a judged (not a failed to compile)
      submission, and count its final verdict. */
  predicate StatsFollowVerdict(e: Evaluation, before: ProblemStats) {
    e.stats.Some? ==>
      && |e.saves| > 0 && !e.crashed
      && Last(e.saves).status == Completed
      && Last(e.saves).verdict.Some?
      && Last(e.saves).verdict.value != CompilationError
      && e.stats == Some(UpdateProblemStats(before, Last(e.saves).verdict.value))
  }

  /** Conversely, a judged submission always moves the counters: one that
      finished without crashing, completed, and did not fail to compile. */
  predicate JudgedCounts(e: Evaluation) {
    (!e.crashed && |e.saves| > 0 && Last(e.saves).status == Completed
     && Last(e.saves).verdict != Some(CompilationError)) ==> e.stats.Some?
  }

  /** A crash that the handler sees ends in a failed internal error, and the
      subscribers are told the submission completed. */
  predicate CrashReported(e: Evaluation, refetchFinds: bool) {
    e.crashed && refetchFinds ==>
      && |e.saves| > 0 && |e.updates| > 0
      && Last(e.saves).status == Failed && Last(e.saves).verdict == Some(InternalError)
      && e.updates[|e.updates| - 1] == Crashed
  }

  predicate Sound(e: Evaluation, s: Submission, before: ProblemStats, refetchFinds: bool) {
    && AllSame(e.saves, s)
    && (s.verdict.None? ==> VerdictOnlyWhenTerminal(e.saves))
    && EndsTerminal(e, refetchFinds)
    && StatsFollowVerdict(e, before)
    && JudgedCounts(e)
    && CrashReported(e, refetchFinds)
  }

  /** The writes and broadcasts made so far, as the later steps receive them. */
  predicate SoFar(saves: seq<Submission>, s: Submission) {
    |saves| > 0 && AllSame(saves, s) && (s.verdict.None? ==> VerdictOnlyWhenTerminal(saves))
  }

  predicate Extends(e: Evaluation, saves: seq<Submission>, updates: seq<Update>) {
    |e.saves| >= |saves| && e.saves[..|saves|] == saves
    && |e.updates| >= |updates| && e.updates[..|updates|] == updates
  }

  lemma AppendKeeps(saves: seq<Submission>, w: Submission, s: Submission)
    requires SoFar(saves, s) && SameSubmission(w, s)
    requires s.verdict.None? ==> (w.verdict.Some? ==> IsTerminal(w.status))
    ensures SoFar(saves + [w], s)
  {
    var t := saves + [w];
    forall i | 0 <= i < |t|
      ensures SameSubmission(t[i], s)
      ensures s.verdict.None? && t[i].verdict.Some? ==> IsTerminal(t[i].status)
    {
      if i < |saves| { assert t[i] == saves[i]; }
    }
  }

  // ---------------------------------------------------------------------------
  // the steps

  /** The error handler: the submission is fetched again (it holds the last
      write) and marked failed with an internal error, while the broadcast
      announces it completed. */
  function Recover(env: Env, saves: seq<Submission>, updates: seq<Update>): (e: Evaluation)
    requires |saves| > 0
    ensures e.crashed && e.stats.None? && Extends(e, saves, updates)
    ensures env.refetchFinds ==>
      e.saves == saves + [Last(saves).(status := Failed, verdict := Some(InternalError))]
      && e.updates == updates + [Crashed] && Announced(Crashed) == Completed
    ensures !env.refetchFinds ==> e.saves == saves && e.updates == updates
  {
    if env.refetchFinds then
      Evaluation(saves + [Last(saves).(status := Failed, verdict := Some(InternalError))], updates + [Crashed], None, true)
    else
      Evaluation(saves, updates, None, true)
  }

  lemma RecoverSound(env: Env, s: Submission, before: ProblemStats, saves: seq<Submission>, updates: seq<Update>)
    requires SoFar(saves, s)
    ensures Sound(Recover(env, saves, updates), s, before, env.refetchFinds)
  {
    if env.refetchFinds {
      AppendKeeps(saves, Last(saves).(status := Failed, verdict := Some(InternalError)), s);
    }
  }

  /** After the runner: a compilation error is stored as the verdict with the
      compiler's output, without results and without touching the problem's
      counters; otherwise the results are processed, the counters updated and
      the final verdict broadcast. */
  function Conclude(cur: Submission, before: ProblemStats, out: RunnerOutcome,
                    saves: seq<Submission>, updates: seq<Update>): (e: Evaluation)
    requires out.RunnerFinished?
    ensures !e.crashed && Extends(e, saves, updates)
    ensures |e.saves| == |saves| + 1 && |e.updates| == |updates| + 1
    ensures out.compileOutput.Some? && out.compileOutput.value != "" ==>
      && e.stats.None?
      && Last(e.saves) == cur.(status := Completed, verdict := Some(CompilationError), compileOutput := out.compileOutput)
      && e.updates[|updates|] == CompilationFailed(out.compileOutput.value)
    ensures !(out.compileOutput.Some? && out.compileOutput.value != "") ==>
      && Last(e.saves) == ProcessTestcaseResults(cur, out.results)
      && e.stats == Some(UpdateProblemStats(before, Last(e.saves).verdict.value))
  {
    if out.compileOutput.Some? && out.compileOutput.value != "" then
      var done := cur.(status := Completed, verdict := Some(CompilationError), compileOutput := out.compileOutput);
      Evaluation(saves + [done], updates + [CompilationFailed(out.compileOutput.value)], None, false)
    else
      var done := ProcessTestcaseResults(cur, out.results);
      Evaluation(saves + [done],
                 updates + [Evaluated(done.verdict.value, done.totalTests, done.totalPassed, done.totalRuntimeMs, done.results)],
                 Some(UpdateProblemStats(before, done.verdict.value)), false)
  }

  lemma ConcludeSound(cur: Submission, s: Submission, before: ProblemStats, out: RunnerOutcome,
                      saves: seq<Submission>, updates: seq<Update>, refetchFinds: bool)
    requires out.RunnerFinished? && SoFar(saves, s) && SameSubmission(cur, s)
    ensures Sound(Conclude(cur, before, out, saves, updates), s, before, refetchFinds)
  {
    var e := Conclude(cur, before, out, saves, updates);
    assert e.saves == saves + [Last(e.saves)];
    AppendKeeps(saves, Last(e.saves), s);
  }

  /** A dataset runner (SQL or pandas): a problem without a dataset throws
      before the submission is marked running; otherwise it is marked running
      and the runner's results are concluded, or its failure handled. */
  function RunOnDataset(env: Env, kind: RunnerKind, cur: Submission, p: Problem,
                        saves: seq<Submission>, updates: seq<Update>): (e: Evaluation)
    requires kind != Judge0 && |saves| > 0
    ensures Extends(e, saves, updates)
    ensures p.datasetId.None? ==> e == Recover(env, saves, updates)
    ensures p.datasetId.Some? ==>
      && |e.saves| > |saves| && |e.updates| > |updates|
      && e.saves[|saves|] == cur.(status := Running)
      && e.updates[|updates|] == Progress(Running, 10, if kind == Sql then SqlRunningMessage else PandasRunningMessage)
    ensures p.datasetId.Some? ==> (e.crashed <==> env.datasets(p.datasetId.value).None?)
    ensures p.datasetId.Some? && env.datasets(p.datasetId.value).Some? ==>
      && |e.saves| == |saves| + 2 && |e.updates| == |updates| + 2
      && Last(e.saves) == ProcessTestcaseResults(cur.(status := Running), DatasetOutcome(env, kind, cur.code, p).results)
      && e.stats == Some(UpdateProblemStats(p.stats, Last(e.saves).verdict.value))
  {
    if p.datasetId.None? then Recover(env, saves, updates)
    else
      var saves' := saves + [cur.(status := Running)];
      var updates' := updates + [Progress(Running, 10, if kind == Sql then SqlRunningMessage else PandasRunningMessage)];
      var out := DatasetOutcome(env, kind, cur.code, p);
      var e := if out.RunnerThrew? then Recover(env, saves', updates')
               else Conclude(cur.(status := Running), p.stats, out, saves', updates');
      ExtendsAppended(e, saves, cur.(status := Running), updates,
                      Progress(Running, 10, if kind == Sql then SqlRunningMessage else PandasRunningMessage));
      e
  }

  /** What extends a history with one more save and update extends the
      history, and holds those two right after it. */
  lemma ExtendsAppended(e: Evaluation, saves: seq<Submission>, w: Submission, updates: seq<Update>, u: Update)
    requires Extends(e, saves + [w], updates + [u])
    ensures Extends(e, saves, updates)
    ensures |e.saves| > |saves| && e.saves[|saves|] == w
    ensures |e.updates| > |updates| && e.updates[|updates|] == u
  {
    assert e.saves[..|saves|] == (saves + [w])[..|saves|];
    assert e.saves[|saves|] == (saves + [w])[|saves|];
    assert e.updates[..|updates|] == (updates + [u])[..|updates|];
    assert e.updates[|updates|] == (updates + [u])[|updates|];
  }

  /** What the dataset runner reports for the problem's testcases. */
  function DatasetOutcome(env: Env, kind: RunnerKind, code: string, p: Problem): (out: RunnerOutcome)
    requires p.datasetId.Some?
    ensures out.RunnerThrew? <==> env.datasets(p.datasetId.value).None?
    ensures out.RunnerFinished? ==> out.compileOutput.None? && |out.results| == |p.testcases|
  {
    var dataset := env.datasets(p.datasetId.value);
    if kind == Sql then SqlRunner.Run(code, p.testcases, dataset, p.timeLimitPerTestMs, env.sqlEngine)
    else PandasRunner.Run(code, p.testcases, dataset, p.timeLimitPerTestMs, env.toJson, env.python)
  }

  lemma RunOnDatasetSound(env: Env, kind: RunnerKind, cur: Submission, s: Submission, p: Problem,
                          saves: seq<Submission>, updates: seq<Update>)
    requires kind != Judge0 && SoFar(saves, s) && SameSubmission(cur, s) && cur.verdict == s.verdict
    ensures Sound(RunOnDataset(env, kind, cur, p, saves, updates), s, p.stats, env.refetchFinds)
  {
    if p.datasetId.None? {
      RecoverSound(env, s, p.stats, saves, updates);
    } else {
      var running := cur.(status := Running);
      AppendKeeps(saves, running, s);
      var saves' := saves + [running];
      var updates' := updates + [Progress(Running, 10, if kind == Sql then SqlRunningMessage else PandasRunningMessage)];
      var out := DatasetOutcome(env, kind, cur.code, p);
      if out.RunnerThrew? {
        RecoverSound(env, s, p.stats, saves', updates');
      } else {
        ConcludeSound(running, s, p.stats, out, saves', updates', env.refetchFinds);
      }
    }
  }

  /** How a Judge0 evaluation ends: the compiling write is followed by exactly
      one completed write, a compilation error exactly when some testcase's
      run reported one, and otherwise the verdict of the results the runs
      produced, one per testcase in order. */
  predicate Judge0Concluded(e: Evaluation, s: Submission, p: Problem,
                            judge0: (nat, Judge0Runner.Judge0Request) -> Judge0Runner.Exchange)
  {
    var outs := Judge0Runner.Outcomes(judge0, s.code, s.language, p.testcases, p.timeLimitPerTestMs, p.memoryLimitMb);
    var clean := Judge0Runner.NoCompileErrorBefore(outs, |p.testcases|);
    && !e.crashed && |e.saves| == 2 && |e.updates| == 2
    && e.saves[1].status == Completed
    && (e.saves[1].verdict == Some(CompilationError) <==> !clean)
    && (clean ==>
          && |e.saves[1].results| == |p.testcases|
          && Judge0Runner.RecordedRuns(e.saves[1].results, outs, p.testcases, |p.testcases|)
          && e.saves[1] == ProcessTestcaseResults(s.(status := Compiling), e.saves[1].results))
  }

  /** How a SQL or pandas evaluation ends: without a dataset id it is handled
      as a crash; with one it is marked running, and it crashes exactly when
      the dataset is missing, or else completes with the verdict of the
      runner's results. */
  predicate DatasetJudged(e: Evaluation, env: Env, kind: RunnerKind, s: Submission, p: Problem)
    requires kind != Judge0
  {
    && (p.datasetId.None? ==> e.crashed && e.stats.None?)
    && (p.datasetId.Some? ==>
          && |e.saves| >= 2 && e.saves[1] == s.(status := Running)
          && (e.crashed <==> env.datasets(p.datasetId.value).None?)
          && (!e.crashed ==>
                && |e.saves| == 3
                && e.saves[2] == ProcessTestcaseResults(s.(status := Running), DatasetOutcome(env, kind, s.code, p).results)))
  }

  lemma Judge0Judged(env: Env, s: Submission, p: Problem, results: seq<ExecutionResult>, compileOutput: Option<string>)
    requires var outs := Judge0Runner.Outcomes(env.judge0, s.code, s.language, p.testcases, p.timeLimitPerTestMs, p.memoryLimitMb);
      && (compileOutput.None? <==> Judge0Runner.NoCompileErrorBefore(outs, |p.testcases|))
      && (compileOutput.None? ==> |results| == |p.testcases| && Judge0Runner.RecordedRuns(results, outs, p.testcases, |p.testcases|))
      && (compileOutput.Some? ==> compileOutput.value != "")
    ensures Judge0Concluded(Conclude(s.(status := Compiling), p.stats, RunnerFinished(results, compileOutput),
                                     [s.(status := Compiling)], [Progress(Compiling, 0, CompilingMessage)]),
                            s, p, env.judge0)
  {
  }

  /** A SQL or pandas submission after its compiling write and broadcast. */
  lemma EvaluateOnDataset(env: Env, kind: RunnerKind, s: Submission, p: Problem)
    requires kind != Judge0
    ensures var e := RunOnDataset(env, kind, s.(status := Compiling), p,
                                  [s.(status := Compiling)], [Progress(Compiling, 0, CompilingMessage)]);
      && Sound(e, s, p.stats, env.refetchFinds)
      && DatasetJudged(e, env, kind, s, p)
  {
    var compiling := s.(status := Compiling);
    assert SoFar([compiling], s);
    RunOnDatasetSound(env, kind, compiling, s, p, [compiling], [Progress(Compiling, 0, CompilingMessage)]);
    assert compiling.(status := Running) == s.(status := Running);
  }

  /** A Judge0 submission after its compiling write and broadcast: every
      testcase is run (up to the first compilation error) and the results
      concluded. */
  method EvaluateOnJudge0(env: Env, s: Submission, p: Problem) returns (e: Evaluation)
    ensures Sound(e, s, p.stats, env.refetchFinds)
    ensures Extends(e, [s.(status := Compiling)], [Progress(Compiling, 0, CompilingMessage)])
    ensures Judge0Concluded(e, s, p, env.judge0)
  {
    var compiling := s.(status := Compiling);
    var saves := [compiling];
    var updates := [Progress(Compiling, 0, CompilingMessage)];
    assert SoFar(saves, s);
    var results, compileOutput := Judge0Runner.CompileAndRun(
      s.code, s.language, p.testcases, p.timeLimitPerTestMs, p.memoryLimitMb, env.judge0);
    e := Conclude(compiling, p.stats, RunnerFinished(results, compileOutput), saves, updates);
    ConcludeSound(compiling, s, p.stats, RunnerFinished(results, compileOutput), saves, updates, env.refetchFinds);
    Judge0Judged(env, s, p, results, compileOutput);
  }

  /** Judge one submission.  A missing submission is ignored; a missing
      problem marks it failed without a broadcast; otherwise it is marked
      compiling (and running, for the dataset runners), run, and finished. */
  method EvaluateSubmission(env: Env) returns (e: Evaluation)
    ensures env.submission.None? ==> e == Evaluation([], [], None, false)
    ensures env.submission.Some? && env.problem.None? ==>
      e == Evaluation([env.submission.value.(status := Failed, verdict := Some(InternalError))], [], None, false)
    ensures env.submission.Some? && env.problem.Some? ==>
      && Sound(e, env.submission.value, env.problem.value.stats, env.refetchFinds)
      && Extends(e, [env.submission.value.(status := Compiling)], [Progress(Compiling, 0, CompilingMessage)])
    ensures env.submission.Some? && env.problem.Some? && Dispatch(env.submission.value.language) == Judge0 ==>
      Judge0Concluded(e, env.submission.value, env.problem.value, env.judge0)
    ensures env.submission.Some? && env.problem.Some? && Dispatch(env.submission.value.language) != Judge0 ==>
      DatasetJudged(e, env, Dispatch(env.submission.value.language), env.submission.value, env.problem.value)
  {
    if env.submission.None? {
      return Evaluation([], [], None, false);
    }
    var s := env.submission.value;
    if env.problem.None? {
      return Evaluation([s.(status := Failed, verdict := Some(InternalError))], [], None, false);
    }
    var p := env.problem.value;
    var kind := Dispatch(s.language);
    if kind != Judge0 {
      var compiling := s.(status := Compiling);
      e := RunOnDataset(env, kind, compiling, p, [compiling], [Progress(Compiling, 0, CompilingMessage)]);
      EvaluateOnDataset(env, kind, s, p);
    } else {
      e := EvaluateOnJudge0(env, s, p);
    }
  }
}

=== FILE: judge0_runner.dfy ===
/** The runner for compiled and interpreted languages: every testcase is
    submitted to a Judge0 server and its reply is turned into a testcase
    result.  The server is an oracle: for the `i`-th testcase it answers the
    creating POST and then each polling GET. */
module Judge0Runner {
  import opened Wrappers
  import opened Text
  import opened Models
  import opened Comparators

  // ---------------------------------------------------------------------------
  // languages

  const CppId := 54
  const JavaId := 62
  const PythonId := 71
  const JavaScriptId := 63

  /** Judge0's language id; an unknown language falls back to Python. */
  function LanguageId(language: string): (id: int)
    ensures id in {CppId, JavaId, PythonId, JavaScriptId}
    ensures id == CppId <==> language == "cpp"
    ensures id == JavaId <==> language == "java"
    ensures id == JavaScriptId <==> language == "javascript"
    ensures id == PythonId <==> language !in {"cpp", "java", "javascript"}
  {
    if language == "cpp" then CppId
    else if language == "java" then JavaId
    else if language == "python" then PythonId
    else if language == "javascript" then JavaScriptId
    else PythonId
  }

  // ---------------------------------------------------------------------------
  // the server's messages

  /** The request body: the source, the testcase's input and expected output
      (all base64-encoded on the wire), and the limits in Judge0's units. */
  datatype Judge0Request = Judge0Request(
    sourceCode: string,
    languageId: int,
    stdin: string,
    expectedOutput: string,
    cpuTimeLimitSec: real,
    memoryLimitKb: int
  )

  function RequestFor(code: string, languageId: int, tc: Testcase, timeLimitMs: int, memoryLimitMb: int): (q: Judge0Request)
    ensures q.cpuTimeLimitSec * 1000.0 == timeLimitMs as real
    ensures q.memoryLimitKb == memoryLimitMb * 1024
    ensures q.stdin == tc.input && q.expectedOutput == tc.expectedOutput && q.sourceCode == code
  {
    Judge0Request(code, languageId, tc.input, tc.expectedOutput, timeLimitMs as real / 1000.0, memoryLimitMb * 1024)
  }

  /** The `status` field of a reply: absent, present without an id, or with one. */
  datatype Judge0Status = NoStatus | StatusWithoutId | StatusId(id: int)

  /** A submission as the server reports it, already base64-decoded; `time`
      (seconds) and `memory` (KB) are absent when they do not parse. */
  datatype Judge0Result = Judge0Result(
    status: Judge0Status,
    stdout: Option<string>,
    stderr: Option<string>,
    compileOutput: Option<string>,
    timeSec: Option<real>,
    memoryKb: Option<int>,
    exitCode: Option<int>
  )

  datatype PostReply = PostFailed(message: string) | Created(token: string)

  datatype PollReply = GetFailed(message: string) | Fetched(result: Judge0Result)

  /** What the server says about one testcase: the POST, then the i-th GET. */
  datatype Exchange = Exchange(post: PostReply, polls: nat -> PollReply)

  datatype RunOutcome = Threw(message: string) | Returned(result: Judge0Result)

  // ---------------------------------------------------------------------------
  // running one testcase

  const MaxPollAttempts: nat := 10

  const PollTimeoutMessage := "Execution timeout: Judge0 did not return result in time"

  /** Reading `status.id` of a reply without a status throws a TypeError. */
  const MissingStatusMessage := "Cannot read properties of undefined (reading 'id')"

  /** Ids 1 and 2 are "in queue" and "processing"; a status without an id
      compares as not finished either. */
  predicate Settled(r: Judge0Result) {
    r.status.StatusId? && r.status.id > 2
  }

  predicate Pending(p: PollReply) {
    p.Fetched? && !p.result.status.NoStatus? && !Settled(p.result)
  }

  /** The polling loop from attempt `attempt` on. */
  function PollFrom(polls: nat -> PollReply, attempt: nat): RunOutcome
    requires attempt <= MaxPollAttempts
    decreases MaxPollAttempts - attempt
  {
    if attempt == MaxPollAttempts then Threw(PollTimeoutMessage)
    else
      match polls(attempt)
      case GetFailed(m) => Threw(m)
      case Fetched(r) =>
        if r.status.NoStatus? then Threw(MissingStatusMessage)
        else if Settled(r) then Returned(r)
        else PollFrom(polls, attempt + 1)
  }

  /** The reference outcome of one testcase's exchange. */
  function Outcome(ex: Exchange): RunOutcome {
    match ex.post
    case PostFailed(m) => Threw(m)
    case Created(_) => PollFrom(ex.polls, 0)
  }

  lemma {:induction false} PollFromReturnsSettled(polls: nat -> PollReply, attempt: nat)
    requires attempt <= MaxPollAttempts
    ensures PollFrom(polls, attempt).Returned? ==>
      Settled(PollFrom(polls, attempt).result)
      && exists a :: attempt <= a < MaxPollAttempts && polls(a) == Fetched(PollFrom(polls, attempt).result)
                     && (forall b :: attempt <= b < a ==> Pending(polls(b)))
    ensures (forall b :: attempt <= b < MaxPollAttempts ==> Pending(polls(b))) ==>
      PollFrom(polls, attempt) == Threw(PollTimeoutMessage)
    decreases MaxPollAttempts - attempt
  {
    if attempt < MaxPollAttempts {
      PollFromReturnsSettled(polls, attempt + 1);
      var o := PollFrom(polls, attempt);
      if o.Returned? && polls(attempt) != Fetched(o.result) {
        var a :| attempt + 1 <= a < MaxPollAttempts && polls(a) == Fetched(o.result)
                 && (forall b :: attempt + 1 <= b < a ==> Pending(polls(b)));
        assert forall b :: attempt <= b < a ==> Pending(polls(b));
      }
    }
  }

  /** POST the submission, then poll up to ten times until the server reports
      a finished status.  Any failed request, a reply without a status, or ten
      unfinished replies make it throw. */
  method RunTestcase(ex: Exchange) returns (o: RunOutcome)
    ensures o == Outcome(ex)
    ensures ex.post.PostFailed? ==> o == Threw(ex.post.message)
    ensures o.Returned? ==>
      Settled(o.result)
      && exists a :: 0 <= a < MaxPollAttempts && ex.polls(a) == Fetched(o.result)
                     && (forall b :: 0 <= b < a ==> Pending(ex.polls(b)))
    ensures ex.post.Created? && (forall b :: 0 <= b < MaxPollAttempts ==> Pending(ex.polls(b))) ==>
      o == Threw(PollTimeoutMessage)
  {
    PollFromReturnsSettled(ex.polls, 0);
    if ex.post.PostFailed? {
      return Threw(ex.post.message);
    }
    var attempts: nat := 0;
    while attempts < MaxPollAttempts
      invariant attempts <= MaxPollAttempts
      invariant PollFrom(ex.polls, attempts) == PollFrom(ex.polls, 0)
    {
      var reply := ex.polls(attempts);
      if reply.GetFailed? {
        return Threw(reply.message);
      }
      var result := reply.result;
      if result.status.NoStatus? {
        return Threw(MissingStatusMessage);
      }
      if Settled(result) {
        return Returned(result);
      }
      attempts := attempts + 1;
    }
    return Threw(PollTimeoutMessage);
  }

  // ---------------------------------------------------------------------------
  // turning a reply into a testcase result

  /** `status?.id`: absent unless the status carries an id. */
  function StatusIdOf(r: Judge0Result): Option<int> {
    if r.status.StatusId? then Some(r.status.id) else None
  }

  predicate HasId(r: Judge0Result, id: int) {
    StatusIdOf(r) == Some(id)
  }

  predicate IsRuntimeErrorId(r: Judge0Result) {
    StatusIdOf(r).Some? && 7 <= StatusIdOf(r).value <= 12
  }

  /** Id 5 is a time limit; ids 6 to 12 are errors; ids 3 (accepted) and 4
      (wrong answer) leave the decision to this system's comparator, which
      ignores Judge0's own judgement; any other id is an error. */
  function ProcessExecutionResult(r: Judge0Result, tc: Testcase): (e: ExecutionResult)
    ensures e.testcaseId == tc.id
    ensures e.status == TLE <==> HasId(r, 5)
    ensures e.status in {PASSED, FAILED} <==> HasId(r, 3) || HasId(r, 4)
    ensures e.status == RE <==> !HasId(r, 3) && !HasId(r, 4) && !HasId(r, 5)
    ensures e.status != MLE
    ensures (HasId(r, 3) || HasId(r, 4)) ==>
      (e.status == PASSED <==> Compare(e.stdout, tc.expectedOutput, tc.comparatorConfig).passed)
      && e.diff == Compare(e.stdout, tc.expectedOutput, tc.comparatorConfig).diff
    ensures e.diff.Some? ==> e.status == FAILED
    ensures e.stdout == OrElse(r.stdout, "") && e.stderr == OrElse(r.stderr, "")
    ensures e.runtimeMs >= 0.0 <== (r.timeSec.None? || r.timeSec.value >= 0.0)
    ensures e.exitCode == r.exitCode
  {
    var stdout := OrElse(r.stdout, "");
    var stderr := OrElse(r.stderr, "");
    var runtimeMs := (if r.timeSec.Some? then r.timeSec.value else 0.0) * 1000.0;
    var memoryMb := (if r.memoryKb.Some? then r.memoryKb.value else 0) as real / 1024.0;
    var statusId := StatusIdOf(r);
    var (status, diff) :=
      if statusId == Some(5) then (TLE, None)
      else if statusId == Some(6) then (RE, None)
      else if IsRuntimeErrorId(r) then (RE, None)
      else if statusId == Some(3) || statusId == Some(4) then
        var c := Compare(stdout, tc.expectedOutput, tc.comparatorConfig);
        (if c.passed then PASSED else FAILED, c.diff)
      else (RE, None);
    ExecutionResult(tc.id, status, stdout, stderr, runtimeMs, memoryMb, r.exitCode, diff)
  }

  const InternalErrorMessage := "Internal error during execution"

  const CompilationFailedMessage := "Compilation failed"

  /** The result recorded for a testcase whose run threw. */
  function InternalErrorResult(tc: Testcase): ExecutionResult {
    ExecutionResult(tc.id, RE, "", InternalErrorMessage, 0.0, 0.0, None, None)
  }

  predicate IsCompileError(o: RunOutcome) {
    o.Returned? && HasId(o.result, 6)
  }

  /** `compile_output || stderr || 'Compilation failed'`. */
  function CompileMessage(r: Judge0Result): (m: string)
    ensures m != ""
    ensures m == CompilationFailedMessage || Some(m) == r.compileOutput || Some(m) == r.stderr
  {
    OrElse(r.compileOutput, OrElse(r.stderr, CompilationFailedMessage))
  }

  /** One runtime-error result per testcase, carrying the compiler's output. */
  function CompileErrorResults(testcases: seq<Testcase>, message: string): (rs: seq<ExecutionResult>)
    ensures |rs| == |testcases|
    ensures forall j :: 0 <= j < |testcases| ==>
      rs[j] == ExecutionResult(testcases[j].id, RE, "", message, 0.0, 0.0, None, None)
  {
    seq(|testcases|, j requires 0 <= j < |testcases| =>
      ExecutionResult(testcases[j].id, RE, "", message, 0.0, 0.0, None, None))
  }

  /** The result recorded for a testcase whose run did not report a
      compilation error. */
  function ResultFor(o: RunOutcome, tc: Testcase): ExecutionResult {
    match o
    case Threw(_) => InternalErrorResult(tc)
    case Returned(r) => ProcessExecutionResult(r, tc)
  }

  /** The outcome of every testcase's run, the `j`-th request carrying the
      `j`-th testcase. */
  function Outcomes(server: (nat, Judge0Request) -> Exchange, code: string, language: string,
                    testcases: seq<Testcase>, timeLimitMs: int, memoryLimitMb: int): (outs: seq<RunOutcome>)
    ensures |outs| == |testcases|
    ensures forall j :: 0 <= j < |testcases| ==>
      outs[j] == Outcome(server(j, RequestFor(code, LanguageId(language), testcases[j], timeLimitMs, memoryLimitMb)))
  {
    seq(|testcases|, j requires 0 <= j < |testcases| =>
      Outcome(server(j, RequestFor(code, LanguageId(language), testcases[j], timeLimitMs, memoryLimitMb))))
  }

  predicate NoCompileErrorBefore(outs: seq<RunOutcome>, k: nat)
    requires k <= |outs|
  {
    forall j :: 0 <= j < k ==> !IsCompileError(outs[j])
  }

  /** The first `k` results are the ordinary results of the first `k` runs. */
  predicate RecordedRuns(results: seq<ExecutionResult>, outs: seq<RunOutcome>, testcases: seq<Testcase>, k: nat)
    requires k <= |results| && k <= |outs| && k <= |testcases|
  {
    forall j :: 0 <= j < k ==> results[j] == ResultFor(outs[j], testcases[j])
  }

  /** A run stopped at the compilation error of run `k`: the results of the
      runs before it, then one runtime-error result per testcase. */
  predicate StoppedAt(results: seq<ExecutionResult>, message: string, outs: seq<RunOutcome>,
                      testcases: seq<Testcase>, k: nat)
    requires |outs| == |testcases|
  {
    && k < |testcases|
    && IsCompileError(outs[k]) && NoCompileErrorBefore(outs, k)
    && message == CompileMessage(outs[k].result)
    && |results| == k + |testcases|
    && RecordedRuns(results, outs, testcases, k)
    && results[k..] == CompileErrorResults(testcases, message)
  }

  lemma RecordOne(results: seq<ExecutionResult>, outs: seq<RunOutcome>, testcases: seq<Testcase>, i: nat)
    requires |results| == i && i < |outs| && i < |testcases|
    requires RecordedRuns(results, outs, testcases, i)
    ensures RecordedRuns(results + [ResultFor(outs[i], testcases[i])], outs, testcases, i + 1)
  {
    var r := results + [ResultFor(outs[i], testcases[i])];
    forall j | 0 <= j < i + 1
      ensures r[j] == ResultFor(outs[j], testcases[j])
    {
      if j < i { assert r[j] == results[j]; }
    }
  }

  lemma RecordStop(results: seq<ExecutionResult>, outs: seq<RunOutcome>, testcases: seq<Testcase>, i: nat)
    requires |outs| == |testcases| && |results| == i && i < |testcases|
    requires RecordedRuns(results, outs, testcases, i) && NoCompileErrorBefore(outs, i)
    requires IsCompileError(outs[i])
    ensures StoppedAt(results + CompileErrorResults(testcases, CompileMessage(outs[i].result)),
                      CompileMessage(outs[i].result), outs, testcases, i)
  {
    var ce := CompileErrorResults(testcases, CompileMessage(outs[i].result));
    var r := results + ce;
    assert r[i..] == ce;
    forall j | 0 <= j < i
      ensures r[j] == ResultFor(outs[j], testcases[j])
    {
      assert r[j] == results[j];
    }
  }

  /** Run the testcases in order.  A run that throws is recorded as an
      internal runtime error and the loop goes on.  The first run that reports
      a compilation error (id 6) stops the loop: the compiler's message
      becomes `compileOutput` and one runtime-error result for EVERY testcase
      is appended after the `k` results already gathered. */
  method CompileAndRun(code: string, language: string, testcases: seq<Testcase>,
                       timeLimitMs: int, memoryLimitMb: int,
                       server: (nat, Judge0Request) -> Exchange)
    returns (results: seq<ExecutionResult>, compileOutput: Option<string>)
    ensures var outs := Outcomes(server, code, language, testcases, timeLimitMs, memoryLimitMb);
      compileOutput.None? <==> NoCompileErrorBefore(outs, |testcases|)
    ensures var outs := Outcomes(server, code, language, testcases, timeLimitMs, memoryLimitMb);
      compileOutput.None? ==> |results| == |testcases| && RecordedRuns(results, outs, testcases, |testcases|)
    ensures var outs := Outcomes(server, code, language, testcases, timeLimitMs, memoryLimitMb);
      compileOutput.Some? ==>
        compileOutput.value != ""
        && exists k :: StoppedAt(results, compileOutput.value, outs, testcases, k)
  {
    var outs := Outcomes(server, code, language, testcases, timeLimitMs, memoryLimitMb);
    var languageId := LanguageId(language);
    results := [];
    compileOutput := None;
    var i := 0;
    while i < |testcases|
      invariant 0 <= i <= |testcases|
      invariant |results| == i
      invariant NoCompileErrorBefore(outs, i)
      invariant RecordedRuns(results, outs, testcases, i)
    {
      var request := RequestFor(code, languageId, testcases[i], timeLimitMs, memoryLimitMb);
      var o := RunTestcase(server(i, request));
      assert o == outs[i];
      if IsCompileError(o) {
        var message := CompileMessage(o.result);
        RecordStop(results, outs, testcases, i);
        compileOutput := Some(message);
        results := results + CompileErrorResults(testcases, message);
        return;
      }
      RecordOne(results, outs, testcases, i);
      results := results + [ResultFor(o, testcases[i])];
      i := i + 1;
    }
  }
}

=== FILE: models.dfy ===
/** The records the evaluator reads and writes: problems and their testcases,
    submissions and per-testcase results, datasets of tables, users.  Database
    identities are plain strings. */
module Models {
  import opened Wrappers
  import opened Text

  // ---------------------------------------------------------------------------
  // Problem

  /** How a testcase's output is compared.  A stored configuration may carry a
      type name outside the three known ones; the comparator treats it as exact. */
  datatype ComparatorType = Exact | Token | Table | Unrecognized(name: string)

  /** `ignoreCase` is optional in the schema; an absent flag reads as false. */
  datatype ComparatorConfig = ComparatorConfig(
    kind: ComparatorType,
    trimWhitespace: bool,
    orderSensitive: bool,
    ignoreCase: bool
  )

  /** Schema defaults: exact, trimmed, order-sensitive, case-sensitive. */
  const DefaultComparatorConfig := ComparatorConfig(Exact, true, true, false)

  datatype Testcase = Testcase(
    id: string,
    input: string,
    expectedOutput: string,
    isPublic: bool,
    weight: int,
    comparatorConfig: ComparatorConfig,
    timeoutMs: Option<int>,
    hiddenReason: Option<string>
  )

  /** The acceptance counters of a problem; the rate is a percentage. */
  datatype ProblemStats = ProblemStats(totalSubmissions: nat, totalAccepted: nat, acceptanceRate: real)

  datatype Problem = Problem(
    id: string,
    slug: string,
    allowedLanguages: seq<string>,
    timeLimitPerTestMs: int,
    memoryLimitMb: int,
    testcases: seq<Testcase>,
    datasetId: Option<string>,
    stats: ProblemStats
  )

  // ---------------------------------------------------------------------------
  // Submission

  datatype SubmissionStatus = Pending | Compiling | Running | Completed | Failed

  datatype Verdict =
    | Accepted
    | WrongAnswer
    | TimeLimitExceeded
    | MemoryLimitExceeded
    | RuntimeError
    | CompilationError
    | InternalError

  /** Outcome of one testcase, named as in the schema. */
  datatype TestcaseStatus = PASSED | FAILED | TLE | MLE | RE

  datatype ExecutionResult = ExecutionResult(
    testcaseId: string,
    status: TestcaseStatus,
    stdout: string,
    stderr: string,
    runtimeMs: real,
    memoryMb: real,
    exitCode: Option<int>,
    diff: Option<string>
  )

  datatype Submission = Submission(
    id: string,
    userId: string,
    problemId: string,
    language: string,
    code: string,
    status: SubmissionStatus,
    verdict: Option<Verdict>,
    results: seq<ExecutionResult>,
    compileOutput: Option<string>,
    totalRuntimeMs: real,
    totalPassed: nat,
    totalTests: nat
  )

  /** `x || fallback` on an optional string: an absent or empty string is
      falsy and yields the fallback. */
  function OrElse(x: Option<string>, fallback: string): string {
    if x.Some? && x.value != "" then x.value else fallback
  }

  predicate IsTerminal(s: SubmissionStatus) {
    s == Completed || s == Failed
  }

  function Statuses(results: seq<ExecutionResult>): (r: seq<TestcaseStatus>)
    ensures |r| == |results|
    ensures forall i :: 0 <= i < |results| ==> r[i] == results[i].status
  {
    seq(|results|, i requires 0 <= i < |results| => results[i].status)
  }

  /** What a runner hands back to the orchestrator: its results and, from
      the Judge0 runner, the compiler's output; or the error it threw. */
  datatype RunnerOutcome =
    | RunnerThrew(message: string)
    | RunnerFinished(results: seq<ExecutionResult>, compileOutput: Option<string>)

  // ---------------------------------------------------------------------------
  // Dataset

  datatype DatasetType = SQL | PANDAS

  /** A stored or returned cell value: null, text, an integer, a boolean, or
      a number with a fractional part (SQLite's REAL, such as an `AVG`).  A
      fractional number carries the text JavaScript's `String` gives it, since
      the model does not compute shortest round-trip decimal renderings. */
  datatype Cell = Null | Str(s: string) | Int(i: int) | Bool(b: bool) | Num(value: real, shown: string)

  datatype Column = Column(name: string, sqlType: string)

  /** A row maps column names to values; a missing key reads as `undefined`. */
  type Row = map<string, Cell>

  datatype Table = Table(name: string, columns: seq<Column>, rows: seq<Row>)

  /** The table's column names, in order. */
  function ColumnNames(columns: seq<Column>): (r: seq<string>)
    ensures |r| == |columns|
    ensures forall i :: 0 <= i < |columns| ==> r[i] == columns[i].name
  {
    seq(|columns|, i requires 0 <= i < |columns| => columns[i].name)
  }

  datatype Dataset = Dataset(id: string, name: string, kind: DatasetType, tables: seq<Table>)

  /** `row[name]`, with a missing key read as null. */
  function CellOf(row: Row, name: string): Cell {
    if name in row then row[name] else Null
  }

  /** The text `Array.prototype.join` writes for a value: nothing for null. */
  function CellText(c: Cell): string {
    match c
    case Null => ""
    case Str(s) => s
    case Int(i) => IntToString(i)
    case Bool(b) => if b then "true" else "false"
    case Num(_, shown) => shown
  }

  // ---------------------------------------------------------------------------
  // User

  datatype Role = USER | ADMIN
}

=== FILE: numbers.dfy ===
/** JavaScript's `parseInt(s, 10)` over ASCII: leading whitespace, an optional
    sign, then the longest run of decimal digits; no digits at all is NaN,
    written `None` here. */
module Numbers {
  import opened Wrappers
  import opened Text

  predicate IsDigit(c: char) {
    '0' <= c <= '9'
  }

  predicate AllDigits(s: string) {
    forall i :: 0 <= i < |s| ==> IsDigit(s[i])
  }

  function DigitValue(c: char): nat
    requires IsDigit(c)
  {
    c as int - '0' as int
  }

  /** The length of the longest prefix made of digits. */
  function DigitRun(s: string): (n: nat)
    ensures n <= |s| && AllDigits(s[..n])
    ensures n < |s| ==> !IsDigit(s[n])
    decreases |s|
  {
    if |s| > 0 && IsDigit(s[0]) then 1 + DigitRun(s[1..]) else 0
  }

  /** The number a run of digits denotes, most significant first. */
  function DigitsValue(s: string): nat
    requires AllDigits(s)
    decreases |s|
  {
    if |s| == 0 then 0 else 10 * DigitsValue(s[..|s| - 1]) + DigitValue(s[|s| - 1])
  }

  function ParseInt(s: string): (r: Option<int>)
    ensures |s| > 0 && AllDigits(s) ==> r == Some(DigitsValue(s))
    ensures AllSpace(s) ==> r.None?
  {
    AllDigitsRun(s);
    TrimStartOfSpaces(s);
    ReadSigned(TrimStart(s))
  }

  /** An optional sign and the digits that follow it, ignoring the rest. */
  function ReadSigned(t: string): Option<int> {
    var u := if |t| > 0 && (t[0] == '-' || t[0] == '+') then t[1..] else t;
    var n := DigitRun(u);
    if n == 0 then None
    else
      var v: int := DigitsValue(u[..n]);
      Some(if |t| > 0 && t[0] == '-' then -v else v)
  }

  lemma {:induction false} AllDigitsRun(s: string)
    ensures AllDigits(s) ==> DigitRun(s) == |s| && s[..|s|] == s
    ensures AllDigits(s) && |s| > 0 ==> TrimStart(s) == s
    decreases |s|
  {
    if |s| > 0 && AllDigits(s) {
      assert AllDigits(s[1..]) by {
        forall i | 0 <= i < |s| - 1 ensures IsDigit(s[1..][i]) {
          assert s[1..][i] == s[i + 1];
        }
      }
      AllDigitsRun(s[1..]);
    }
  }

  lemma {:induction false} TrimStartOfSpaces(s: string)
    ensures AllSpace(s) ==> TrimStart(s) == []
    decreases |s|
  {
    if |s| > 0 && AllSpace(s) {
      assert AllSpace(s[1..]) by {
        forall i | 0 <= i < |s| - 1 ensures IsSpace(s[1..][i]) {
          assert s[1..][i] == s[i + 1];
        }
      }
      TrimStartOfSpaces(s[1..]);
    }
  }

  lemma DigitCharValue(d: nat)
    requires d < 10
    ensures IsDigit(DigitChar(d)) && DigitValue(DigitChar(d)) == d
  {
  }

  /** The digits printed for a natural number read back as that number. */
  lemma {:induction false} DigitsOfNatToString(n: nat)
    ensures AllDigits(NatToString(n)) && DigitsValue(NatToString(n)) == n
    decreases n
  {
    var s := NatToString(n);
    if n < 10 {
      DigitCharValue(n);
    } else {
      DigitsOfNatToString(n / 10);
      DigitCharValue(n % 10);
      var p := NatToString(n / 10);
      assert s == p + [DigitChar(n % 10)];
      assert s[..|s| - 1] == p;
      assert AllDigits(s) by {
        forall i | 0 <= i < |s| ensures IsDigit(s[i]) {
          if i < |p| { assert s[i] == p[i]; }
        }
      }
    }
  }

  lemma ParseIntOfNatToString(n: nat)
    ensures ParseInt(NatToString(n)) == Some(n)
  {
    DigitsOfNatToString(n);
  }

  /** A minus sign followed by digits reads as the negated number. */
  lemma ParseIntOfSigned(d: string)
    requires |d| > 0 && AllDigits(d)
    ensures ParseInt("-" + d) == Some(-(DigitsValue(d) as int))
  {
    AllDigitsRun(d);
    var s := "-" + d;
    assert !IsSpace(s[0]);
    assert TrimStart(s) == s;
    assert s[1..] == d;
  }

  /** No sign, or one `+` or `-`. */
  predicate IsSign(sign: string) {
    |sign| == 0 || (|sign| == 1 && (sign[0] == '+' || sign[0] == '-'))
  }

  /** `v` under the sign: negated after a `-`. */
  function Signed(sign: string, v: nat): int {
    if |sign| == 1 && sign[0] == '-' then -(v as int) else v
  }

  /** Text that does not go on with a digit. */
  predicate EndsRun(rest: string) {
    |rest| == 0 || !IsDigit(rest[0])
  }

  lemma {:induction false} DigitRunOfDigits(d: string, rest: string)
    requires AllDigits(d) && EndsRun(rest)
    ensures DigitRun(d + rest) == |d| && (d + rest)[..|d|] == d
    decreases |d|
  {
    if |d| > 0 {
      assert AllDigits(d[1..]) by {
        forall i | 0 <= i < |d| - 1 ensures IsDigit(d[1..][i]) {
          assert d[1..][i] == d[i + 1];
        }
      }
      assert (d + rest)[1..] == d[1..] + rest;
      DigitRunOfDigits(d[1..], rest);
    } else {
      assert d + rest == rest;
    }
  }

  lemma SignedStartsWithoutSpace(sign: string, d: char, rest: string)
    requires IsSign(sign) && IsDigit(d)
    ensures var x := sign + ([d] + rest); |x| > 0 && !IsSpace(x[0])
  {
  }

  /** Leading whitespace is skipped: what follows it is read. */
  lemma ParseIntAfterSpace(w: string, x: string)
    requires AllSpace(w) && (|x| == 0 || !IsSpace(x[0]))
    ensures ParseInt(w + x) == ReadSigned(x)
  {
    TrimStartPrependSpace(w, x);
    if |x| > 0 {
      TrimStartOfNonSpace(x);
    }
  }

  /** Leading whitespace, an optional sign and a run of digits read as that
      number, signed, whatever text follows the run. */
  lemma ParseIntOfParts(w: string, sign: string, digits: string, rest: string)
    requires AllSpace(w) && IsSign(sign) && |digits| > 0 && AllDigits(digits) && EndsRun(rest)
    ensures ParseInt(w + sign + digits + rest) == Some(Signed(sign, DigitsValue(digits)))
  {
    var x := sign + digits + rest;
    AppendAssoc(w, sign + digits, rest);
    AppendAssoc(w, sign, digits);
    assert digits == [digits[0]] + digits[1..];
    AppendAssoc([digits[0]], digits[1..], rest);
    SignedStartsWithoutSpace(sign, digits[0], digits[1..] + rest);
    ParseIntAfterSpace(w, x);
    ReadSignedOfParts(sign, digits, rest);
  }

  lemma ReadSignedOfParts(sign: string, digits: string, rest: string)
    requires IsSign(sign) && |digits| > 0 && AllDigits(digits) && EndsRun(rest)
    ensures ReadSigned(sign + digits + rest) == Some(Signed(sign, DigitsValue(digits)))
  {
    var u := digits + rest;
    DigitRunOfDigits(digits, rest);
    assert sign + digits + rest == sign + u;
    ReadSignedBeforeDigit(sign, u);
  }

  lemma ReadSignedBeforeDigit(sign: string, u: string)
    requires IsSign(sign) && |u| > 0 && IsDigit(u[0])
    ensures ReadSigned(sign + u) == Some(Signed(sign, DigitsValue(u[..DigitRun(u)])))
  {
    if |sign| == 0 {
      assert sign + u == u;
      ReadUnsigned(u);
    } else {
      assert sign + u == [sign[0]] + u;
      ReadAfterSign(sign[0], u);
    }
  }

  /** Text that starts with a digit reads as its leading digits. */
  lemma ReadUnsigned(u: string)
    requires |u| > 0 && IsDigit(u[0])
    ensures DigitRun(u) > 0 && ReadSigned(u) == Some(DigitsValue(u[..DigitRun(u)]))
  {
  }

  /** After a sign, the digits that follow, negated after `-`. */
  lemma ReadAfterSign(c: char, u: string)
    requires c == '+' || c == '-'
    ensures ReadSigned([c] + u)
            == if DigitRun(u) == 0 then None
               else Some(if c == '-' then -(DigitsValue(u[..DigitRun(u)]) as int) else DigitsValue(u[..DigitRun(u)]))
  {
    assert ([c] + u)[1..] == u;
  }

  /** Without a digit right after the leading whitespace and an optional
      sign, the text reads as NaN. */
  lemma ParseIntWithoutDigits(w: string, sign: string, rest: string)
    requires AllSpace(w) && IsSign(sign) && EndsRun(rest)
    requires |sign| == 0 && |rest| > 0 ==> !IsSpace(rest[0]) && rest[0] != '+' && rest[0] != '-'
    ensures ParseInt(w + sign + rest) == None
  {
    var x := sign + rest;
    AppendAssoc(w, sign, rest);
    assert |x| > 0 ==> x[0] == if |sign| == 0 then rest[0] else sign[0];
    ParseIntAfterSpace(w, x);
    ReadSignedWithoutDigits(sign, rest);
  }

  lemma ReadSignedWithoutDigits(sign: string, rest: string)
    requires IsSign(sign) && EndsRun(rest)
    requires |sign| == 0 && |rest| > 0 ==> rest[0] != '+' && rest[0] != '-'
    ensures ReadSigned(sign + rest) == None
  {
    if |sign| == 0 {
      assert sign + rest == rest;
    } else {
      assert sign + rest == [sign[0]] + rest;
      ReadAfterSign(sign[0], rest);
    }
  }

  /** `parseInt` inverts the decimal rendering of every integer. */
  lemma ParseIntOfIntToString(i: int)
    ensures ParseInt(IntToString(i)) == Some(i)
  {
    if i < 0 {
      DigitsOfNatToString(-i);
      ParseIntOfSigned(NatToString(-i));
    } else {
      ParseIntOfNatToString(i);
    }
  }
}

=== FILE: pagination.dfy ===
/** The listing arithmetic shared by the problem and submission listings:
    page and limit parsed from the query (1 and 20 when absent), the number of
    documents skipped, and the page count.  JavaScript's non-finite numbers
    (NaN from an unparsable parameter, Infinity from a zero limit) are
    written `None`. */
module Pagination {
  import opened Wrappers
  import opened Text
  import opened Numbers

  const DefaultPage := "1"

  const DefaultLimit := "20"

  /** What a listing request reads: the page, the page size and how many
      documents to skip. */
  datatype Window = Window(page: Option<int>, limit: Option<int>, skip: Option<int>)

  /** The query's page and limit (defaulted only when absent, so an empty
      parameter is NaN), and `(page - 1) * limit` documents skipped. */
  function WindowOf(pageParam: Option<string>, limitParam: Option<string>): (w: Window)
    ensures pageParam.None? && limitParam.None? ==> w == Window(Some(1), Some(20), Some(0))
    ensures w.page == ParseInt(pageParam.GetOr(DefaultPage))
    ensures w.limit == ParseInt(limitParam.GetOr(DefaultLimit))
    ensures w.skip.Some? <==> w.page.Some? && w.limit.Some?
    ensures w.skip.Some? ==> w.skip.value == Skip(w.page.value, w.limit.value)
  {
    DefaultsParse();
    var page := ParseInt(pageParam.GetOr(DefaultPage));
    var limit := ParseInt(limitParam.GetOr(DefaultLimit));
    var skip := if page.Some? && limit.Some? then Some(Skip(page.value, limit.value)) else None;
    Window(page, limit, skip)
  }

  lemma DefaultsParse()
    ensures ParseInt(DefaultPage) == Some(1) && ParseInt(DefaultLimit) == Some(20)
  {
    assert AllDigits(DefaultPage) && AllDigits(DefaultLimit);
    assert DigitsValue(DefaultPage) == 1;
    assert DefaultLimit[..1] == "2";
    assert DigitsValue("2") == 2;
    assert DigitsValue(DefaultLimit) == 20;
  }

  /** `Math.ceil(total / limit)`: the least whole number at or above the
      quotient; a zero limit gives a non-finite quotient. */
  function TotalPages(total: nat, limit: Option<int>): (r: Option<int>)
    ensures r.None? <==> limit.None? || limit.value == 0
    ensures r.Some? && limit.value > 0 ==> r.value >= 0 && (r.value - 1) * limit.value < total <= r.value * limit.value
    ensures r.Some? && limit.value < 0 ==> r.value <= 0 && r.value * limit.value <= total < (r.value - 1) * limit.value
  {
    if limit.None? || limit.value == 0 then None
    else if limit.value > 0 then
      CeilBounds(total, limit.value);
      Some((total + limit.value - 1) / limit.value)
    else
      FloorBounds(total, -limit.value);
      Some(-(total / -limit.value))
  }

  lemma CeilBounds(total: nat, limit: int)
    requires limit > 0
    ensures var q := (total + limit - 1) / limit;
      q >= 0 && (q - 1) * limit < total <= q * limit
  {
    var q := (total + limit - 1) / limit;
    var rem := (total + limit - 1) % limit;
    assert total + limit - 1 == q * limit + rem;
    assert (q - 1) * limit == q * limit - limit;
  }

  lemma FloorBounds(total: nat, d: int)
    requires d > 0
    ensures var q := total / d;
      q >= 0 && q * d <= total < (q + 1) * d
  {
    var q := total / d;
    assert total == q * d + total % d;
    assert (q + 1) * d == q * d + d;
  }

  /** The first document shown on a page. */
  function Skip(page: int, limit: int): int {
    (page - 1) * limit
  }

  /** A positive factor preserves strict order. */
  lemma LessByFactor(a: int, b: int, limit: int)
    requires limit > 0 && a * limit < b * limit
    ensures a < b
  {
    assert (b - a) * limit == b * limit - a * limit;
  }

  /** With a positive limit every document, counted from zero, is on exactly
      one page, and that page is among the ones the listing reports. */
  lemma EveryDocumentOnOnePage(total: nat, limit: int, i: nat)
    requires limit > 0 && i < total
    ensures var p := i / limit + 1;
      && 1 <= p <= TotalPages(total, Some(limit)).value
      && Skip(p, limit) <= i < Skip(p, limit) + limit
      && forall q :: Skip(q, limit) <= i < Skip(q, limit) + limit ==> q == p
  {
    var p := i / limit + 1;
    var n := TotalPages(total, Some(limit)).value;
    assert i == (p - 1) * limit + i % limit;
    assert Skip(p, limit) + limit == p * limit;
    LessByFactor(p - 1, n, limit);
    forall q | Skip(q, limit) <= i < Skip(q, limit) + limit
      ensures q == p
    {
      OnePageEach(q, p, limit, i);
    }
  }

  lemma OnePageEach(q: int, p: int, limit: int, i: int)
    requires limit > 0
    requires Skip(q, limit) <= i < Skip(q, limit) + limit
    requires Skip(p, limit) <= i < Skip(p, limit) + limit
    ensures q == p
  {
    assert Skip(q, limit) + limit == q * limit;
    assert Skip(p, limit) + limit == p * limit;
    LessByFactor(q - 1, p, limit);
    LessByFactor(p - 1, q, limit);
  }
}

=== FILE: pandas_runner.dfy ===
/** The pandas runner: for every testcase a Python script is written that
    builds one DataFrame per dataset table, runs the submitted code and prints
    `result_df` as CSV; the script's output is compared.  The Python process,
    the file system, the clock and the JSON encoder are oracles. */
module PandasRunner {
  import opened Wrappers
  import opened Text
  import opened Models
  import opened Comparators

  // ---------------------------------------------------------------------------
  // the DataFrame constructor's argument

  predicate NoDuplicates(names: seq<string>) {
    forall i, j :: 0 <= i < j < |names| ==> names[i] != names[j]
  }

  /** Every name of `d` occurs in `names`, and they come in the order of
      their first occurrences there. */
  predicate InFirstAppearanceOrder(d: seq<string>, names: seq<string>) {
    forall i, j :: 0 <= i < j < |d| ==> d[i] in names && d[j] in names && IndexOf(names, d[i]) < IndexOf(names, d[j])
  }

  /** The names in first-appearance order, each once. */
  function Distinct(names: seq<string>): (d: seq<string>)
    ensures forall x :: x in d <==> x in names
    ensures NoDuplicates(d)
    ensures InFirstAppearanceOrder(d, names)
    ensures |d| <= |names|
    decreases |names|
  {
    if |names| == 0 then []
    else
      var init := names[..|names| - 1];
      var prefix := Distinct(init);
      var last := names[|names| - 1];
      assert names == init + [last];
      assert forall x :: x in names <==> x in init || x == last;
      DistinctOrderSnoc(init, prefix, last);
      if last in prefix then prefix else prefix + [last]
  }

  /** Appending a name keeps the order of the names seen so far and puts a
      new name after all of them. */
  lemma DistinctOrderSnoc(init: seq<string>, prefix: seq<string>, last: string)
    requires forall x :: x in prefix <==> x in init
    requires InFirstAppearanceOrder(prefix, init)
    ensures InFirstAppearanceOrder(if last in prefix then prefix else prefix + [last], init + [last])
  {
    var names := init + [last];
    forall k | 0 <= k < |prefix|
      ensures prefix[k] in init && IndexOf(names, prefix[k]) == IndexOf(init, prefix[k])
    {
      assert prefix[k] in prefix;
      IndexOfSnoc(init, last, prefix[k]);
    }
    if last !in prefix {
      IndexOfAppended(init, last);
      var d := prefix + [last];
      forall i, j | 0 <= i < j < |d|
        ensures d[i] in names && d[j] in names && IndexOf(names, d[i]) < IndexOf(names, d[j])
      {
        if j == |prefix| {
          assert d[i] == prefix[i];
        } else {
          assert d[i] == prefix[i] && d[j] == prefix[j];
        }
      }
    }
  }

  lemma {:induction false} DistinctOfDistinct(names: seq<string>)
    requires NoDuplicates(names)
    ensures Distinct(names) == names
    decreases |names|
  {
    if |names| > 0 {
      var init := names[..|names| - 1];
      var last := names[|names| - 1];
      DistinctOfDistinct(init);
      assert last !in init;
      assert Distinct(names) == if last in Distinct(init) then Distinct(init) else Distinct(init) + [last];
      assert init + [last] == names;
    }
  }

  function Occurrences(names: seq<string>, name: string): nat
    decreases |names|
  {
    if |names| == 0 then 0 else (if names[0] == name then 1 else 0) + Occurrences(names[1..], name)
  }

  /** The list under key `name`: every row pushes its value once for each
      column of that name. */
  function ColumnValues(rows: seq<Row>, names: seq<string>, name: string): seq<Cell>
    decreases |rows|
  {
    if |rows| == 0 then []
    else Repeat(CellOf(rows[0], name), Occurrences(names, name)) + ColumnValues(rows[1..], names, name)
  }

  /** The dictionary handed to `pd.DataFrame`, as its keys in insertion order
      with their lists. */
  function DataDict(t: Table): (d: seq<(string, seq<Cell>)>)
    ensures |d| <= |t.columns|
    ensures forall i :: 0 <= i < |d| ==> d[i].0 in ColumnNames(t.columns)
  {
    var names := ColumnNames(t.columns);
    var keys := Distinct(names);
    seq(|keys|, i requires 0 <= i < |keys| => (keys[i], ColumnValues(t.rows, names, keys[i])))
  }

  lemma OccurrencesOfUnique(names: seq<string>, k: nat)
    requires NoDuplicates(names) && k < |names|
    ensures Occurrences(names, names[k]) == 1
    decreases |names|
  {
    if k > 0 {
      OccurrencesOfUnique(names[1..], k - 1);
    } else {
      OccurrencesAbsent(names[1..], names[0]);
    }
  }

  lemma OccurrencesAbsent(names: seq<string>, name: string)
    requires name !in names
    ensures Occurrences(names, name) == 0
    decreases |names|
  {
    if |names| > 0 {
      OccurrencesAbsent(names[1..], name);
    }
  }

  lemma {:induction false} ColumnValuesOfUnique(rows: seq<Row>, names: seq<string>, name: string)
    requires Occurrences(names, name) == 1
    ensures ColumnValues(rows, names, name) == seq(|rows|, r requires 0 <= r < |rows| => CellOf(rows[r], name))
    decreases |rows|
  {
    if |rows| > 0 {
      ColumnValuesOfUnique(rows[1..], names, name);
    }
  }

  /** With distinct column names, the dictionary has one key per column, in
      column order, holding that column's value in every row (null where a
      row lacks it). */
  lemma DataDictOfDistinctColumns(t: Table)
    requires NoDuplicates(ColumnNames(t.columns))
    ensures |DataDict(t)| == |t.columns|
    ensures forall i :: 0 <= i < |t.columns| ==>
      DataDict(t)[i].0 == t.columns[i].name
      && |DataDict(t)[i].1| == |t.rows|
      && forall r :: 0 <= r < |t.rows| ==> DataDict(t)[i].1[r] == CellOf(t.rows[r], t.columns[i].name)
  {
    var names := ColumnNames(t.columns);
    DataDictKeys(t);
    forall i | 0 <= i < |t.columns|
      ensures DataDict(t)[i].0 == t.columns[i].name
      ensures DataDict(t)[i].1 == seq(|t.rows|, r requires 0 <= r < |t.rows| => CellOf(t.rows[r], t.columns[i].name))
    {
      OccurrencesOfUnique(names, i);
      ColumnValuesOfUnique(t.rows, names, names[i]);
    }
  }

  /** With distinct column names, the keys are the column names themselves. */
  lemma DataDictKeys(t: Table)
    requires NoDuplicates(ColumnNames(t.columns))
    ensures var names := ColumnNames(t.columns);
      DataDict(t) == seq(|names|, i requires 0 <= i < |names| => (names[i], ColumnValues(t.rows, names, names[i])))
  {
    DistinctOfDistinct(ColumnNames(t.columns));
  }

  // ---------------------------------------------------------------------------
  // the script

  const ScriptHeader := "import pandas as pd\nimport sys\n\n"

  const UserCodeMarker := "\n# User code\n"

  const ScriptTrailer :=
    "\n\n# Output result_df as CSV\n"
    + "if \"result_df\" in locals():\n"
    + "    print(result_df.to_csv(index=False, header=False))\n"
    + "else:\n"
    + "    print(\"Error: result_df not defined\", file=sys.stderr)\n"
    + "    sys.exit(1)\n"

  type JsonEncoder = seq<(string, seq<Cell>)> -> string

  function DataFrameLine(t: Table, toJson: JsonEncoder): string {
    t.name + " = pd.DataFrame(" + toJson(DataDict(t)) + ")\n"
  }

  function DataFrameLines(tables: seq<Table>, toJson: JsonEncoder): string
    decreases |tables|
  {
    if |tables| == 0 then "" else DataFrameLine(tables[0], toJson) + DataFrameLines(tables[1..], toJson)
  }

  lemma {:induction false} DataFrameLinesCount(tables: seq<Table>, toJson: JsonEncoder)
    requires forall i :: 0 <= i < |tables| ==> '\n' !in tables[i].name && '\n' !in toJson(DataDict(tables[i]))
    ensures CountChar(DataFrameLines(tables, toJson), '\n') == |tables|
    decreases |tables|
  {
    if |tables| > 0 {
      DataFrameLinesCount(tables[1..], toJson);
      CountCharAppend(DataFrameLine(tables[0], toJson), DataFrameLines(tables[1..], toJson), '\n');
      DataFrameLineCount(tables[0], toJson);
    }
  }

  lemma DataFrameLineCount(t: Table, toJson: JsonEncoder)
    requires '\n' !in t.name && '\n' !in toJson(DataDict(t))
    ensures CountChar(DataFrameLine(t, toJson), '\n') == 1
  {
    var json := toJson(DataDict(t));
    var opening := t.name + " = pd.DataFrame(";
    assert CountChar(opening, '\n') == 0 by {
      NoNewlineCount(t.name);
      NoNewlineCount(" = pd.DataFrame(");
      CountCharAppend(t.name, " = pd.DataFrame(", '\n');
    }
    assert CountChar(opening + json, '\n') == 0 by {
      NoNewlineCount(json);
      CountCharAppend(opening, json, '\n');
    }
    assert CountChar(")\n", '\n') == 1 by {
      NoNewlineCount(")");
      CountCharAppend(")", "\n", '\n');
      assert ")" + "\n" == ")\n";
    }
    CountCharAppend(opening + json, ")\n", '\n');
  }

  lemma NoNewlineCount(s: string)
    requires '\n' !in s
    ensures CountChar(s, '\n') == 0
    decreases |s|
  {
    if |s| > 0 {
      assert s[0] in s;
      assert forall c :: c in s[1..] ==> c in s;
      NoNewlineCount(s[1..]);
    }
  }

  /** The header, one DataFrame line per table, the user's code verbatim, and
      the fixed trailer that prints `result_df` or fails with exit code 1. */
  function BuildPythonScript(userCode: string, tables: seq<Table>, toJson: JsonEncoder): (script: string)
    ensures |script| >= |ScriptHeader| + |UserCodeMarker| + |userCode| + |ScriptTrailer|
    ensures script[..|ScriptHeader|] == ScriptHeader
    ensures script[|script| - |ScriptTrailer|..] == ScriptTrailer
    ensures script[|script| - |ScriptTrailer| - |userCode| .. |script| - |ScriptTrailer|] == userCode
    ensures script[|ScriptHeader| .. |script| - |ScriptTrailer| - |userCode| - |UserCodeMarker|]
            == DataFrameLines(tables, toJson)
    ensures script[|script| - |ScriptTrailer| - |userCode| - |UserCodeMarker| .. |script| - |ScriptTrailer| - |userCode|]
            == UserCodeMarker
  {
    var frames := DataFrameLines(tables, toJson);
    FiveParts(ScriptHeader, frames, UserCodeMarker, userCode, ScriptTrailer);
    ScriptHeader + frames + UserCodeMarker + userCode + ScriptTrailer
  }

  /** Each part of a five-part concatenation sits where its length says. */
  lemma FiveParts(a: string, b: string, c: string, d: string, e: string)
    ensures var s := a + b + c + d + e;
      && |s| == |a| + |b| + |c| + |d| + |e|
      && s[..|a|] == a
      && s[|a| .. |a| + |b|] == b
      && s[|a| + |b| .. |a| + |b| + |c|] == c
      && s[|s| - |e| - |d| .. |s| - |e|] == d
      && s[|s| - |e|..] == e
  {
  }

  // ---------------------------------------------------------------------------
  // running the script

  /** How the Python process ended: it could not be spawned, or it closed
      (with the exit code, absent when a signal ended it) after the time
      limit fired or not. */
  datatype ProcessEnd =
    | SpawnFailed(spawnMessage: Option<string>)
    | Closed(stdout: string, stderr: string, code: Option<int>, timedOut: bool, elapsedMs: nat)

  datatype ScriptRun = ScriptRun(stdout: string, stderr: string, exitCode: int, runtimeMs: real)

  const TimeLimitMessage := "Time limit exceeded"

  const PandasErrorMessage := "Pandas execution error"

  const DatasetNotFoundMessage := "Dataset not found"

  /** A process killed by the time limit reports nothing on stdout, the time
      limit message, exit code -1 and the limit as its runtime; otherwise the
      trimmed streams and the exit code (0 when absent).  `None` is the
      rejection of a failed spawn. */
  function ExecutePythonScript(p: ProcessEnd, timeLimitMs: int): (r: Option<ScriptRun>)
    ensures r.None? <==> p.SpawnFailed?
    ensures r.Some? && p.timedOut ==> r.value == ScriptRun("", TimeLimitMessage, -1, timeLimitMs as real)
    ensures r.Some? && !p.timedOut ==>
      Tokens(r.value.stdout) == Tokens(p.stdout) && Tokens(r.value.stderr) == Tokens(p.stderr)
      && (|r.value.stdout| > 0 ==> !IsSpace(r.value.stdout[0]) && !IsSpace(r.value.stdout[|r.value.stdout| - 1]))
      && StripsSpace(p.stdout, r.value.stdout) && StripsSpace(p.stderr, r.value.stderr)
      && r.value.exitCode == p.code.GetOr(0)
      && r.value.runtimeMs == p.elapsedMs as real
  {
    match p
    case SpawnFailed(_) => None
    case Closed(out, err, code, timedOut, elapsed) =>
      if timedOut then Some(ScriptRun("", TimeLimitMessage, -1, timeLimitMs as real))
      else
        TokensTrim(out);
        TokensTrim(err);
        TrimmedEnds(out);
        TrimStripsSpace(out);
        TrimStripsSpace(err);
        Some(ScriptRun(Trim(out), Trim(err), code.GetOr(0), elapsed as real))
  }

  lemma TrimmedEnds(s: string)
    ensures |Trim(s)| > 0 ==> !IsSpace(Trim(s)[0]) && !IsSpace(Trim(s)[|Trim(s)| - 1])
  {
    if |Trim(s)| > 0 {
      TrimStartKeepsLast(TrimEnd(s));
    }
  }

  /** A run is a runtime error exactly when it wrote to stderr and exited
      non-zero; otherwise the comparator decides.  So a script that exits
      non-zero with nothing on stderr, or exits zero whatever it wrote
      there, is judged on its output, and a run is never TLE or MLE. */
  function ScriptStatus(run: ScriptRun, passed: bool): (st: TestcaseStatus)
    ensures st == RE <==> run.stderr != "" && run.exitCode != 0
    ensures st == PASSED <==> (run.stderr == "" || run.exitCode == 0) && passed
    ensures st == RE || st == PASSED || st == FAILED
  {
    if run.stderr != "" && run.exitCode != 0 then RE
    else if passed then PASSED
    else FAILED
  }

  /** Writing the script can fail before the process starts. */
  datatype PandasAttempt =
    | PrepareFailed(prepareMessage: Option<string>, elapsedMs: nat)
    | Executed(process: ProcessEnd, elapsedMs: nat)

  function ErrorResult(tc: Testcase, message: Option<string>, elapsedMs: nat): ExecutionResult {
    ExecutionResult(tc.id, RE, "", OrElse(message, PandasErrorMessage), elapsedMs as real, 0.0, None, None)
  }

  /** One testcase's result, with the runtime the caller measured. */
  function TestcaseResult(a: PandasAttempt, tc: Testcase, timeLimitMs: int): (e: ExecutionResult)
    ensures e.testcaseId == tc.id && e.memoryMb == 0.0 && e.exitCode.None?
    ensures e.runtimeMs == a.elapsedMs as real
    ensures e.status != MLE && e.status != TLE
    ensures a.PrepareFailed? ==> e.status == RE && e.stderr == OrElse(a.prepareMessage, PandasErrorMessage)
    ensures a.Executed? && a.process.SpawnFailed? ==>
      e.status == RE && e.stderr == OrElse(a.process.spawnMessage, PandasErrorMessage)
    ensures a.Executed? && a.process.Closed? ==>
      var run := ExecutePythonScript(a.process, timeLimitMs).value;
      var c := Compare(run.stdout, tc.expectedOutput, tc.comparatorConfig);
      && e.stdout == run.stdout && e.stderr == run.stderr
      && e.status == ScriptStatus(run, c.passed)
      && e.diff == c.diff
  {
    match a
    case PrepareFailed(m, elapsed) => ErrorResult(tc, m, elapsed)
    case Executed(p, elapsed) =>
      match ExecutePythonScript(p, timeLimitMs)
      case None => ErrorResult(tc, p.spawnMessage, elapsed)
      case Some(run) =>
        var c := Compare(run.stdout, tc.expectedOutput, tc.comparatorConfig);
        ExecutionResult(tc.id, ScriptStatus(run, c.passed), run.stdout, run.stderr, elapsed as real, 0.0, None, c.diff)
  }

  /** A time limit is reported as a runtime error carrying the time-limit
      message, never as `TLE`. */
  lemma TimeoutIsRuntimeError(tc: Testcase, stdout: string, stderr: string, code: Option<int>,
                              elapsedMs: nat, timeLimitMs: int)
    ensures var e := TestcaseResult(Executed(Closed(stdout, stderr, code, true, elapsedMs), elapsedMs), tc, timeLimitMs);
      e.status == RE && e.stderr == TimeLimitMessage && e.stdout == ""
  {
  }

  /** Fetch the dataset, then run every testcase in order; only a missing
      dataset makes the runner throw.  The process of testcase `i` runs the
      script built from the code and the dataset. */
  function Run(pandasCode: string, testcases: seq<Testcase>, dataset: Option<Dataset>, timeLimitMs: int,
               toJson: JsonEncoder, python: (nat, string) -> PandasAttempt): (out: RunnerOutcome)
    ensures out.RunnerThrew? <==> dataset.None?
    ensures out.RunnerThrew? ==> out.message == DatasetNotFoundMessage
    ensures out.RunnerFinished? ==>
      out.compileOutput.None?
      && |out.results| == |testcases|
      && forall i :: 0 <= i < |testcases| ==>
        out.results[i] == TestcaseResult(python(i, BuildPythonScript(pandasCode, dataset.value.tables, toJson)),
                                         testcases[i], timeLimitMs)
  {
    match dataset
    case None => RunnerThrew(DatasetNotFoundMessage)
    case Some(d) =>
      var script := BuildPythonScript(pandasCode, d.tables, toJson);
      RunnerFinished(
        seq(|testcases|, i requires 0 <= i < |testcases| => TestcaseResult(python(i, script), testcases[i], timeLimitMs)),
        None)
  }
}

=== FILE: problem_routes.dfy ===
/** The decisions inside the problem routes: which testcases a viewer of a
    problem sees and which of their fields, the public-testcase projection,
    the sort direction and the tag filter of the listing. */
module ProblemRoutes {
  import opened Wrappers
  import opened Text
  import opened Models

  /** Who asks: nobody signed in, or a user with a role. */
  datatype Viewer = Anonymous | SignedIn(role: Role)

  predicate IsAdmin(v: Viewer) {
    v.SignedIn? && v.role == ADMIN
  }

  /** A testcase as sent to the client; the expected output may be withheld. */
  datatype ShownTestcase = ShownTestcase(
    id: string,
    input: string,
    expectedOutput: Option<string>,
    isPublic: bool,
    weight: int,
    comparatorConfig: ComparatorConfig,
    timeoutMs: Option<int>,
    hiddenReason: Option<string>
  )

  function Shown(tc: Testcase): ShownTestcase {
    ShownTestcase(tc.id, tc.input, Some(tc.expectedOutput), tc.isPublic, tc.weight,
                  tc.comparatorConfig, tc.timeoutMs, tc.hiddenReason)
  }

  /** The testcase with its expected output removed, all else kept. */
  function Withheld(tc: Testcase): (s: ShownTestcase)
    ensures s.expectedOutput.None? && s == Shown(tc).(expectedOutput := None)
  {
    Shown(tc).(expectedOutput := None)
  }

  /** The public testcases, in their order. */
  function PublicOnly(tcs: seq<Testcase>): (r: seq<Testcase>)
    ensures |r| <= |tcs|
    ensures forall i :: 0 <= i < |r| ==> r[i].isPublic && r[i] in tcs
    ensures forall t :: t in tcs && t.isPublic ==> t in r
    decreases |tcs|
  {
    if |tcs| == 0 then []
    else (if tcs[0].isPublic then [tcs[0]] else []) + PublicOnly(tcs[1..])
  }

  /** Filtering distributes over concatenation, which with the one-element
      case pins it down as the order-keeping filter. */
  lemma {:induction false} PublicOnlyAppend(a: seq<Testcase>, b: seq<Testcase>)
    ensures PublicOnly(a + b) == PublicOnly(a) + PublicOnly(b)
    decreases |a|
  {
    if |a| > 0 {
      assert (a + b)[1..] == a[1..] + b;
      PublicOnlyAppend(a[1..], b);
    } else {
      assert a + b == b;
    }
  }

  lemma PublicOnlySingle(t: Testcase)
    ensures PublicOnly([t]) == if t.isPublic then [t] else []
  {
  }

  function AllShown(tcs: seq<Testcase>): (r: seq<ShownTestcase>)
    ensures |r| == |tcs| && forall i :: 0 <= i < |tcs| ==> r[i] == Shown(tcs[i])
  {
    seq(|tcs|, i requires 0 <= i < |tcs| => Shown(tcs[i]))
  }

  function AllWithheld(tcs: seq<Testcase>): (r: seq<ShownTestcase>)
    ensures |r| == |tcs| && forall i :: 0 <= i < |tcs| ==> r[i] == Withheld(tcs[i])
  {
    seq(|tcs|, i requires 0 <= i < |tcs| => Withheld(tcs[i]))
  }

  /** The testcases of a problem's detail view: an admin sees all of them as
      stored; anyone else sees the public ones only, in order, without
      expected outputs. */
  function VisibleTestcases(viewer: Viewer, tcs: seq<Testcase>): (r: seq<ShownTestcase>)
    ensures IsAdmin(viewer) ==> |r| == |tcs| && forall i :: 0 <= i < |tcs| ==> r[i] == Shown(tcs[i])
    ensures !IsAdmin(viewer) ==>
      var pub := PublicOnly(tcs);
      |r| == |pub| && forall i :: 0 <= i < |pub| ==> r[i] == Withheld(pub[i])
  {
    if IsAdmin(viewer) then AllShown(tcs) else AllWithheld(PublicOnly(tcs))
  }

  /** No one but an admin is sent an expected output or a hidden testcase. */
  lemma NothingLeaks(viewer: Viewer, tcs: seq<Testcase>)
    requires !IsAdmin(viewer)
    ensures forall s :: s in VisibleTestcases(viewer, tcs) ==> s.expectedOutput.None? && s.isPublic
    ensures forall t :: t in tcs && t.isPublic ==> Withheld(t) in VisibleTestcases(viewer, tcs)
  {
    var r := VisibleTestcases(viewer, tcs);
    var pub := PublicOnly(tcs);
    forall t | t in tcs && t.isPublic
      ensures Withheld(t) in r
    {
      var k :| 0 <= k < |pub| && pub[k] == t;
      assert r[k] == Withheld(t);
    }
  }

  /** What the public-testcases endpoint sends per testcase. */
  datatype PublicTestcase = PublicTestcase(id: string, input: string)

  /** The problem's public testcases, in order, reduced to id and input. */
  function PublicTestcases(tcs: seq<Testcase>): (r: seq<PublicTestcase>)
    ensures |r| == |PublicOnly(tcs)|
    ensures forall i :: 0 <= i < |r| ==> r[i] == PublicTestcase(PublicOnly(tcs)[i].id, PublicOnly(tcs)[i].input)
  {
    var pub := PublicOnly(tcs);
    seq(|pub|, i requires 0 <= i < |pub| => PublicTestcase(pub[i].id, pub[i].input))
  }

  /** The public endpoint and a non-admin's detail view list the same
      testcases with the same ids and inputs. */
  lemma PublicEndpointAgreesWithView(viewer: Viewer, tcs: seq<Testcase>)
    requires !IsAdmin(viewer)
    ensures |PublicTestcases(tcs)| == |VisibleTestcases(viewer, tcs)|
    ensures forall i :: 0 <= i < |PublicTestcases(tcs)| ==>
      PublicTestcases(tcs)[i].id == VisibleTestcases(viewer, tcs)[i].id
      && PublicTestcases(tcs)[i].input == VisibleTestcases(viewer, tcs)[i].input
  {
  }

  /** The detail response: not found, or the problem as sent.  The route
      overwrites the document's testcases before sending it, so `problem`
      carries every other field with its stored testcases emptied, and
      `testcases` is the list sent in their place. */
  datatype DetailResponse = ProblemNotFound | ProblemDetail(problem: Problem, testcases: seq<ShownTestcase>)

  function Detail(problem: Option<Problem>, viewer: Viewer): (r: DetailResponse)
    ensures r.ProblemNotFound? <==> problem.None?
    ensures r.ProblemDetail? ==> r.problem.testcases == []
    ensures r.ProblemDetail? ==> r.problem.(testcases := problem.value.testcases) == problem.value
    ensures r.ProblemDetail? ==> r.testcases == VisibleTestcases(viewer, problem.value.testcases)
  {
    if problem.None? then ProblemNotFound
    else ProblemDetail(problem.value.(testcases := []), VisibleTestcases(viewer, problem.value.testcases))
  }

  /** A detail response to anyone but an admin holds no hidden testcase and
      no expected output, anywhere in it, and still lists every public
      testcase. */
  lemma DetailHidesFromNonAdmin(problem: Option<Problem>, viewer: Viewer)
    requires !IsAdmin(viewer)
    ensures var r := Detail(problem, viewer);
      r.ProblemDetail? ==>
        && r.problem.testcases == []
        && (forall s :: s in r.testcases ==> s.expectedOutput.None? && s.isPublic)
        && (forall t :: t in problem.value.testcases && t.isPublic ==> Withheld(t) in r.testcases)
  {
    if problem.Some? {
      NothingLeaks(viewer, problem.value.testcases);
    }
  }

  // ---------------------------------------------------------------------------
  // listing options

  /** Ascending only when asked for exactly; the default order is descending. */
  function SortDirection(order: Option<string>): (d: int)
    ensures d == 1 || d == -1
    ensures d == 1 <==> order == Some("asc")
  {
    if order.GetOr("desc") == "asc" then 1 else -1
  }

  /** The tags to match: the parameter split on commas, when it is given and
      not empty. */
  function TagFilter(tags: Option<string>): (r: Option<seq<string>>)
    ensures r.None? <==> tags.None? || tags.value == ""
    ensures r.Some? ==> |r.value| >= 1 && Join(r.value, ",") == tags.value
  {
    if tags.None? || tags.value == "" then None
    else
      JoinSplit(tags.value, ',');
      Some(Split(tags.value, ','))
  }

  /** Tags written comma-separated are read back one by one. */
  lemma TagFilterOfJoin(tags: seq<string>)
    requires |tags| >= 1 && Join(tags, ",") != ""
    requires forall i :: 0 <= i < |tags| ==> ',' !in tags[i]
    ensures TagFilter(Some(Join(tags, ","))) == Some(tags)
  {
    SplitJoin(tags, ',');
  }
}

=== FILE: sql_runner.dfy ===
/** The SQL runner: for every testcase a fresh SQLite database is loaded with
    the problem's dataset, the submitted query runs against it, and the rows
    it returns are printed and compared.  The database engine, the clock and
    the file system are an oracle. */
module SqlRunner {
  import opened Wrappers
  import opened Text
  import opened Models
  import opened Comparators

  // ---------------------------------------------------------------------------
  // loading the dataset

  function ColumnDef(c: Column): string {
    c.name + " " + c.sqlType
  }

  function ColumnDefs(columns: seq<Column>): (r: seq<string>)
    ensures |r| == |columns|
    ensures forall i :: 0 <= i < |columns| ==> r[i] == ColumnDef(columns[i])
  {
    seq(|columns|, i requires 0 <= i < |columns| => ColumnDef(columns[i]))
  }

  function CreateTableSql(t: Table): string {
    "CREATE TABLE " + t.name + " (" + Join(ColumnDefs(t.columns), ", ") + ")"
  }

  /** One `?` per column, comma-separated. */
  function Placeholders(n: nat): string {
    Join(Repeat("?", n), ", ")
  }

  lemma PlaceholdersUnfold(n: nat)
    requires n > 1
    ensures Placeholders(n) == "?" + (", " + Placeholders(n - 1))
  {
    var r := Repeat("?", n);
    assert r[1..] == Repeat("?", n - 1);
    assert Placeholders(n) == "?" + ", " + Placeholders(n - 1);
    AppendAssoc("?", ", ", Placeholders(n - 1));
  }

  lemma {:induction false} PlaceholderCount(n: nat)
    ensures CountChar(Placeholders(n), '?') == n
    decreases n
  {
    if n > 1 {
      PlaceholderCount(n - 1);
      PlaceholdersUnfold(n);
      CountCharAppend("?", ", " + Placeholders(n - 1), '?');
      CountCharAppend(", ", Placeholders(n - 1), '?');
    } else if n == 1 {
      assert Placeholders(1) == "?";
    }
  }

  function InsertSql(t: Table): string {
    "INSERT INTO " + t.name + " (" + Join(ColumnNames(t.columns), ", ") + ") VALUES ("
    + Placeholders(|t.columns|) + ")"
  }

  /** The values bound for one row, in column order; a column the row lacks
      binds null. */
  function BindRow(row: Row, columns: seq<Column>): (values: seq<Cell>)
    ensures |values| == |columns|
    ensures forall i :: 0 <= i < |columns| ==> values[i] == CellOf(row, columns[i].name)
  {
    seq(|columns|, i requires 0 <= i < |columns| => CellOf(row, columns[i].name))
  }

  function BindRows(rows: seq<Row>, columns: seq<Column>): (r: seq<seq<Cell>>)
    ensures |r| == |rows|
    ensures forall i :: 0 <= i < |rows| ==> r[i] == BindRow(rows[i], columns)
  {
    seq(|rows|, i requires 0 <= i < |rows| => BindRow(rows[i], columns))
  }

  /** A table with rows gets one prepared `INSERT` whose column list,
      placeholders and bound values line up: one placeholder per column, and
      for every row the value in the column's position is the row's value
      under that column's name, null where the row lacks it. */
  lemma InsertLinesUp(t: Table)
    requires |t.rows| > 0
    ensures |TableSetup(t)| == 2 && TableSetup(t)[1].InsertRows?
    ensures TableSetup(t)[1].sql == InsertSql(t)
    ensures CountChar(Placeholders(|t.columns|), '?') == |ColumnNames(t.columns)|
    ensures var v := TableSetup(t)[1].values;
      && |v| == |t.rows|
      && forall r, c :: 0 <= r < |t.rows| && 0 <= c < |t.columns| ==>
           |v[r]| == |t.columns|
           && v[r][c] == (if ColumnNames(t.columns)[c] in t.rows[r] then t.rows[r][ColumnNames(t.columns)[c]] else Null)
  {
    PlaceholderCount(|t.columns|);
  }

  datatype SetupStatement =
    | CreateTable(sql: string)
    | InsertRows(sql: string, values: seq<seq<Cell>>)

  /** A table's statements: its `CREATE TABLE`, then, when it has rows, one
      prepared `INSERT` run once per row. */
  function TableSetup(t: Table): seq<SetupStatement> {
    [CreateTable(CreateTableSql(t))]
    + (if |t.rows| > 0 then [InsertRows(InsertSql(t), BindRows(t.rows, t.columns))] else [])
  }

  function SetupScript(tables: seq<Table>): seq<SetupStatement>
    decreases |tables|
  {
    if |tables| == 0 then [] else TableSetup(tables[0]) + SetupScript(tables[1..])
  }

  function Creates(script: seq<SetupStatement>): seq<string>
    decreases |script|
  {
    if |script| == 0 then []
    else (if script[0].CreateTable? then [script[0].sql] else []) + Creates(script[1..])
  }

  function InsertedRows(script: seq<SetupStatement>): nat
    decreases |script|
  {
    if |script| == 0 then 0
    else (if script[0].InsertRows? then |script[0].values| else 0) + InsertedRows(script[1..])
  }

  function TotalRows(tables: seq<Table>): nat
    decreases |tables|
  {
    if |tables| == 0 then 0 else |tables[0].rows| + TotalRows(tables[1..])
  }

  lemma CreatesAppend(a: seq<SetupStatement>, b: seq<SetupStatement>)
    ensures Creates(a + b) == Creates(a) + Creates(b)
    ensures InsertedRows(a + b) == InsertedRows(a) + InsertedRows(b)
    decreases |a|
  {
    if |a| > 0 {
      assert (a + b)[1..] == a[1..] + b;
      CreatesAppend(a[1..], b);
    } else {
      assert a + b == b;
    }
  }

  /** The script creates every table, in the dataset's order, and inserts
      every row of every table. */
  lemma {:induction false} SetupScriptLoadsEverything(tables: seq<Table>)
    ensures Creates(SetupScript(tables)) == seq(|tables|, i requires 0 <= i < |tables| => CreateTableSql(tables[i]))
    ensures InsertedRows(SetupScript(tables)) == TotalRows(tables)
    decreases |tables|
  {
    if |tables| > 0 {
      SetupScriptLoadsEverything(tables[1..]);
      CreatesAppend(TableSetup(tables[0]), SetupScript(tables[1..]));
      var t := tables[0];
      if |t.rows| > 0 {
        CreatesAppend([CreateTable(CreateTableSql(t))], [InsertRows(InsertSql(t), BindRows(t.rows, t.columns))]);
      } else {
        assert TableSetup(t) == [CreateTable(CreateTableSql(t))];
      }
    }
  }

  // ---------------------------------------------------------------------------
  // printing the result set

  function RowText(values: seq<Cell>): (r: seq<string>)
    ensures |r| == |values|
    ensures forall i :: 0 <= i < |values| ==> r[i] == CellText(values[i])
  {
    seq(|values|, i requires 0 <= i < |values| => CellText(values[i]))
  }

  function RowLine(values: seq<Cell>): string {
    Join(RowText(values), "|")
  }

  function RowLines(rows: seq<seq<Cell>>): (r: seq<string>)
    ensures |r| == |rows|
    ensures forall i :: 0 <= i < |rows| ==> r[i] == RowLine(rows[i])
  {
    seq(|rows|, i requires 0 <= i < |rows| => RowLine(rows[i]))
  }

  /** Each row's values joined by `|`, rows joined by newlines; no rows at
      all, or no result set, print as the empty text. */
  function FormatSQLResult(rows: Option<seq<seq<Cell>>>): string {
    if rows.None? || |rows.value| == 0 then ""
    else Join(RowLines(rows.value), "\n")
  }

  lemma JoinAvoidsChar(parts: seq<string>, sep: string, c: char)
    requires c !in sep
    requires forall k :: 0 <= k < |parts| ==> c !in parts[k]
    ensures c !in Join(parts, sep)
    decreases |parts|
  {
    if |parts| > 1 {
      JoinAvoidsChar(parts[1..], sep, c);
    }
  }

  /** A printed table reads back row by row and value by value, as long as
      no value contains a newline or a `|`. */
  lemma FormatSQLResultReadsBack(rows: seq<seq<Cell>>)
    requires |rows| > 0
    requires forall i, j :: 0 <= i < |rows| && 0 <= j < |rows[i]| ==>
      '\n' !in CellText(rows[i][j]) && '|' !in CellText(rows[i][j])
    ensures var lines := Split(FormatSQLResult(Some(rows)), '\n');
      && |lines| == |rows|
      && forall i :: 0 <= i < |rows| && |rows[i]| > 0 ==> Split(lines[i], '|') == RowText(rows[i])
  {
    var lines := RowLines(rows);
    forall i | 0 <= i < |rows|
      ensures '\n' !in lines[i]
    {
      JoinAvoidsChar(RowText(rows[i]), "|", '\n');
    }
    SplitJoin(lines, '\n');
    forall i | 0 <= i < |rows| && |rows[i]| > 0
      ensures Split(lines[i], '|') == RowText(rows[i])
    {
      SplitJoin(RowText(rows[i]), '|');
    }
  }

  // ---------------------------------------------------------------------------
  // running

  /** What the database is asked to do for one testcase. */
  datatype SqlJob = SqlJob(setup: seq<SetupStatement>, query: string, timeLimitMs: int)

  /** How one testcase's database session ended: the time limit fired first,
      the setup threw synchronously (with or without a message), the query
      failed, or it returned rows (or no result set). */
  datatype SessionEnd =
    | TimedOut
    | SetupThrew(setupMessage: Option<string>)
    | QueryFailed(queryMessage: string)
    | QueryRows(rows: Option<seq<seq<Cell>>>)

  /** One testcase's attempt: preparing the database file threw, or a session
      ran; either way the clock measured `elapsedMs`. */
  datatype SqlAttempt =
    | Crashed(crashMessage: Option<string>, elapsedMs: nat)
    | Session(end: SessionEnd, elapsedMs: nat)

  const SqlErrorMessage := "SQL execution error"

  const TimeLimitMessage := "Time limit exceeded"

  const DatasetNotFoundMessage := "Dataset not found"

  /** The result a session resolves with, before the caller sets its runtime. */
  function RunSingleTestcase(end: SessionEnd, tc: Testcase, timeLimitMs: int): (e: ExecutionResult)
    ensures e.testcaseId == tc.id && e.memoryMb == 0.0 && e.exitCode.None?
    ensures e.status == TLE <==> end.TimedOut?
    ensures e.status in {PASSED, FAILED} <==> end.QueryRows?
    ensures end.QueryRows? ==>
      e.stdout == FormatSQLResult(end.rows)
      && (e.status == PASSED <==> Compare(e.stdout, tc.expectedOutput, tc.comparatorConfig).passed)
      && e.diff == Compare(e.stdout, tc.expectedOutput, tc.comparatorConfig).diff
    ensures !end.QueryRows? ==> e.stdout == "" && e.diff.None?
    ensures end.QueryFailed? ==> e.status == RE && e.stderr == end.queryMessage
    ensures end.SetupThrew? ==> e.status == RE && e.stderr == OrElse(end.setupMessage, SqlErrorMessage)
  {
    match end
    case TimedOut =>
      ExecutionResult(tc.id, TLE, "", TimeLimitMessage, timeLimitMs as real, 0.0, None, None)
    case SetupThrew(m) =>
      ExecutionResult(tc.id, RE, "", OrElse(m, SqlErrorMessage), 0.0, 0.0, None, None)
    case QueryFailed(m) =>
      ExecutionResult(tc.id, RE, "", m, 0.0, 0.0, None, None)
    case QueryRows(rows) =>
      var stdout := FormatSQLResult(rows);
      var c := Compare(stdout, tc.expectedOutput, tc.comparatorConfig);
      ExecutionResult(tc.id, if c.passed then PASSED else FAILED, stdout, "", 0.0, 0.0, None, c.diff)
  }

  /** The result recorded for one testcase: the session's result with the
      measured time, or a runtime error when preparing the database threw. */
  function TestcaseResult(a: SqlAttempt, tc: Testcase, timeLimitMs: int): (e: ExecutionResult)
    ensures e.testcaseId == tc.id && e.memoryMb == 0.0
    ensures e.runtimeMs == a.elapsedMs as real
    ensures a.Crashed? ==> e.status == RE && e.stderr == OrElse(a.crashMessage, SqlErrorMessage)
    ensures a.Session? ==> e == RunSingleTestcase(a.end, tc, timeLimitMs).(runtimeMs := a.elapsedMs as real)
  {
    match a
    case Crashed(m, elapsed) =>
      ExecutionResult(tc.id, RE, "", OrElse(m, SqlErrorMessage), elapsed as real, 0.0, None, None)
    case Session(end, elapsed) =>
      RunSingleTestcase(end, tc, timeLimitMs).(runtimeMs := elapsed as real)
  }

  /** Fetch the dataset, then run every testcase in order against a fresh
      database; only a missing dataset makes the runner throw. */
  function Run(sqlQuery: string, testcases: seq<Testcase>, dataset: Option<Dataset>, timeLimitMs: int,
               engine: (nat, SqlJob) -> SqlAttempt): (out: RunnerOutcome)
    ensures out.RunnerThrew? <==> dataset.None?
    ensures out.RunnerThrew? ==> out.message == DatasetNotFoundMessage
    ensures out.RunnerFinished? ==>
      out.compileOutput.None?
      && |out.results| == |testcases|
      && forall i :: 0 <= i < |testcases| ==>
        out.results[i] == TestcaseResult(engine(i, SqlJob(SetupScript(dataset.value.tables), sqlQuery, timeLimitMs)),
                                         testcases[i], timeLimitMs)
  {
    match dataset
    case None => RunnerThrew(DatasetNotFoundMessage)
    case Some(d) =>
      var job := SqlJob(SetupScript(d.tables), sqlQuery, timeLimitMs);
      RunnerFinished(
        seq(|testcases|, i requires 0 <= i < |testcases| => TestcaseResult(engine(i, job), testcases[i], timeLimitMs)),
        None)
  }

  /** The SQL runner never reports a memory limit, and every result belongs
      to the testcase at its position. */
  lemma RunNeverMemoryLimit(sqlQuery: string, testcases: seq<Testcase>, dataset: Option<Dataset>, timeLimitMs: int,
                            engine: (nat, SqlJob) -> SqlAttempt)
    ensures var out := Run(sqlQuery, testcases, dataset, timeLimitMs, engine);
      out.RunnerFinished? ==>
        forall i :: 0 <= i < |out.results| ==>
          out.results[i].status != MLE && out.results[i].testcaseId == testcases[i].id
          && out.results[i].memoryMb == 0.0
  {
  }
}

=== FILE: submission_routes.dfy ===
/** The decisions inside the submission routes: the validation cascade of a
    new submission, the submission it creates and the job it queues, and who
    may read submissions. */
module SubmissionRoutes {
  import opened Wrappers
  import opened Models
  import Pagination

  // ---------------------------------------------------------------------------
  // the evaluation job

  const DefaultPriority := 10

  const JobAttempts := 3

  const BackoffDelayMs := 2000

  /** A queued evaluation.  The job id is the submission id, so a submission
      is queued at most once; failed jobs are retried with exponential
      back-off from `backoffDelayMs`. */
  datatype Job = Job(
    jobId: string,
    submissionId: string,
    userId: string,
    problemId: string,
    priority: int,
    attempts: nat,
    backoffDelayMs: nat
  )

  /** The job for a submission; a missing or zero priority means 10. */
  function SubmissionJob(submissionId: string, userId: string, problemId: string, priority: Option<int>): (j: Job)
    ensures j.jobId == submissionId && j.submissionId == submissionId
    ensures j.userId == userId && j.problemId == problemId
    ensures priority.Some? && priority.value != 0 ==> j.priority == priority.value
    ensures priority.None? || priority.value == 0 ==> j.priority == DefaultPriority
    ensures j.priority != 0
    ensures j.attempts == JobAttempts && j.backoffDelayMs == BackoffDelayMs
  {
    var p := if priority.Some? && priority.value != 0 then priority.value else DefaultPriority;
    Job(submissionId, submissionId, userId, problemId, p, JobAttempts, BackoffDelayMs)
  }

  // ---------------------------------------------------------------------------
  // submitting

  /** The request body; a field may be missing. */
  datatype SubmitBody = SubmitBody(problemId: Option<string>, language: Option<string>, code: Option<string>)

  predicate Truthy(s: Option<string>) {
    s.Some? && s.value != ""
  }

  /** Every required field present and non-empty. */
  predicate Complete(body: SubmitBody) {
    Truthy(body.problemId) && Truthy(body.language) && Truthy(body.code)
  }

  datatype SubmitResponse =
    | MissingFields
    | ProblemNotFound
    | LanguageNotAllowed
    | Created(submission: Submission, job: Job)

  /** The HTTP status each response carries. */
  function HttpStatus(r: SubmitResponse): nat {
    match r
    case MissingFields => 400
    case ProblemNotFound => 404
    case LanguageNotAllowed => 400
    case Created(_, _) => 201
  }

  /** A fresh submission: pending, no verdict, no results, expecting one
      result per testcase of the problem. */
  function NewSubmission(id: string, userId: string, problemId: string, language: string, code: string,
                         p: Problem): (s: Submission)
    ensures s.status == Pending && s.verdict.None? && s.results == [] && s.compileOutput.None?
    ensures s.totalTests == |p.testcases| && s.totalPassed == 0 && s.totalRuntimeMs == 0.0
    ensures s.id == id && s.userId == userId && s.problemId == problemId && s.language == language && s.code == code
  {
    Submission(id, userId, problemId, language, code, Pending, None, [], None, 0.0, 0, |p.testcases|)
  }

  /** The submit handler.  Missing fields are rejected before any lookup; then
      an unknown problem; then a language the problem does not allow.
      Otherwise the new submission is stored and queued under its own id. */
  function Submit(body: SubmitBody, userId: string, problems: string -> Option<Problem>, newId: string): (r: SubmitResponse)
    ensures r == MissingFields <==> !Complete(body)
    ensures r == ProblemNotFound <==> (Complete(body) && problems(body.problemId.value).None?)
    ensures r == LanguageNotAllowed <==>
      (Complete(body) && problems(body.problemId.value).Some?
       && body.language.value !in problems(body.problemId.value).value.allowedLanguages)
    ensures r.Created? ==>
      && r.submission == NewSubmission(newId, userId, body.problemId.value, body.language.value, body.code.value,
                                       problems(body.problemId.value).value)
      && body.language.value in problems(body.problemId.value).value.allowedLanguages
      && r.job == SubmissionJob(newId, userId, body.problemId.value, None)
    ensures r.Created? <==> HttpStatus(r) == 201
  {
    if !Truthy(body.problemId) || !Truthy(body.language) || !Truthy(body.code) then MissingFields
    else
      var problem := problems(body.problemId.value);
      if problem.None? then ProblemNotFound
      else if body.language.value !in problem.value.allowedLanguages then LanguageNotAllowed
      else
        var s := NewSubmission(newId, userId, body.problemId.value, body.language.value, body.code.value, problem.value);
        Created(s, SubmissionJob(newId, userId, body.problemId.value, None))
  }

  // ---------------------------------------------------------------------------
  // reading

  /** The requester: their user id and, when their account was loaded, role. */
  datatype Requester = Requester(userId: string, role: Option<Role>)

  predicate IsAdmin(r: Requester) {
    r.role == Some(ADMIN)
  }

  datatype ReadResponse<T> = NotFound | AccessDenied | Found(value: T)

  /** Reading one submission: 404 when it does not exist, 403 unless the
      requester owns it or is an admin. */
  function ReadSubmission(s: Option<Submission>, who: Requester): (r: ReadResponse<Submission>)
    ensures r.NotFound? <==> s.None?
    ensures r.AccessDenied? <==> s.Some? && s.value.userId != who.userId && !IsAdmin(who)
    ensures r.Found? ==> r.value == s.value
  {
    if s.None? then NotFound
    else if s.value.userId != who.userId && !IsAdmin(who) then AccessDenied
    else Found(s.value)
  }

  /** Listing a user's submissions: allowed for that user and for admins. */
  function MayListSubmissionsOf(owner: string, who: Requester): (ok: bool)
    ensures ok <==> owner == who.userId || IsAdmin(who)
  {
    !(owner != who.userId && !IsAdmin(who))
  }

  /** Whoever may list a user's submissions may read each of them. */
  lemma ListingImpliesReading(s: Submission, who: Requester)
    requires MayListSubmissionsOf(s.userId, who)
    ensures ReadSubmission(Some(s), who) == Found(s)
  {
  }

  /** A user who is not an admin reads exactly their own submissions. */
  lemma NonAdminReadsOwnOnly(s: Submission, who: Requester)
    requires !IsAdmin(who)
    ensures ReadSubmission(Some(s), who).Found? <==> s.userId == who.userId
  {
  }

  /** A page of a user's submissions: where it starts and how many pages there
      are, once the requester is allowed to list them. */
  datatype Listing = Listing(window: Pagination.Window, totalPages: Option<int>)

  function ListSubmissions(owner: string, who: Requester, pageParam: Option<string>, limitParam: Option<string>,
                           total: nat): (r: ReadResponse<Listing>)
    ensures r.NotFound? == false
    ensures r.AccessDenied? <==> !(owner == who.userId || IsAdmin(who))
    ensures r.Found? ==>
      && r.value.window == Pagination.WindowOf(pageParam, limitParam)
      && r.value.totalPages == Pagination.TotalPages(total, r.value.window.limit)
  {
    if !MayListSubmissionsOf(owner, who) then AccessDenied
    else
      var w := Pagination.WindowOf(pageParam, limitParam);
      Found(Listing(w, Pagination.TotalPages(total, w.limit)))
  }
}

=== FILE: text.dfy ===
/** The JavaScript string primitives the evaluator relies on (`split`, `join`,
    `trim`, `trimEnd`, `toLowerCase`, `replace`, splitting on `/\s+/`), written
    over `seq<char>`.  Whitespace and case are approximated on ASCII. */
module Text {

  /** The whitespace class: ASCII space, tab, line feed, carriage return,
      vertical tab and form feed. */
  predicate IsSpace(c: char) {
    c == ' ' || c == '\t' || c == '\n' || c == '\r' || c == '\U{B}' || c == '\U{C}'
  }

  predicate AllSpace(s: string) {
    forall i :: 0 <= i < |s| ==> IsSpace(s[i])
  }

  predicate NoSpace(s: string) {
    forall i :: 0 <= i < |s| ==> !IsSpace(s[i])
  }

  // ---------------------------------------------------------------------------
  // sequence bookkeeping

  /** `n` copies of `x`. */
  function Repeat<T>(x: T, n: nat): (r: seq<T>)
    ensures |r| == n
    ensures forall i :: 0 <= i < n ==> r[i] == x
  {
    seq(n, i requires 0 <= i < n => x)
  }

  lemma AppendAssoc<T>(a: seq<T>, b: seq<T>, c: seq<T>)
    ensures a + (b + c) == (a + b) + c
  {
  }

  lemma ConsAppend<T>(x: seq<T>, s: seq<T>)
    requires |x| > 0
    ensures x + s == [x[0]] + (x[1..] + s)
  {
    assert x == [x[0]] + x[1..];
  }

  lemma AppendHead<T>(p: seq<T>, s: seq<T>)
    requires |s| > 0
    ensures p + s == (p + [s[0]]) + s[1..]
  {
    assert s == [s[0]] + s[1..];
    AppendAssoc(p, [s[0]], s[1..]);
  }

  lemma AppendEmpty<T>(a: seq<T>)
    ensures a + [] == a && [] + a == a
  {
  }

  /** `toLowerCase` on one ASCII character. */
  function Lower(c: char): char {
    if 'A' <= c <= 'Z' then (c as int + 32) as char else c
  }

  function ToLower(s: string): (r: string)
    ensures |r| == |s|
    ensures forall i :: 0 <= i < |s| ==> r[i] == Lower(s[i])
  {
    seq(|s|, i requires 0 <= i < |s| => Lower(s[i]))
  }

  /** `toLowerCase` applied only when the flag is set. */
  function Fold(s: string, ignoreCase: bool): string {
    if ignoreCase then ToLower(s) else s
  }

  // ---------------------------------------------------------------------------
  // trim, trimStart, trimEnd

  function TrimEnd(s: string): (r: string)
    ensures |r| <= |s| && r == s[..|r|]
    ensures AllSpace(s[|r|..])
    ensures |r| > 0 ==> !IsSpace(r[|r| - 1])
    decreases |s|
  {
    if |s| > 0 && IsSpace(s[|s| - 1]) then
      var r := TrimEnd(s[..|s| - 1]);
      TrimEndStep(s, r);
      r
    else s
  }

  /** A trailing whitespace character joins the whitespace trimmed after
      the rest. */
  lemma TrimEndStep(s: string, r: string)
    requires |s| > 0 && IsSpace(s[|s| - 1])
    requires |r| <= |s| - 1 && r == s[..|s| - 1][..|r|] && AllSpace(s[..|s| - 1][|r|..])
    ensures r == s[..|r|] && AllSpace(s[|r|..])
  {
    var init := s[..|s| - 1];
    assert init[..|r|] == s[..|r|];
    forall i | 0 <= i < |s| - |r|
      ensures IsSpace(s[|r|..][i])
    {
      if |r| + i < |s| - 1 {
        assert s[|r|..][i] == init[|r|..][i];
      }
    }
  }

  function TrimStart(s: string): (r: string)
    ensures |r| <= |s| && r == s[|s| - |r|..]
    ensures AllSpace(s[..|s| - |r|])
    ensures |r| > 0 ==> !IsSpace(r[0])
    decreases |s|
  {
    if |s| > 0 && IsSpace(s[0]) then TrimStart(s[1..]) else s
  }

  function Trim(s: string): string {
    TrimStart(TrimEnd(s))
  }

  lemma TrimEndAppendSpace(a: string, w: string)
    requires AllSpace(w)
    ensures TrimEnd(a + w) == TrimEnd(a)
    decreases |w|
  {
    if |w| > 0 {
      var w' := w[..|w| - 1];
      assert (a + w)[..|a + w| - 1] == a + w';
      TrimEndAppendSpace(a, w');
    } else {
      assert a + w == a;
    }
  }

  lemma {:induction false} TrimStartPrependSpace(w: string, a: string)
    requires AllSpace(w)
    ensures TrimStart(w + a) == TrimStart(a)
    decreases |w|
  {
    if |w| > 0 {
      ConsAppend(w, a);
      assert AllSpace(w[1..]) by {
        forall i | 0 <= i < |w| - 1 ensures IsSpace(w[1..][i]) {
          assert w[1..][i] == w[i + 1];
        }
      }
      TrimStartPrependSpace(w[1..], a);
      assert TrimStart([w[0]] + (w[1..] + a)) == TrimStart(w[1..] + a) by {
        assert ([w[0]] + (w[1..] + a))[1..] == w[1..] + a;
      }
    } else {
      AppendEmpty(a);
    }
  }

  lemma TrimStartOfNonSpace(s: string)
    requires |s| > 0 && !IsSpace(s[0])
    ensures TrimStart(s) == s
  {
  }

  lemma TrimEndOfNonSpace(s: string)
    requires |s| > 0 && !IsSpace(s[|s| - 1])
    ensures TrimEnd(s) == s
  {
  }

  // ---------------------------------------------------------------------------
  // split and join on one separator character

  /** The position of the first occurrence of `c`. */
  function IndexOf<T(==)>(s: seq<T>, c: T): (i: nat)
    requires c in s
    ensures i < |s| && s[i] == c && c !in s[..i]
  {
    if s[0] == c then 0 else 1 + IndexOf(s[1..], c)
  }

  /** Appending leaves the first occurrence of anything already present. */
  lemma {:induction false} IndexOfSnoc<T>(s: seq<T>, x: T, c: T)
    requires c in s
    ensures c in s + [x] && IndexOf(s + [x], c) == IndexOf(s, c)
    decreases |s|
  {
    var t := s + [x];
    assert t[0] == s[0];
    if s[0] != c {
      assert t[1..] == s[1..] + [x];
      IndexOfSnoc(s[1..], x, c);
    }
  }

  /** A new element first occurs where it is appended. */
  lemma {:induction false} IndexOfAppended<T>(s: seq<T>, c: T)
    requires c !in s
    ensures c in s + [c] && IndexOf(s + [c], c) == |s|
    decreases |s|
  {
    var t := s + [c];
    if |s| > 0 {
      assert t[0] == s[0];
      assert t[1..] == s[1..] + [c];
      IndexOfAppended(s[1..], c);
    }
  }

  lemma IndexOfAfterPrefix(a: string, c: char, b: string)
    requires c !in a
    ensures c in a + [c] + b && IndexOf(a + [c] + b, c) == |a|
  {
    var s := a + [c] + b;
    assert s[|a|] == c;
  }

  /** `s.split(sep)`: the pieces between occurrences of `sep`, at least one. */
  function Split(s: string, sep: char): (parts: seq<string>)
    ensures |parts| >= 1
    ensures forall k :: 0 <= k < |parts| ==> sep !in parts[k]
    decreases |s|
  {
    if sep !in s then [s]
    else
      var i := IndexOf(s, sep);
      [s[..i]] + Split(s[i + 1..], sep)
  }

  /** `parts.join(sep)`. */
  function Join(parts: seq<string>, sep: string): string
    decreases |parts|
  {
    if |parts| == 0 then ""
    else if |parts| == 1 then parts[0]
    else parts[0] + sep + Join(parts[1..], sep)
  }

  lemma SplitAfterPrefix(a: string, sep: char, b: string)
    requires sep !in a
    ensures Split(a + [sep] + b, sep) == [a] + Split(b, sep)
  {
    IndexOfAfterPrefix(a, sep, b);
    var s := a + [sep] + b;
    assert s[..|a|] == a;
    assert s[|a| + 1..] == b;
  }

  /** Joining the pieces of a split with the same separator gives the text back. */
  lemma SplitUnfold(s: string, sep: char)
    requires sep in s
    ensures Split(s, sep) == [s[..IndexOf(s, sep)]] + Split(s[IndexOf(s, sep) + 1..], sep)
  {
  }

  lemma AroundIndex<T>(s: seq<T>, i: nat)
    requires i < |s|
    ensures s == s[..i] + [s[i]] + s[i + 1..]
  {
  }

  lemma {:induction false} JoinSplit(s: string, sep: char)
    ensures Join(Split(s, sep), [sep]) == s
    decreases |s|
  {
    if sep in s {
      var i := IndexOf(s, sep);
      var rest := s[i + 1..];
      SplitUnfold(s, sep);
      JoinSplit(rest, sep);
      JoinCons(s[..i], Split(rest, sep), [sep]);
      AroundIndex(s, i);
    } else {
      assert Split(s, sep) == [s];
    }
  }

  /** Splitting a join of separator-free pieces gives the pieces back. */
  lemma {:induction false} SplitJoin(parts: seq<string>, sep: char)
    requires |parts| >= 1
    requires forall k :: 0 <= k < |parts| ==> sep !in parts[k]
    ensures Split(Join(parts, [sep]), sep) == parts
    decreases |parts|
  {
    if |parts| == 1 {
      assert Join(parts, [sep]) == parts[0];
      assert Split(parts[0], sep) == [parts[0]];
    } else {
      var tail := parts[1..];
      assert forall k :: 0 <= k < |tail| ==> sep !in tail[k] by {
        forall k | 0 <= k < |tail| ensures sep !in tail[k] {
          assert tail[k] == parts[k + 1];
        }
      }
      SplitJoin(tail, sep);
      assert Join(parts, [sep]) == parts[0] + [sep] + Join(tail, [sep]);
      SplitAfterPrefix(parts[0], sep, Join(tail, [sep]));
      assert [parts[0]] + tail == parts;
    }
  }

  // ---------------------------------------------------------------------------
  // replace

  /** Every CRLF pair replaced by a lone LF, scanning left to right. */
  function ReplaceCrLf(s: string): string
    decreases |s|
  {
    if |s| == 0 then ""
    else if |s| >= 2 && s[0] == '\r' && s[1] == '\n' then "\n" + ReplaceCrLf(s[2..])
    else [s[0]] + ReplaceCrLf(s[1..])
  }

  /** Every occurrence of the character `x` replaced by `y`. */
  function ReplaceChar(s: string, x: char, y: char): string
    decreases |s|
  {
    if |s| == 0 then ""
    else [if s[0] == x then y else s[0]] + ReplaceChar(s[1..], x, y)
  }

  lemma ReplaceCrLfWithoutCr(s: string)
    requires '\r' !in s
    ensures ReplaceCrLf(s) == s
    decreases |s|
  {
    if |s| > 0 {
      assert s == [s[0]] + s[1..];
      ReplaceCrLfWithoutCr(s[1..]);
    }
  }

  lemma ReplaceCharAbsent(s: string, x: char, y: char)
    requires x !in s
    ensures ReplaceChar(s, x, y) == s
    decreases |s|
  {
    if |s| > 0 {
      assert s == [s[0]] + s[1..];
      ReplaceCharAbsent(s[1..], x, y);
    }
  }

  lemma ReplaceCharRemoves(s: string, x: char, y: char)
    requires x != y
    ensures x !in ReplaceChar(s, x, y)
    decreases |s|
  {
    if |s| > 0 {
      ReplaceCharRemoves(s[1..], x, y);
    }
  }

  lemma ReplaceCrLfConsPlain(c: char, s: string)
    requires c != '\r'
    ensures ReplaceCrLf([c] + s) == [c] + ReplaceCrLf(s)
  {
    assert ([c] + s)[1..] == s;
  }

  lemma {:induction false} ReplaceCrLfAppend(a: string, b: string)
    requires '\r' !in a
    ensures ReplaceCrLf(a + b) == a + ReplaceCrLf(b)
    decreases |a|
  {
    if |a| > 0 {
      assert a[0] != '\r' && '\r' !in a[1..];
      ReplaceCrLfAppend(a[1..], b);
      ConsAppend(a, b);
      ReplaceCrLfConsPlain(a[0], a[1..] + b);
      ConsAppend(a, ReplaceCrLf(b));
    } else {
      AppendEmpty(b);
      AppendEmpty(ReplaceCrLf(b));
    }
  }

  lemma ReplaceCharAppend(a: string, b: string, x: char, y: char)
    ensures ReplaceChar(a + b, x, y) == ReplaceChar(a, x, y) + ReplaceChar(b, x, y)
    decreases |a|
  {
    if |a| > 0 {
      assert (a + b)[1..] == a[1..] + b;
      ReplaceCharAppend(a[1..], b, x, y);
    } else {
      assert a + b == b;
    }
  }

  // ---------------------------------------------------------------------------
  // tokens: the non-empty pieces of a split on whitespace runs

  /** Length of the leading run of non-whitespace characters. */
  function WordLength(s: string): (n: nat)
    ensures n <= |s|
    ensures forall i :: 0 <= i < n ==> !IsSpace(s[i])
    ensures n < |s| ==> IsSpace(s[n])
    decreases |s|
  {
    if |s| == 0 || IsSpace(s[0]) then 0 else 1 + WordLength(s[1..])
  }

  /** The non-empty pieces of splitting on whitespace runs, that is, the
      maximal runs of non-whitespace characters, left to right. */
  function Tokens(s: string): (ts: seq<string>)
    ensures forall k :: 0 <= k < |ts| ==> |ts[k]| > 0 && NoSpace(ts[k])
    decreases |s|
  {
    if |s| == 0 then []
    else if IsSpace(s[0]) then Tokens(s[1..])
    else
      var n := WordLength(s);
      [s[..n]] + Tokens(s[n..])
  }

  lemma WordLengthBeforeSpace(a: string, c: char, b: string)
    requires IsSpace(c)
    ensures WordLength(a + [c] + b) == WordLength(a)
    decreases |a|
  {
    if |a| > 0 && !IsSpace(a[0]) {
      assert (a + [c] + b)[1..] == a[1..] + [c] + b;
      WordLengthBeforeSpace(a[1..], c, b);
    }
  }

  lemma TokensOfWordStart(s: string)
    requires |s| > 0 && !IsSpace(s[0])
    ensures Tokens(s) == [s[..WordLength(s)]] + Tokens(s[WordLength(s)..])
  {
  }

  lemma TokensOfSpaceStart(s: string)
    requires |s| > 0 && IsSpace(s[0])
    ensures Tokens(s) == Tokens(s[1..])
  {
  }

  /** A whitespace character separates the tokens on its two sides. */
  lemma {:induction false} TokensAroundSpace(a: string, c: char, b: string)
    requires IsSpace(c)
    ensures Tokens(a + [c] + b) == Tokens(a) + Tokens(b)
    decreases |a|
  {
    var s := a + [c] + b;
    if |a| == 0 {
      assert s == [c] + b;
      TokensOfSpaceStart(s);
      assert s[1..] == b;
      AppendEmpty(Tokens(b));
    } else if IsSpace(a[0]) {
      assert s[1..] == a[1..] + [c] + b;
      TokensOfSpaceStart(s);
      TokensOfSpaceStart(a);
      TokensAroundSpace(a[1..], c, b);
    } else {
      WordLengthBeforeSpace(a, c, b);
      var n := WordLength(a);
      assert s[..n] == a[..n];
      assert s[n..] == a[n..] + [c] + b;
      TokensOfWordStart(s);
      TokensOfWordStart(a);
      TokensAroundSpace(a[n..], c, b);
      AppendAssoc([a[..n]], Tokens(a[n..]), Tokens(b));
    }
  }

  lemma {:induction false} TokensOfSpace(w: string)
    requires AllSpace(w)
    ensures Tokens(w) == []
    decreases |w|
  {
    if |w| > 0 {
      TokensOfSpace(w[1..]);
    }
  }

  lemma TokensAppendSpace(a: string, w: string)
    requires AllSpace(w)
    ensures Tokens(a + w) == Tokens(a)
  {
    if |w| == 0 {
      assert a + w == a;
    } else {
      assert a + w == a + [w[0]] + w[1..];
      TokensAroundSpace(a, w[0], w[1..]);
      TokensOfSpace(w[1..]);
    }
  }

  lemma TokensPrependSpace(w: string, a: string)
    requires AllSpace(w)
    ensures Tokens(w + a) == Tokens(a)
  {
    if |w| == 0 {
      assert w + a == a;
    } else {
      var last := w[|w| - 1];
      assert w + a == w[..|w| - 1] + [last] + a;
      TokensAroundSpace(w[..|w| - 1], last, a);
      TokensOfSpace(w[..|w| - 1]);
    }
  }

  /** Trimming never changes the tokens. */
  lemma TokensTrimEnd(s: string)
    ensures Tokens(TrimEnd(s)) == Tokens(s)
  {
    var r := TrimEnd(s);
    assert s == r + s[|r|..];
    TokensAppendSpace(r, s[|r|..]);
  }

  lemma TokensTrimStart(s: string)
    ensures Tokens(TrimStart(s)) == Tokens(s)
  {
    var k := |s| - |TrimStart(s)|;
    assert s[..k] + s[k..] == s;
    TokensPrependSpace(s[..k], s[k..]);
  }

  lemma TokensTrim(s: string)
    ensures Tokens(Trim(s)) == Tokens(s)
  {
    TokensTrimEnd(s);
    TokensTrimStart(TrimEnd(s));
  }

  /** The tokens of every piece, in order. */
  function TokensOfAll(parts: seq<string>): seq<string>
    decreases |parts|
  {
    if |parts| == 0 then [] else Tokens(parts[0]) + TokensOfAll(parts[1..])
  }

  lemma {:induction false} TokensOfJoin(parts: seq<string>, c: char)
    requires IsSpace(c)
    ensures Tokens(Join(parts, [c])) == TokensOfAll(parts)
    decreases |parts|
  {
    if |parts| == 1 {
      assert TokensOfAll(parts[1..]) == [];
    } else if |parts| > 1 {
      TokensOfJoin(parts[1..], c);
      TokensAroundSpace(parts[0], c, Join(parts[1..], [c]));
    }
  }

  /** Two adjacent whitespace characters separate tokens exactly as one does. */
  lemma TokensDoubleSpace(p: string, c: char, d: char, rest: string)
    requires IsSpace(c) && IsSpace(d)
    ensures Tokens(p + [c, d] + rest) == Tokens(p + [d] + rest)
  {
    assert p + [c, d] + rest == p + [c] + ([d] + rest);
    TokensAroundSpace(p, c, [d] + rest);
    assert [d] + rest == [] + [d] + rest;
    TokensAroundSpace([], d, rest);
    TokensAroundSpace(p, d, rest);
  }

  lemma {:induction false} TokensReplaceCrLf(p: string, s: string)
    ensures Tokens(p + ReplaceCrLf(s)) == Tokens(p + s)
    decreases |s|
  {
    if |s| == 0 {
      assert ReplaceCrLf(s) == s;
    } else if |s| >= 2 && s[0] == '\r' && s[1] == '\n' {
      var rest := s[2..];
      TokensReplaceCrLf(p + "\n", rest);
      ReplaceCrLfStepPair(p, s);
      TokensDoubleSpace(p, '\r', '\n', rest);
    } else {
      TokensReplaceCrLf(p + [s[0]], s[1..]);
      ReplaceCrLfStepOne(p, s);
    }
  }

  lemma ReplaceCrLfStepPair(p: string, s: string)
    requires |s| >= 2 && s[0] == '\r' && s[1] == '\n'
    ensures p + ReplaceCrLf(s) == (p + "\n") + ReplaceCrLf(s[2..])
    ensures p + s == p + ['\r', '\n'] + s[2..]
    ensures (p + "\n") + s[2..] == p + ['\n'] + s[2..]
  {
    var r := ReplaceCrLf(s[2..]);
    assert ReplaceCrLf(s) == "\n" + r;
    AppendAssoc(p, "\n", r);
    assert s == ['\r', '\n'] + s[2..];
    AppendAssoc(p, ['\r', '\n'], s[2..]);
  }

  lemma ReplaceCrLfUnfoldOne(s: string)
    requires |s| > 0 && !(|s| >= 2 && s[0] == '\r' && s[1] == '\n')
    ensures ReplaceCrLf(s) == [s[0]] + ReplaceCrLf(s[1..])
  {
  }

  lemma ReplaceCrLfStepOne(p: string, s: string)
    requires |s| > 0 && !(|s| >= 2 && s[0] == '\r' && s[1] == '\n')
    ensures p + ReplaceCrLf(s) == (p + [s[0]]) + ReplaceCrLf(s[1..])
    ensures p + s == (p + [s[0]]) + s[1..]
  {
    ReplaceCrLfUnfoldOne(s);
    AppendAssoc(p, [s[0]], ReplaceCrLf(s[1..]));
    AppendHead(p, s);
  }

  lemma ReplaceCharCons(s: string, x: char, y: char)
    requires |s| > 0
    ensures ReplaceChar(s, x, y) == [if s[0] == x then y else s[0]] + ReplaceChar(s[1..], x, y)
  {
  }

  lemma {:induction false} TokensReplaceSpace(p: string, s: string, x: char, y: char)
    requires IsSpace(x) && IsSpace(y)
    ensures Tokens(p + ReplaceChar(s, x, y)) == Tokens(p + s)
    decreases |s|
  {
    if |s| == 0 {
      assert ReplaceChar(s, x, y) == s;
    } else {
      var c := if s[0] == x then y else s[0];
      var r := ReplaceChar(s[1..], x, y);
      ReplaceCharCons(s, x, y);
      AppendAssoc(p, [c], r);
      TokensReplaceSpace(p + [c], s[1..], x, y);
      AppendHead(p, s);
      if s[0] == x {
        TokensAroundSpace(p, y, s[1..]);
        TokensAroundSpace(p, x, s[1..]);
      }
    }
  }

  // ---------------------------------------------------------------------------
  // collapsing every whitespace run to one space

  function CollapseSpaces(s: string): string
    decreases |s|
  {
    if |s| == 0 then ""
    else if IsSpace(s[0]) then " " + CollapseSpaces(TrimStart(s[1..]))
    else [s[0]] + CollapseSpaces(s[1..])
  }

  lemma NoSpaceTail(w: string)
    requires |w| > 0 && NoSpace(w)
    ensures NoSpace(w[1..]) && !IsSpace(w[0])
  {
    forall i | 0 <= i < |w| - 1 ensures !IsSpace(w[1..][i]) {
      assert w[1..][i] == w[i + 1];
    }
  }

  lemma CollapseSpacesCons(c: char, s: string)
    requires !IsSpace(c)
    ensures CollapseSpaces([c] + s) == [c] + CollapseSpaces(s)
  {
    assert ([c] + s)[1..] == s;
  }

  lemma {:induction false} CollapseSpacesAfterWord(w: string, s: string)
    requires NoSpace(w)
    ensures CollapseSpaces(w + s) == w + CollapseSpaces(s)
    decreases |w|
  {
    if |w| == 0 {
      assert w + s == s;
      assert w + CollapseSpaces(s) == CollapseSpaces(s);
    } else {
      NoSpaceTail(w);
      CollapseSpacesAfterWord(w[1..], s);
      ConsAppend(w, s);
      CollapseSpacesCons(w[0], w[1..] + s);
      ConsAppend(w, CollapseSpaces(s));
    }
  }

  lemma WordLengthOfNoSpace(w: string)
    requires NoSpace(w)
    ensures WordLength(w) == |w|
    decreases |w|
  {
    if |w| > 0 {
      WordLengthOfNoSpace(w[1..]);
    }
  }

  lemma NoSpaceTokens(w: string)
    requires |w| > 0 && NoSpace(w)
    ensures Tokens(w) == [w]
  {
    WordLengthOfNoSpace(w);
    assert w[..|w|] == w;
    assert w[|w|..] == [];
  }

  lemma JoinCons(x: string, xs: seq<string>, sep: string)
    requires |xs| >= 1
    ensures Join([x] + xs, sep) == x + sep + Join(xs, sep)
  {
    assert ([x] + xs)[1..] == xs;
  }

  lemma TrimStartKeepsLast(x: string)
    requires |x| > 0 && !IsSpace(x[|x| - 1])
    ensures |TrimStart(x)| > 0 && TrimStart(x)[|TrimStart(x)| - 1] == x[|x| - 1]
    decreases |x|
  {
    if IsSpace(x[0]) {
      TrimStartKeepsLast(x[1..]);
    }
  }

  lemma FirstWordSplit(s: string)
    requires |s| > 0 && !IsSpace(s[0])
    ensures WordLength(s) > 0 && s == s[..WordLength(s)] + s[WordLength(s)..]
    ensures NoSpace(s[..WordLength(s)])
    ensures WordLength(s) < |s| ==> IsSpace(s[WordLength(s)..][0])
    ensures WordLength(s) < |s| ==> s[WordLength(s)..][|s[WordLength(s)..]| - 1] == s[|s| - 1]
  {
  }

  lemma TrimmedAfterSpace(rest: string)
    requires |rest| > 0 && IsSpace(rest[0]) && !IsSpace(rest[|rest| - 1])
    ensures |TrimStart(rest[1..])| > 0
    ensures !IsSpace(TrimStart(rest[1..])[0])
    ensures !IsSpace(TrimStart(rest[1..])[|TrimStart(rest[1..])| - 1])
    ensures |TrimStart(rest[1..])| < |rest|
  {
    var x := rest[1..];
    assert |x| > 0;
    assert x[|x| - 1] == rest[|rest| - 1];
    TrimStartKeepsLast(x);
  }

  /** After a gap, collapsing writes one space and continues past the run,
      and the tokens are those after the run. */
  lemma CollapseSpacesOfGap(rest: string)
    requires |rest| > 0 && IsSpace(rest[0])
    ensures CollapseSpaces(rest) == " " + CollapseSpaces(TrimStart(rest[1..]))
    ensures Tokens(rest) == Tokens(TrimStart(rest[1..]))
  {
    assert Tokens(rest) == Tokens(rest[1..]);
    TokensTrimStart(rest[1..]);
  }

  /** On a text with no whitespace at either end, collapsing whitespace runs
      joins its tokens with single spaces. */
  lemma {:induction false} CollapseSpacesJoinsTokens(s: string)
    requires |s| > 0 ==> !IsSpace(s[0]) && !IsSpace(s[|s| - 1])
    ensures CollapseSpaces(s) == Join(Tokens(s), " ")
    decreases |s|
  {
    if |s| > 0 {
      FirstWordSplit(s);
      var w := s[..WordLength(s)];
      var rest := s[WordLength(s)..];
      CollapseSpacesAfterWord(w, rest);
      TokensOfWordStart(s);
      if |rest| == 0 {
        assert Tokens(rest) == [];
        assert CollapseSpaces(rest) == "";
        assert w + "" == w;
      } else {
        TrimmedAfterSpace(rest);
        var t := TrimStart(rest[1..]);
        CollapseSpacesOfGap(rest);
        CollapseSpacesJoinsTokens(t);
        TokensOfWordStart(t);
        JoinCons(w, Tokens(t), " ");
        AppendAssoc(w, " ", CollapseSpaces(t));
      }
    }
  }

  // ---------------------------------------------------------------------------
  // number formatting (template-literal interpolation of integers)

  function DigitChar(d: nat): char
    requires d < 10
  {
    "0123456789"[d]
  }

  function NatToString(n: nat): (r: string)
    ensures |r| > 0
    decreases n
  {
    if n < 10 then [DigitChar(n)] else NatToString(n / 10) + [DigitChar(n % 10)]
  }

  function IntToString(i: int): string {
    if i < 0 then "-" + NatToString(-i) else NatToString(i)
  }

  // ---------------------------------------------------------------------------
  // counting characters

  function CountChar(s: string, c: char): nat
    decreases |s|
  {
    if |s| == 0 then 0 else (if s[0] == c then 1 else 0) + CountChar(s[1..], c)
  }

  lemma CountCharAppend(a: string, b: string, c: char)
    ensures CountChar(a + b, c) == CountChar(a, c) + CountChar(b, c)
    decreases |a|
  {
    if |a| > 0 {
      assert (a + b)[1..] == a[1..] + b;
      CountCharAppend(a[1..], b, c);
    } else {
      assert a + b == b;
    }
  }

  // ---------------------------------------------------------------------------
  // one character more at either end of a text

  lemma TrimEndOfSpaces(w: string)
    requires AllSpace(w)
    ensures TrimEnd(w) == []
  {
    TrimEndAppendSpace([], w);
    AppendEmpty(w);
  }

  lemma {:induction false} TrimEndCons(c: char, x: string)
    ensures TrimEnd([c] + x) == if IsSpace(c) && AllSpace(x) then [] else [c] + TrimEnd(x)
    decreases |x|
  {
    var cx := [c] + x;
    if |x| == 0 {
      AppendEmpty([c]);
      assert cx[..0] == [];
    } else {
      var y := x[..|x| - 1];
      assert cx[|cx| - 1] == x[|x| - 1];
      assert cx[..|cx| - 1] == [c] + y;
      if IsSpace(x[|x| - 1]) {
        TrimEndCons(c, y);
        assert AllSpace(x) <==> AllSpace(y) by {
          assert forall i :: 0 <= i < |y| ==> y[i] == x[i];
        }
      } else {
        assert !AllSpace(x);
      }
    }
  }

  lemma TrimOfSpaceCons(c: char, x: string)
    requires IsSpace(c)
    ensures Trim([c] + x) == Trim(x)
  {
    TrimEndCons(c, x);
    if AllSpace(x) {
      TrimEndOfSpaces(x);
    } else {
      var t := TrimEnd(x);
      assert ([c] + t)[1..] == t;
    }
  }

  lemma TrimOfSpaceSnoc(x: string, c: char)
    requires IsSpace(c)
    ensures Trim(x + [c]) == Trim(x)
  {
    TrimEndAppendSpace(x, [c]);
  }

  /** A leading character other than the separator joins the first piece. */
  lemma SplitCons(c: char, s: string, sep: char)
    requires c != sep
    ensures var p := Split(s, sep); Split([c] + s, sep) == [[c] + p[0]] + p[1..]
  {
    var cs := [c] + s;
    if sep in s {
      var i := IndexOf(s, sep);
      var head, tail := s[..i], s[i + 1..];
      AroundIndex(s, i);
      SplitAfterPrefix(head, sep, tail);
      AppendAssoc([c], head + [sep], tail);
      AppendAssoc([c], head, [sep]);
      assert sep !in [c] + head;
      SplitAfterPrefix([c] + head, sep, tail);
    } else {
      assert sep !in cs;
    }
  }

  lemma {:induction false} JoinSnoc(parts: seq<string>, x: string, sep: string)
    requires |parts| >= 1
    ensures Join(parts + [x], sep) == Join(parts, sep) + sep + x
    decreases |parts|
  {
    var px := parts + [x];
    if |parts| == 1 {
      assert px[1..] == [x];
    } else {
      assert px[1..] == parts[1..] + [x];
      JoinSnoc(parts[1..], x, sep);
      AppendAssoc(parts[0] + sep, Join(parts[1..], sep), sep + x);
      AppendAssoc(parts[0] + sep + Join(parts[1..], sep), sep, x);
      AppendAssoc(Join(parts[1..], sep), sep, x);
    }
  }

  lemma JoinHeadCons(c: char, parts: seq<string>, sep: string)
    requires |parts| >= 1
    ensures Join([[c] + parts[0]] + parts[1..], sep) == [c] + Join(parts, sep)
  {
    var q := [[c] + parts[0]] + parts[1..];
    if |parts| > 1 {
      assert q[1..] == parts[1..];
      AppendAssoc([c], parts[0], sep);
      AppendAssoc([c], parts[0] + sep, Join(parts[1..], sep));
    }
  }

  /** A separator more at the end adds an empty last piece. */
  lemma SplitSnocSep(s: string, sep: char)
    ensures Split(s + [sep], sep) == Split(s, sep) + [""]
  {
    var p := Split(s, sep);
    JoinSplit(s, sep);
    JoinSnoc(p, "", [sep]);
    AppendEmpty(s + [sep]);
    SplitJoin(p + [""], sep);
  }

  /** Any other character more at the end joins the last piece. */
  lemma SplitSnoc(s: string, c: char, sep: char)
    requires c != sep
    ensures var p := Split(s, sep);
      Split(s + [c], sep) == p[..|p| - 1] + [p[|p| - 1] + [c]]
  {
    var p := Split(s, sep);
    var n := |p|;
    var q := p[..n - 1] + [p[n - 1] + [c]];
    JoinSplit(s, sep);
    if n == 1 {
      assert Join(p, [sep]) == p[0];
      assert Join(q, [sep]) == p[0] + [c];
    } else {
      var init := p[..n - 1];
      assert p == init + [p[n - 1]];
      JoinSnoc(init, p[n - 1], [sep]);
      JoinSnoc(init, p[n - 1] + [c], [sep]);
      AppendAssoc(Join(init, [sep]) + [sep], p[n - 1], [c]);
    }
    assert forall k :: 0 <= k < |q| ==> sep !in q[k] by {
      forall k | 0 <= k < |q| ensures sep !in q[k] {
        if k < n - 1 { assert q[k] == p[k]; }
      }
    }
    SplitJoin(q, sep);
  }

  /** CRLF replacement works piecewise unless the cut falls inside a CRLF. */
  lemma {:induction false} ReplaceCrLfConcat(a: string, b: string)
    requires !(|a| > 0 && a[|a| - 1] == '\r' && |b| > 0 && b[0] == '\n')
    ensures ReplaceCrLf(a + b) == ReplaceCrLf(a) + ReplaceCrLf(b)
    decreases |a|
  {
    var ab := a + b;
    if |a| == 0 {
      AppendEmpty(b);
      AppendEmpty(ReplaceCrLf(b));
    } else if |a| >= 2 && a[0] == '\r' && a[1] == '\n' {
      assert ab[2..] == a[2..] + b;
      ReplaceCrLfConcat(a[2..], b);
      AppendAssoc("\n", ReplaceCrLf(a[2..]), ReplaceCrLf(b));
    } else {
      assert ab[1..] == a[1..] + b;
      assert !(|ab| >= 2 && ab[0] == '\r' && ab[1] == '\n');
      ReplaceCrLfConcat(a[1..], b);
      AppendAssoc([a[0]], ReplaceCrLf(a[1..]), ReplaceCrLf(b));
    }
  }

  // ---------------------------------------------------------------------------
  // trimming and splitting a text cut into pieces

  lemma {:induction false} TrimPrependSpace(w: string, y: string)
    requires AllSpace(w)
    ensures Trim(w + y) == Trim(y)
    decreases |w|
  {
    if |w| == 0 {
      AppendEmpty(y);
    } else {
      ConsAppend(w, y);
      assert AllSpace(w[1..]) by {
        forall i | 0 <= i < |w| - 1 ensures IsSpace(w[1..][i]) {
          assert w[1..][i] == w[i + 1];
        }
      }
      TrimOfSpaceCons(w[0], w[1..] + y);
      TrimPrependSpace(w[1..], y);
    }
  }

  lemma {:induction false} TrimAppendSpace(x: string, w: string)
    requires AllSpace(w)
    ensures Trim(x + w) == Trim(x)
    decreases |w|
  {
    if |w| == 0 {
      AppendEmpty(x);
    } else {
      var init := w[..|w| - 1];
      assert w == init + [w[|w| - 1]];
      AppendAssoc(x, init, [w[|w| - 1]]);
      TrimOfSpaceSnoc(x + init, w[|w| - 1]);
      TrimAppendSpace(x, init);
    }
  }

  /** Trimming the end of a text whose tail holds a non-space character
      leaves everything before the tail alone. */
  lemma {:induction false} TrimEndKeepsHead(a: string, b: string)
    requires !AllSpace(b)
    ensures TrimEnd(a + b) == a + TrimEnd(b)
    decreases |b|
  {
    var ab := a + b;
    var n := |b| - 1;
    if IsSpace(b[n]) {
      var b' := b[..n];
      assert !AllSpace(b') by {
        var i :| 0 <= i < |b| && !IsSpace(b[i]);
        assert b'[i] == b[i];
      }
      assert ab[..|ab| - 1] == a + b';
      TrimEndKeepsHead(a, b');
    } else {
      TrimEndOfNonSpace(b);
      TrimEndOfNonSpace(ab);
    }
  }

  /** Trimming the start of a text whose head holds a non-space character
      leaves everything after the head alone. */
  lemma {:induction false} TrimStartKeepsTail(a: string, b: string)
    requires !AllSpace(a)
    ensures TrimStart(a + b) == TrimStart(a) + b
    decreases |a|
  {
    var ab := a + b;
    if IsSpace(a[0]) {
      assert !AllSpace(a[1..]) by {
        var i :| 0 <= i < |a| && !IsSpace(a[i]);
        assert a[1..][i - 1] == a[i];
      }
      assert ab[1..] == a[1..] + b;
      TrimStartKeepsTail(a[1..], b);
    } else {
      TrimStartOfNonSpace(a);
      TrimStartOfNonSpace(ab);
    }
  }

  /** Splitting two texts joined by the separator splits each of them. */
  lemma {:induction false} SplitAround(a: string, sep: char, b: string)
    ensures Split(a + [sep] + b, sep) == Split(a, sep) + Split(b, sep)
    decreases |a|
  {
    if sep !in a {
      SplitAfterPrefix(a, sep, b);
    } else {
      var i := IndexOf(a, sep);
      var head, tail := a[..i], a[i + 1..];
      AroundIndex(a, i);
      var h := head + [sep];
      AppendAssoc(h, tail, [sep]);
      AppendAssoc(h, tail + [sep], b);
      SplitAfterPrefix(head, sep, tail + [sep] + b);
      SplitAfterPrefix(head, sep, tail);
      SplitAround(tail, sep, b);
      AppendAssoc([head], Split(tail, sep), Split(b, sep));
    }
  }

  /** The pieces of a whitespace text are whitespace. */
  lemma {:induction false} SplitOfSpace(w: string, sep: char)
    requires AllSpace(w)
    ensures forall k :: 0 <= k < |Split(w, sep)| ==> AllSpace(Split(w, sep)[k])
    decreases |w|
  {
    if sep in w {
      var i := IndexOf(w, sep);
      var tail := w[i + 1..];
      assert AllSpace(tail) by {
        forall j | 0 <= j < |tail| ensures IsSpace(tail[j]) {
          assert tail[j] == w[i + 1 + j];
        }
      }
      SplitOfSpace(tail, sep);
      SplitUnfold(w, sep);
    }
  }

  // ---------------------------------------------------------------------------
  // what trimming keeps

  /** `r` is `s` with a whitespace run cut off each end and no whitespace
      left at either end of `r`. */
  predicate StripsSpace(s: string, r: string) {
    exists i, j :: 0 <= i <= j <= |s| && AllSpace(s[..i]) && AllSpace(s[j..]) && r == s[i..j]
      && (|r| > 0 ==> !IsSpace(r[0]) && !IsSpace(r[|r| - 1]))
  }

  lemma TrimStripsSpace(s: string)
    ensures StripsSpace(s, Trim(s))
  {
    var t := TrimEnd(s);
    var r := Trim(s);
    var i, j := |t| - |r|, |t|;
    assert r == s[i..j];
    assert s[..i] == t[..i];
    if |r| > 0 {
      TrimStartKeepsLast(t);
    }
  }

  /** Only one text strips the space off `s`: the one `Trim` gives. */
  lemma StripsSpaceIsTrim(s: string, r: string)
    requires StripsSpace(s, r)
    ensures r == Trim(s)
  {
    var i, j :| 0 <= i <= j <= |s| && AllSpace(s[..i]) && AllSpace(s[j..]) && r == s[i..j]
      && (|r| > 0 ==> !IsSpace(r[0]) && !IsSpace(r[|r| - 1]));
    var a, b := s[..i], s[j..];
    assert s == a + r + b;
    TrimAppendSpace(a + r, b);
    TrimPrependSpace(a, r);
    if |r| > 0 {
      TrimEndOfNonSpace(r);
      TrimStartOfNonSpace(r);
    }
  }
}

=== FILE: verdict_logic.dfy ===
/** The overall verdict of a submission from its testcase outcomes. */
module VerdictLogic {
  import opened Wrappers
  import opened Models

  predicate AllPassed(statuses: seq<TestcaseStatus>) {
    forall i :: 0 <= i < |statuses| ==> statuses[i] == PASSED
  }

  /** Precedence: a compilation error first, then any runtime error, any time
      limit, any memory limit, any wrong answer; acceptance needs every
      testcase passed (so no testcases at all is accepted).  The last branch
      is a fallback the status type leaves unreachable (`ResolveNeverInternal`). */
  function Resolve(statuses: seq<TestcaseStatus>, hasCompilationError: bool): (v: Verdict)
    ensures v == CompilationError <==> hasCompilationError
    ensures !hasCompilationError ==> (v == RuntimeError <==> RE in statuses)
    ensures !hasCompilationError && RE !in statuses ==> (v == TimeLimitExceeded <==> TLE in statuses)
    ensures !hasCompilationError && RE !in statuses && TLE !in statuses ==>
      (v == MemoryLimitExceeded <==> MLE in statuses)
    ensures !hasCompilationError && RE !in statuses && TLE !in statuses && MLE !in statuses ==>
      (v == WrongAnswer <==> FAILED in statuses)
    ensures v == Accepted <==> !hasCompilationError && AllPassed(statuses)
  {
    if hasCompilationError then CompilationError
    else if RE in statuses then RuntimeError
    else if TLE in statuses then TimeLimitExceeded
    else if MLE in statuses then MemoryLimitExceeded
    else if FAILED in statuses then WrongAnswer
    else if AllPassed(statuses) then Accepted
    else InternalError
  }

  // ---------------------------------------------------------------------------
  // an independent reference: the worst outcome decides

  function Severity(s: TestcaseStatus): nat {
    match s
    case PASSED => 0
    case FAILED => 1
    case MLE => 2
    case TLE => 3
    case RE => 4
  }

  /** The most severe status of the list; `PASSED` for none. */
  function Worst(statuses: seq<TestcaseStatus>): TestcaseStatus
    decreases |statuses|
  {
    if |statuses| == 0 then PASSED
    else
      var rest := Worst(statuses[1..]);
      if Severity(statuses[0]) >= Severity(rest) then statuses[0] else rest
  }

  function VerdictOf(s: TestcaseStatus): Verdict {
    match s
    case PASSED => Accepted
    case FAILED => WrongAnswer
    case MLE => MemoryLimitExceeded
    case TLE => TimeLimitExceeded
    case RE => RuntimeError
  }

  lemma {:induction false} WorstIsMostSevere(statuses: seq<TestcaseStatus>)
    ensures forall i :: 0 <= i < |statuses| ==> Severity(statuses[i]) <= Severity(Worst(statuses))
    ensures |statuses| > 0 ==> Worst(statuses) in statuses
    decreases |statuses|
  {
    if |statuses| > 0 {
      WorstIsMostSevere(statuses[1..]);
      assert forall i :: 1 <= i < |statuses| ==> statuses[i] == statuses[1..][i - 1];
    }
  }

  /** Without a compilation error, the verdict is the verdict of the worst
      testcase outcome. */
  lemma ResolveIsWorst(statuses: seq<TestcaseStatus>)
    ensures Resolve(statuses, false) == VerdictOf(Worst(statuses))
  {
    WorstIsMostSevere(statuses);
    var w := Worst(statuses);
    if |statuses| > 0 {
      var k :| 0 <= k < |statuses| && statuses[k] == w;
    }
  }

  /** The fallback verdict is never produced. */
  lemma ResolveNeverInternal(statuses: seq<TestcaseStatus>, hasCompilationError: bool)
    ensures Resolve(statuses, hasCompilationError) != InternalError
  {
    if !hasCompilationError {
      ResolveIsWorst(statuses);
    }
  }

  /** Only which statuses occur matters: not their order, not how often. */
  lemma ResolveDependsOnlyOnSet(s: seq<TestcaseStatus>, t: seq<TestcaseStatus>, hasCompilationError: bool)
    requires forall x :: x in s <==> x in t
    ensures Resolve(s, hasCompilationError) == Resolve(t, hasCompilationError)
  {
    ResolveNeverInternal(s, hasCompilationError);
    ResolveNeverInternal(t, hasCompilationError);
    if !AllPassed(s) {
      var i :| 0 <= i < |s| && s[i] != PASSED;
      assert s[i] in t;
    }
    if !AllPassed(t) {
      var i :| 0 <= i < |t| && t[i] != PASSED;
      assert t[i] in s;
    }
  }

  /** One more testcase can only make the verdict worse or keep it. */
  lemma ResolveMonotone(s: seq<TestcaseStatus>, x: TestcaseStatus)
    ensures Severity(Worst(s)) <= Severity(Worst(s + [x]))
  {
    WorstIsMostSevere(s);
    WorstIsMostSevere(s + [x]);
    if |s| > 0 {
      var k :| 0 <= k < |s| && s[k] == Worst(s);
      assert (s + [x])[k] == s[k];
    }
  }

  // ---------------------------------------------------------------------------
  // first failing testcase

  datatype TestcaseOutcome = TestcaseOutcome(testcaseId: string, status: TestcaseStatus)

  /** The position of the first outcome at or after `i` that did not pass. */
  function FirstFailingFrom(outcomes: seq<TestcaseOutcome>, i: nat): (r: Option<nat>)
    requires i <= |outcomes|
    ensures r.None? <==> forall j :: i <= j < |outcomes| ==> outcomes[j].status == PASSED
    ensures r.Some? ==> i <= r.value < |outcomes| && outcomes[r.value].status != PASSED
    ensures r.Some? ==> forall j :: i <= j < r.value ==> outcomes[j].status == PASSED
    decreases |outcomes| - i
  {
    if i == |outcomes| then None
    else if outcomes[i].status != PASSED then Some(i)
    else FirstFailingFrom(outcomes, i + 1)
  }

  /** The first outcome that did not pass, if any. */
  function FirstFailing(outcomes: seq<TestcaseOutcome>): (r: Option<TestcaseOutcome>)
    ensures r.None? <==> forall j :: 0 <= j < |outcomes| ==> outcomes[j].status == PASSED
    ensures r.Some? ==> exists k :: 0 <= k < |outcomes| && outcomes[k] == r.value
                                    && r.value.status != PASSED
                                    && (forall j :: 0 <= j < k ==> outcomes[j].status == PASSED)
  {
    match FirstFailingFrom(outcomes, 0)
    case None => None
    case Some(k) => Some(outcomes[k])
  }

  /** There is a first failing testcase exactly when the verdict resolved
      from the same testcases' statuses is not accepted. */
  lemma FirstFailingIffNotAccepted(outcomes: seq<TestcaseOutcome>, statuses: seq<TestcaseStatus>)
    requires |statuses| == |outcomes|
    requires forall i :: 0 <= i < |outcomes| ==> statuses[i] == outcomes[i].status
    ensures FirstFailing(outcomes).None? <==> Resolve(statuses, false) == Accepted
  {
  }
}

=== FILE: wrappers.dfy ===
/** Optional values: JavaScript's `undefined`/`null` next to a present value. */
module Wrappers {

  datatype Option<+T> = None | Some(value: T) {

    /** The value when present, `default` otherwise (the `x ?? default` idiom). */
    function GetOr(default: T): T {
      match this
      case Some(v) => v
      case None => default
    }
  }
}
